=== FILE: README.md ===
# Member authentication and record services, modelled in Dafny

This project models the back end of a member-management service. It covers:

- passwordless registration and login by a six-digit one-time passcode (OTP) sent by email;
- the email-change flow, which shares the member's single OTP slot with login;
- the generated member ids (`A0101`: initial, two year digits, sequence number);
- the sliding-window rate limiter in front of `/api/auth/`;
- the cookie-based JWT gate and the token revocation list that logout writes;
- the per-member record services: payment methods with masked numbers, addresses,
  dependents, and numbered health and allergy records;
- the Bean Validation constraints on their request bodies.

Every operation is a pure function from a state to a new state and a result. Failures are
values of an error datatype (`AuthError`, `RecordError`, `IdError`) rather than
exceptions. A failed transactional operation returns the tables it started from, because
every exception the services raise is unchecked and rolls the transaction back. The outbox
is not transactional. `save` does not flush, so the unique email column rejects a row only
at commit. By then the operation has already handed its mail to the asynchronous sender.
After such a failure the tables are unchanged, but the mail stays queued.

Collaborators the services call but that are not part of this model become parameters:

- the clock: integer milliseconds;
- `new Random().nextInt(1000000)`: a `draw` argument;
- the current member id from the security context: a `memberId` argument;
- the JWT service and the user-details service: function arguments that return a value
  or throw.

The password encoder is an abstract `Hash` with `Matches(x, Encode(y)) <==> x == y`. Mail
is appended to an outbox, because every mail method runs `@Async` and its failures never
reach the caller. Database tables are sequences of rows with a key function (the generic
`Table` module). `save` with a caller-assigned key is a merge: it replaces the row with
the same key. The registrations awaiting their code, the revocation list and the Redis
sorted sets are maps.

Points of the code a reader might not expect, which the model keeps:

- No service calls the rate limiter per operation. Only the filter limits, per client
  address.
- `logout` revokes whatever string it is given, without validating it.
- OTPs come from `java.util.Random`, not a secure source.
- Sequence numbers past 99 are not refused: `%02d` simply prints three digits.

`@NotBlank` is modelled as Hibernate Validator implements it: the value is non-null and
non-empty after `trim()`. `@Pattern` is a whole-string match, and `\d` means the ASCII
digits.

## Model

| member | source | states |
|---|---|---|
| Otp.GenerateOtp | src/main/java/com/auth/service/AuthenticationService.java:142-144 | `%06d` of the draw is six ASCII digits whose value is the draw |
| Otp.GenerateOtpInjective | src/main/java/com/auth/service/AuthenticationService.java:142-144 | different draws give different codes |
| Otp.MatchesEncode | src/main/java/com/auth/service/AuthenticationService.java:46-66 | a stored encoding matches exactly the passcode it was made from |
| AuthService.Register | src/main/java/com/auth/service/AuthenticationService.java:34-53 | refused exactly when a member has the email; otherwise the pending record (hash, now + 5 min) replaces any earlier one for that email, nothing else changes, and the code is mailed |
| AuthService.NewMember | src/main/java/com/auth/service/AuthenticationService.java:72-78 | the new member carries the generated id, the verified email and the registration's name, contact and dob, with no login code and no expiry |
| AuthService.CompleteRegistration | src/main/java/com/auth/service/AuthenticationService.java:70-96 | an id failure leaves the state as it was; the save fails exactly when another member owns the email, and then the tables are unchanged but the welcome mail, handed to the sender before the commit, stays queued; on success the member is stored under the generated id, every other member's row stays, the pending record goes, the welcome mail is queued and a session for that id is issued |
| AuthService.VerifyEmailAsWritten | src/main/java/com/auth/service/AuthenticationService.java:56-97 | as the code behaves: a missing registration and an expired code fail; every failure, the expired one included, leaves the tables unchanged, and only a commit-time email clash leaves the welcome mail queued |
| AuthService.VerifyEmail | src/main/java/com/auth/service/AuthenticationService.java:56-97 | as intended: an expired registration is deleted and reported; a wrong code is reported and kept; a commit-time email clash leaves only the welcome mail queued; success implies an unexpired, matching code, removes the registration and stores the new member |
| AuthService.VerifyEmailVersionsAgree | src/main/java/com/auth/service/AuthenticationService.java:61-64 | the two versions agree on every input except an expired registration |
| AuthService.ExpiredRegistrationLingers | src/main/java/com/auth/service/AuthenticationService.java:61-64 | as written an expired registration survives and keeps reporting expiry; as intended the next attempt finds no registration |
| AuthService.SendOtp | src/main/java/com/auth/service/AuthenticationService.java:100-110 | an unknown email fails with no change; a known one fails only when another member owns the email, and then the code mail is already queued; on success the member's OTP slot holds the new hash and now + 1 min, every other member's row stays, no row is added, and the code is mailed to the member |
| AuthService.AcceptLoginCode | src/main/java/com/auth/service/AuthenticationService.java:121-134 | a non-matching code fails `InvalidOtp` with no change; a match fails only on an email clash, again with no change; otherwise both OTP fields are cleared, every other member's row stays, and a session for the member is issued |
| AuthService.VerifyOtpAsWritten | src/main/java/com/auth/service/AuthenticationService.java:113-135 | as written, in the source's order: an unknown email fails, a null expiry is a null-pointer fault, a past expiry fails as expired, a non-matching code fails as invalid; success clears the slot, keeps every other row and issues the session; every failure leaves the state unchanged |
| AuthService.VerifyOtp | src/main/java/com/auth/service/AuthenticationService.java:113-135 | as intended, in order: an unknown email, then a null or past expiry reported as expired, then a non-matching code reported as invalid; success issues the member's session, clears the slot and changes no other member, registration, revocation or mail |
| AuthService.VerifyOtpVersionsAgree | src/main/java/com/auth/service/AuthenticationService.java:117 | the versions agree whenever the member found has an expiry set |
| AuthService.Logout | src/main/java/com/auth/service/AuthenticationService.java:138-140 | the token is revoked until now + 1 day; no other token's status and no other state changes |
| AuthProperties.FindByEmailUnique | src/main/java/com/auth/repository/MemberRepository.java:11 | with unique emails, the member holding an email is the one `findByEmail` returns |
| AuthProperties.SaveKeepsEmailLookup | src/main/java/com/auth/service/AuthenticationService.java:105-107 | re-saving a member with the same email keeps `findByEmail` on the saved row |
| AuthProperties.RegisterThenVerifyEmail | src/main/java/com/auth/service/AuthenticationService.java:34-97 | registering, then submitting the mailed code in time, creates the member under a fresh id and opens its session; the code cannot be used twice |
| AuthProperties.WrongCodeKeepsRegistration | src/main/java/com/auth/service/AuthenticationService.java:66-68 | a wrong code changes nothing, so the right code still works |
| AuthProperties.LateRegistrationCodeExpires | src/main/java/com/auth/service/AuthenticationService.java:47-64 | the correct code submitted after its five minutes is refused as expired |
| AuthProperties.SendOtpSucceeds | src/main/java/com/auth/service/AuthenticationService.java:100-110 | in a well-formed state a known email always receives a code, and `findByEmail` then returns the updated row |
| AuthProperties.VerifyOtpAccepts | src/main/java/com/auth/service/AuthenticationService.java:113-135 | in a well-formed state the matching, unexpired code is accepted and the slot cleared |
| AuthProperties.LoginRoundTrip | src/main/java/com/auth/service/AuthenticationService.java:100-135 | requesting a login code and submitting it within the minute opens the member's session; replaying it is refused |
| AuthProperties.LateLoginCodeExpires | src/main/java/com/auth/service/AuthenticationService.java:106-119 | a login code submitted after its minute is refused as expired |
| AuthProperties.NewLoginCodeSupersedes | src/main/java/com/auth/service/AuthenticationService.java:104-107 | a second code request makes the first code (from a different draw) invalid |
| AuthProperties.OperationsKeepWellFormed | src/main/java/com/auth/service/AuthenticationService.java:34-140 | register, verifyEmail, sendOtp, verifyOtp and logout keep member ids and emails unique |
| AuthProperties.LoggedOutTokenRefused | src/main/java/com/auth/service/AuthenticationService.java:138-140 | after logout the token authenticates no one at the filter, and stays revoked through every hourly cleanup within its day |
| AuthProperties.GeneratedIdOverwrites | src/main/java/com/auth/service/AuthenticationService.java:71-81 | when the generated id already belongs to another member, completing a registration succeeds and that member is replaced by the new one |
| AuthProperties.RepeatedIdReplacesMember | src/main/java/com/auth/service/MemberIdGenerator.java:25-32 | once `A0199` and `A01100` exist, a new "Alice" born in 2001 gets `A01100` again and the save replaces that member |
| Members.FindByEmail | src/main/java/com/auth/repository/MemberRepository.java:11 | returns a member with that email, and none exactly when no member has it |
| Members.FindById | src/main/java/com/auth/service/UserService.java:39-40 | returns the member with that id, and none exactly when no member has it |
| Members.Save | src/main/java/com/auth/service/AuthenticationService.java:81 | fails exactly when another member owns the email; otherwise replaces the row with that id and keeps ids and emails unique |
| Members.LexLeTotal | src/main/java/com/auth/repository/MemberRepository.java:13 | string order is total |
| Members.LexLeTransitive | src/main/java/com/auth/repository/MemberRepository.java:13 | string order is transitive |
| Members.FindHighestMemberIdByPrefix | src/main/java/com/auth/repository/MemberRepository.java:13-14 | the greatest id in string order among those with the prefix; absent exactly when no id has the prefix |
| MemberIds.Prefix | src/main/java/com/auth/service/MemberIdGenerator.java:18-24 | upper-cased initial plus the year's digits after the second; an empty name or a one-digit year is an exception |
| MemberIds.FourDigitYearPrefix | src/main/java/com/auth/service/MemberIdGenerator.java:18-24 | for a four-digit year the prefix is three characters: initial and the year modulo 100 in two digits |
| MemberIds.NextSequence | src/main/java/com/auth/service/MemberIdGenerator.java:27-29 | 1 without a highest id; otherwise the value parsed from the id after its third character, plus one with 32-bit wrap-around, failing exactly when the tail is missing or not an `int` |
| MemberIds.NextSequenceAdvances | src/main/java/com/auth/service/MemberIdGenerator.java:27-32 | the id formatted with sequence n reads back as n, so the next is n + 1 |
| MemberIds.GenerateMemberId | src/main/java/com/auth/service/MemberIdGenerator.java:16-33 | a failing prefix (empty name, short year) is passed on; with no id under the prefix the result is the prefix plus `01`; otherwise it fails as a malformed highest id exactly when that id has no parsable `int` after its third character, and else is the prefix plus `%02d` of that number plus one with 32-bit wrap-around |
| MemberIds.FirstIdOfPrefix | src/main/java/com/auth/service/MemberIdGenerator.java:27-32 | the first member with a prefix gets `01` |
| MemberIds.IdAfterHighest | src/main/java/com/auth/service/MemberIdGenerator.java:25-32 | when the highest id has sequence n, the next id has n + 1 |
| MemberIds.IdLength | src/main/java/com/auth/service/MemberIdGenerator.java:32 | ids are five characters up to sequence 99 and six from 100 to 999; nothing caps the sequence |
| MemberIds.SampleFirstId | src/main/java/com/auth/service/MemberIdGenerator.java:16-33 | "Alice", born 2001, with no members gets `A0101` |
| MemberIds.SampleNextId | src/main/java/com/auth/service/MemberIdGenerator.java:16-33 | with `A0107` present she gets `A0108` |
| MemberIds.HundredSortsBelowNinetyNine | src/main/java/com/auth/repository/MemberRepository.java:13 | `A01100` sorts below `A0199` |
| MemberIds.StringOrderRepeatsIds | src/main/java/com/auth/repository/MemberRepository.java:13-14 | with `A0199` and `A01100` present the highest is `A0199`, so `A01100` is generated again |
| Text.UpperAscii | src/main/java/com/auth/service/MemberIdGenerator.java:18 | `toUpperCase` of a letter: ASCII lower-case letters map to upper case, everything else is kept |
| Text.IntToString | src/main/java/com/auth/service/MemberIdGenerator.java:21 | `String.valueOf(year)`: the decimal digits, a minus sign before a negative number |
| Text.Trim | src/main/java/com/auth/service/UserService.java:55 | removes exactly the leading and trailing characters up to `' '`, keeping the middle |
| Text.SplitHead | src/main/java/com/auth/service/AuthenticationRateLimitFilter.java:46 | `split(",")[0]`: the text before the first comma, and an index fault when the header holds only commas |
| Text.FormatInt | src/main/java/com/auth/service/MemberIdGenerator.java:32 | `%0Nd`: the decimal digits left-padded with zeros to at least N characters, sign first |
| Text.ParseInt | src/main/java/com/auth/service/MemberIdGenerator.java:28 | `Integer.parseInt` on ASCII digits: a success is an optional sign followed only by digits, negative only after `-`, and inside the `int` range; a digit string gives its value up to 2147483647 and fails above it (other Unicode digits: see Left out) |
| Text.ParseFormatRoundTrip | src/main/java/com/auth/service/MemberIdGenerator.java:28-32 | parsing what `%0Nd` printed gives back the number |
| Text.Wrap32 | src/main/java/com/auth/service/MemberIdGenerator.java:28 | `int` addition wraps into the 32-bit range |
| RateLimiter.AllowRequest | src/main/java/com/auth/service/RateLimiter.java:15-34 | allowed exactly when fewer than the maximum timestamps are inside the window; expired ones are dropped either way, and only an allowed request adds `now` |
| RateLimiter.ResetRateLimit | src/main/java/com/auth/service/RateLimiter.java:36-38 | the key is emptied and other keys stay |
| RateLimiter.AllowRequestKeepsBound | src/main/java/com/auth/service/RateLimiter.java:23-30 | a key holding at most the maximum number of timestamps still does after a request |
| RateLimiter.SameMillisecondAddsNothing | src/main/java/com/auth/service/RateLimiter.java:16-30 | a second request in the same millisecond adds no timestamp (the set member is the time string) |
| RateLimiter.FillWindow | src/main/java/com/auth/service/RateLimiter.java:15-34 | up to the maximum requests at increasing times within one window are all allowed and recorded |
| RateLimiter.FullWindowRefuses | src/main/java/com/auth/service/RateLimiter.java:25-27 | once the maximum have been allowed within a window, the next request in it is refused |
| RateLimiter.WindowExpiryReadmits | src/main/java/com/auth/service/RateLimiter.java:20 | once a whole window has passed since every recorded request, a request is allowed again |
| RateLimiter.ResetReadmits | src/main/java/com/auth/service/RateLimiter.java:36-38 | after a reset the next request is allowed |
| RateLimitFilter.ClientIpAddress | src/main/java/com/auth/service/AuthenticationRateLimitFilter.java:43-49 | the trimmed first entry of a non-empty `X-Forwarded-For`, else the remote address |
| RateLimitFilter.DoFilterInternal | src/main/java/com/auth/service/AuthenticationRateLimitFilter.java:22-41 | other paths pass untouched; `/api/auth/` requests are counted under `auth_rate_limit:` plus the client address, 100 per 15 minutes, and refused beyond that |
| RateLimitFilter.OtherPathsUnlimited | src/main/java/com/auth/service/AuthenticationRateLimitFilter.java:31 | paths outside `/api/auth/` neither consult nor change the limiter |
| RateLimitFilter.HundredAndFirstRefused | src/main/java/com/auth/service/AuthenticationRateLimitFilter.java:33-37 | the 101st authentication request from one address within 15 minutes is refused |
| RateLimitFilter.ForwardedForExamples | src/main/java/com/auth/service/AuthenticationRateLimitFilter.java:45-48 | an empty header falls back to the remote address; a header of commas only faults |
| TokenBlacklist.BlacklistToken | src/main/java/com/auth/service/TokenBlacklistService.java:19-25 | the token is listed with the given expiry, replacing an earlier one; other tokens stay |
| TokenBlacklist.ListedRegardlessOfExpiry | src/main/java/com/auth/service/TokenBlacklistService.java:28-30 | the lookup is row presence: a listed token counts as revoked whatever its expiry, until a cleanup after that expiry removes it; listing one token changes no other token's answer |
| TokenBlacklist.DeleteExpiredTokens | src/main/java/com/auth/repository/BlacklistedTokenRepository.java:9-11 | exactly the rows with expiry strictly before now go |
| TokenBlacklist.CleanupExpiredTokens | src/main/java/com/auth/service/TokenBlacklistService.java:32-36 | after the hourly job no listed token is expired, and every unexpired one is kept |
| TokenBlacklist.ListedUntilExpiry | src/main/java/com/auth/service/TokenBlacklistService.java:28-36 | a token stays listed through any cleanup up to its expiry |
| TokenBlacklist.DroppedAfterExpiry | src/main/java/com/auth/repository/BlacklistedTokenRepository.java:10 | a cleanup after the expiry removes the token |
| TokenBlacklist.CleanupIdempotent | src/main/java/com/auth/service/TokenBlacklistService.java:34-36 | two cleanups at one instant equal one |
| TokenBlacklist.CleanupMonotone | src/main/java/com/auth/service/TokenBlacklistService.java:34-36 | a later cleanup subsumes an earlier one |
| JwtFilter.ExtractJwtFromCookie | src/main/java/com/auth/security/JwtAuthenticationFilter.java:72-82 | the value of a `jwt_token` cookie, absent exactly when there are no cookies or none has that name |
| JwtFilter.DoFilterInternal | src/main/java/com/auth/security/JwtAuthenticationFilter.java:30-70 | no `jwt_token` cookie, or a revoked token, leaves the context as it was; an existing authentication is kept unless reading the member id from an unrevoked token throws, which clears it; it is never replaced by another |
| JwtFilter.AuthenticatesExactly | src/main/java/com/auth/security/JwtAuthenticationFilter.java:37-63 | the request becomes authenticated exactly when the token is present, not revoked, names a member, and validates against that member's details |
| JwtFilter.ParseFailureClearsContext | src/main/java/com/auth/security/JwtAuthenticationFilter.java:65-67 | a failure reading the member id clears even an existing authentication |
| JwtFilter.RevokedTokenIgnored | src/main/java/com/auth/security/JwtAuthenticationFilter.java:44-47 | a revoked token authenticates no one, whatever the JWT service says |
| JwtFilter.FirstCookieWins | src/main/java/com/auth/security/JwtAuthenticationFilter.java:75-78 | only the first `jwt_token` cookie is read |
| UserService.ApplyProfileChange | src/main/java/com/auth/service/UserService.java:46-48 | each of name, contact and dob takes the request value when present; id, email and OTP slot are untouched |
| UserService.UpdateProfile | src/main/java/com/auth/service/UserService.java:37-51 | an unknown member fails; a different email is refused; past those checks the update succeeds exactly when no other member owns the member's email; success writes the present fields to the member's row, every other member's row stays and no row is added |
| UserService.TakenByOther | src/main/java/com/auth/service/UserService.java:64-66 | the lookup finding another member means that member owns the address; with unique emails the member's own current address is never taken |
| UserService.SendEmailVerification | src/main/java/com/auth/service/UserService.java:54-77 | a null or blank email, an unknown member, or an email found for another member fails with no change; past those checks the save fails exactly on an email clash, and then the code mail is already queued; otherwise the OTP slot gets the hash and now + 5 min, every other member's row stays, and the code goes to the new address |
| UserService.VerifyEmailUpdate | src/main/java/com/auth/service/UserService.java:80-113 | each failure in the source's order: blank email, blank code, unknown member, null or past expiry, non-matching code, address found for another member; past those checks it succeeds exactly when no other member owns the address; success sets the email, clears the slot and keeps every other row; every failure leaves the state unchanged |
| UserProperties.TakenByOtherIsOwnership | src/main/java/com/auth/service/UserService.java:64-68 | with unique emails, "found for another member" is exactly "another member owns it" |
| UserProperties.EmailChangeRoundTrip | src/main/java/com/auth/service/UserService.java:54-113 | requesting a code for a free address and submitting it in time moves the member there and clears the slot |
| UserProperties.CodeNotBoundToAddress | src/main/java/com/auth/service/UserService.java:71-108 | a code mailed for one address confirms a change to any other free address |
| UserProperties.LoginCodeConfirmsEmailChange | src/main/java/com/auth/service/UserService.java:93-99 | a login code, sharing the slot, also confirms an email change |
| UserProperties.UpdateProfileSucceeds | src/main/java/com/auth/service/UserService.java:37-51 | with unique emails, an existing member whose request keeps the email is always updated: the result and the stored row are the member with the present fields applied |
| UserProperties.UpdateProfileKeepsEmail | src/main/java/com/auth/service/UserService.java:42-48 | a profile update never changes the email |
| UserProperties.UpdateProfileKeepsWellFormed | src/main/java/com/auth/service/UserService.java:50 | member ids and emails stay unique |
| UserProperties.SendEmailVerificationKeepsWellFormed | src/main/java/com/auth/service/UserService.java:73 | member ids and emails stay unique |
| UserProperties.VerifyEmailUpdateKeepsWellFormed | src/main/java/com/auth/service/UserService.java:101-112 | member ids and emails stay unique |
| Table.Find | src/main/java/com/auth/service/PaymentService.java:66-67 | `findById`: a row with the key, absent exactly when no row has it |
| Table.Where | src/main/java/com/auth/service/PaymentService.java:29 | a derived query: exactly the rows that satisfy the condition |
| Table.Delete | src/main/java/com/auth/service/PaymentService.java:91 | `deleteById`: the rows with the key go and all others stay |
| Table.Save | src/main/java/com/auth/service/PaymentService.java:57 | `save`: the row is stored under its key, replacing the old row, and keys stay unique |
| Payments.Mask | src/main/java/com/auth/service/PaymentService.java:108-128 | null stays null; up to four characters are unchanged; longer strings keep their length and last four, and the rest becomes `*` |
| Payments.MaskIdempotent | src/main/java/com/auth/service/PaymentService.java:108-128 | masking twice equals masking once |
| Payments.MaskRevealsLastFour | src/main/java/com/auth/service/PaymentService.java:116-127 | two numbers of equal length above four mask alike exactly when their last four characters agree |
| Payments.ToResponse | src/main/java/com/auth/service/PaymentService.java:94-106 | card and account numbers masked; UPI id, IFSC and the other columns passed through |
| Payments.GetCurrentUserPayments | src/main/java/com/auth/service/PaymentService.java:27-38 | `NotFound` exactly when the member has no method; otherwise every method of the member is listed, and only those |
| Payments.AddPayment | src/main/java/com/auth/service/PaymentService.java:41-59 | the request is stored under (member, type), replacing a method of that type; a null type fails |
| Payments.MergeDetails | src/main/java/com/auth/service/PaymentService.java:69-76 | each column takes the request value when non-null, else keeps the stored one |
| Payments.MergeDetailsLaws | src/main/java/com/auth/service/PaymentService.java:69-76 | an all-null change keeps the row; applying a change twice equals applying it once |
| Payments.UpdatePayment | src/main/java/com/auth/service/PaymentService.java:62-80 | an absent key fails `NotFound`; otherwise only non-null fields change, the key stays, and other rows stay |
| Payments.DeletePayment | src/main/java/com/auth/service/PaymentService.java:83-92 | an absent key fails `NotFound`; otherwise only that key goes |
| Payments.AddedPaymentIsListed | src/main/java/com/auth/service/PaymentService.java:26-92 | an added method is then listed and can be updated and deleted under its type |
| Payments.EmptyUpdateKeepsPayment | src/main/java/com/auth/service/PaymentService.java:69-78 | an update with every field null leaves the stored method as it was |
| Payments.DeletedPaymentNotFound | src/main/java/com/auth/service/PaymentService.java:87-89 | after a delete, deleting or updating that type again fails `NotFound` |
| Addresses.ToResponse | src/main/java/com/auth/service/AddressService.java:89-99 | the response carries the label and all six columns unchanged |
| Addresses.GetCurrentUserAddresses | src/main/java/com/auth/service/AddressService.java:26-37 | `NotFound` exactly when the member has no address; otherwise exactly the member's addresses are listed |
| Addresses.AddAddress | src/main/java/com/auth/service/AddressService.java:40-56 | the request is stored under (member, label), replacing that label; a null label or required column fails |
| Addresses.MergeFields | src/main/java/com/auth/service/AddressService.java:66-71 | each of the six columns takes the request value when non-null; required columns stay filled |
| Addresses.UpdateAddress | src/main/java/com/auth/service/AddressService.java:59-75 | an absent key fails `NotFound`; otherwise only non-null fields change and the label stays |
| Addresses.DeleteAddress | src/main/java/com/auth/service/AddressService.java:78-87 | an absent key fails `NotFound`; otherwise only that label goes |
| Addresses.UpdateIgnoresRequestLabel | src/main/java/com/auth/service/AddressService.java:59-61 | the label a request carries has no effect on the update |
| Addresses.UpdateKeepsRequiredColumns | src/main/java/com/auth/service/AddressService.java:66-73 | updates keep keys unique and required columns filled |
| Addresses.AddedAddressIsListed | src/main/java/com/auth/service/AddressService.java:26-87 | an added address is listed and can be deleted under its label |
| Dependents.ToResponse | src/main/java/com/auth/service/DependentService.java:103-112 | the response carries the name and all five columns unchanged |
| Dependents.GetCurrentUserDependents | src/main/java/com/auth/service/DependentService.java:26-37 | `NotFound` exactly when the member has no dependent; otherwise exactly the member's dependents are listed |
| Dependents.AddDependent | src/main/java/com/auth/service/DependentService.java:40-55 | the request is stored under (member, name), replacing that name; a null name, relation or dob fails |
| Dependents.MergeFields | src/main/java/com/auth/service/DependentService.java:70-86 | each column takes the request value when non-null, else the stored one |
| Dependents.UpdateDependent | src/main/java/com/auth/service/DependentService.java:58-89 | an absent key fails `NotFound`; a rename removes the old name and stores the merged dependent under the new one, over any dependent there; otherwise the merge is stored in place |
| Dependents.DeleteDependent | src/main/java/com/auth/service/DependentService.java:92-101 | an absent key fails `NotFound`; otherwise only that name goes |
| Dependents.RenameOverwritesTarget | src/main/java/com/auth/service/DependentService.java:77-78 | a rename onto a used name overwrites that dependent, and names stay unique |
| Dependents.RenameThereAndBack | src/main/java/com/auth/service/DependentService.java:66-79 | renaming to a free name and back restores the table |
| Dependents.UpdateKeepsTableInvariants | src/main/java/com/auth/service/DependentService.java:66-88 | updates keep names unique and required columns filled |
| Dependents.AddedDependentIsListed | src/main/java/com/auth/service/DependentService.java:26-101 | an added dependent is listed, and can be updated and deleted under its name |
| Dependents.DeletedDependentNotFound | src/main/java/com/auth/service/DependentService.java:58-101 | after a delete, deleting or updating that name again fails `NotFound` |
| Records.MaxRecordNo | src/main/java/com/auth/service/HealthRecordService.java:43-46 | the largest record number, absent for no rows |
| Records.NextRecordNo | src/main/java/com/auth/service/HealthRecordService.java:43-47 | the member's highest number plus one in `int` arithmetic, or 1 |
| Records.NextRecordNoIsFresh | src/main/java/com/auth/service/HealthRecordService.java:43-47 | below the top of the `int` range the next number is above all of the member's and used by no row |
| Records.NextRecordNoIgnoresOthers | src/main/java/com/auth/service/AllergyRecordService.java:43-47 | other members' rows do not change the next number |
| Records.SortByNo | src/main/java/com/auth/service/HealthRecordService.java:28 | the same rows in ascending record number |
| Records.ListOfMember | src/main/java/com/auth/service/AllergyRecordService.java:28-32 | `NotFound` exactly when the member has none; otherwise exactly the member's records, ascending |
| Records.AddNumbered | src/main/java/com/auth/service/AllergyRecordService.java:49-56 | the record is saved under the next number |
| Records.UpdateNumbered | src/main/java/com/auth/service/AllergyRecordService.java:65-71 | an absent key fails `NotFound`; otherwise the payload is rewritten under the same key |
| Records.DeleteNumbered | src/main/java/com/auth/service/AllergyRecordService.java:80-84 | an absent key fails `NotFound`; otherwise only that key goes |
| Records.AddedRecordListedLast | src/main/java/com/auth/service/HealthRecordService.java:28-56 | an added record is listed last |
| HealthRecords.ToResponse | src/main/java/com/auth/service/HealthRecordService.java:87-93 | the response carries the record number, condition and description unchanged |
| HealthRecords.GetCurrentUserHealthRecords | src/main/java/com/auth/service/HealthRecordService.java:26-37 | `NotFound` exactly when the member has none; otherwise one response per record of the member, ascending by number |
| HealthRecords.AddHealthRecord | src/main/java/com/auth/service/HealthRecordService.java:40-58 | stored under the next number; a null condition fails |
| HealthRecords.MergeHealth | src/main/java/com/auth/service/HealthRecordService.java:68-69 | condition and description take the request value when non-null |
| HealthRecords.UpdateHealthRecord | src/main/java/com/auth/service/HealthRecordService.java:61-73 | an absent key fails `NotFound`; otherwise the record under that key takes the non-null fields, every other row stays and no row is added |
| HealthRecords.DeleteHealthRecord | src/main/java/com/auth/service/HealthRecordService.java:76-85 | an absent key fails `NotFound`; otherwise only that key goes |
| HealthRecords.AddedHealthRecordListedLast | src/main/java/com/auth/service/HealthRecordService.java:26-58 | an added record is the last one listed |
| HealthRecords.DeletedHealthRecordNotFound | src/main/java/com/auth/service/HealthRecordService.java:80-82 | after a delete, deleting or updating that number again fails `NotFound` |
| HealthRecords.EmptyUpdateKeepsHealthRecord | src/main/java/com/auth/service/HealthRecordService.java:68-72 | an update with both fields null returns the stored record and leaves the rows as they were |
| AllergyRecords.ToResponse | src/main/java/com/auth/service/AllergyRecordService.java:87-93 | the response carries the record number, allergies and description unchanged |
| AllergyRecords.GetCurrentUserAllergyRecords | src/main/java/com/auth/service/AllergyRecordService.java:26-37 | `NotFound` exactly when the member has none; otherwise one response per record, ascending |
| AllergyRecords.AddAllergyRecord | src/main/java/com/auth/service/AllergyRecordService.java:40-58 | stored under the next number; null allergies fail |
| AllergyRecords.MergeAllergy | src/main/java/com/auth/service/AllergyRecordService.java:68-69 | allergies and description take the request value when non-null |
| AllergyRecords.UpdateAllergyRecord | src/main/java/com/auth/service/AllergyRecordService.java:61-73 | an absent key fails `NotFound`; otherwise the record under that key takes the non-null fields, every other row stays and no row is added |
| AllergyRecords.DeleteAllergyRecord | src/main/java/com/auth/service/AllergyRecordService.java:76-85 | an absent key fails `NotFound`; otherwise only that key goes |
| AllergyRecords.AddedAllergyRecordListedLast | src/main/java/com/auth/service/AllergyRecordService.java:26-58 | an added record is the last one listed |
| AllergyRecords.DeletedAllergyRecordNotFound | src/main/java/com/auth/service/AllergyRecordService.java:80-82 | after a delete, deleting or updating that number again fails `NotFound` |
| AllergyRecords.EmptyUpdateKeepsAllergyRecord | src/main/java/com/auth/service/AllergyRecordService.java:68-72 | an update with both fields null returns the stored record and leaves the rows as they were |
| Validation.PaymentRequestViolations | src/main/java/com/auth/dto/PaymentRequest.java:20-43 | rejects a null type, a card that is not 16 digits, a malformed UPI id, names over 100, an account not 9 to 18 digits and a malformed IFSC, and nothing else |
| Validation.AddressRequestViolations | src/main/java/com/auth/dto/AddressRequest.java:15-34 | label, line 1, city, state and zip must be non-blank; label at most 50, zip at most 10 |
| Validation.UpdateAddressRequestViolations | src/main/java/com/auth/dto/UpdateAddressRequest.java:14-22 | only a label over 50 or a zip over 10 is rejected |
| Validation.DependentRequestViolations | src/main/java/com/auth/dto/DependentRequest.java:19-29 | name and relation non-blank, dob present, mobile 10 digits when present |
| Validation.UpdateDependentRequestViolations | src/main/java/com/auth/dto/UpdateDependentRequest.java:18-26 | only a name over 100 or a mobile that is not 10 digits is rejected |
| Validation.UpdateProfileRequestViolations | src/main/java/com/auth/dto/UpdateProfileRequest.java:17-22 | only a contact that is not 10 digits is rejected |
| Validation.AllergyRecordRequestViolations | src/main/java/com/auth/dto/AllergyRecordRequest.java:14-16 | allergies must be non-blank; the description is free |
| Validation.AllergiesMustHaveContent | src/main/java/com/auth/dto/AllergyRecordRequest.java:14-15 | null, empty and all-space allergies are each rejected, and a letter is accepted |
| Validation.EmptyUpdatesAreValid | src/main/java/com/auth/dto/UpdateDependentRequest.java:18-26 | update requests with every field null are valid |
| Validation.BarePaymentRequestValid | src/main/java/com/auth/dto/PaymentRequest.java:23-43 | nulls pass every pattern and size constraint |
| Validation.ValidRequestsAreStored | src/main/java/com/auth/dto/AddressRequest.java:15-32 | a valid payment, address, dependent or allergy request is never refused for a null key or a null required column |
| Validation.ValidAddressUpdateKeepsSizes | src/main/java/com/auth/dto/UpdateAddressRequest.java:14-22 | a request the update validator accepts keeps every stored address's label within 50 and zip code within 10 characters |
| Validation.ValidDependentUpdateKeepsConstraints | src/main/java/com/auth/dto/UpdateDependentRequest.java:18-26 | a request the update validator accepts keeps every stored dependent's name within 100 characters and mobile number ten digits, across renames |
| Validation.ValidProfileUpdateKeepsContact | src/main/java/com/auth/dto/UpdateProfileRequest.java:17-22 | a request the update validator accepts keeps the member's contact ten digits, in the returned profile and the stored row |
| Validation.ValidCardNumberMasked | src/main/java/com/auth/dto/PaymentRequest.java:23-24 | a valid card number is shown as twelve `*` and its last four digits |
| Validation.ValidBankAccountMasked | src/main/java/com/auth/dto/PaymentRequest.java:39-40 | a valid account number is shown with its length, its last four digits, and `*` elsewhere |
| Validation.UpiIdShape | src/main/java/com/auth/dto/PaymentRequest.java:26-27 | the UPI pattern accepts exactly one `@`, neither first nor last, between letters, digits and dots |

## Left out

- Mail delivery (SMTP, `@Async`): mail is an outbox entry, and a failed send is never seen.
- The JWT service (signing, claims, expiry) and the user-details service: the filter takes
  them as functions that return a value or throw. A session is reduced to its subject.
- BCrypt: an abstract injective encoding. Salt and cost are not modelled.
- `java.util.Random`: the drawn number is an argument in [0, 999999].
- Redis atomicity: the read-count-add in the rate limiter is one step here, and the two clock
  reads are one `now`. The key's TTL (`expire`) is not modelled, because the eviction by score
  already decides every verdict.
- The race between generating a member id and saving the member is not modelled. Operations
  run one at a time.
- Spring Data's behaviour when a single-result query matches several rows is not modelled. The
  highest-id query is modelled by its `ORDER BY ... DESC` intent, and `findByEmail` relies on
  the unique email column.
- `LIKE` wildcards (`%`, `_`) inside a name's initial are not modelled. The prefix match is a
  plain string prefix.
- Unicode case mapping: `toUpperCase` is ASCII only.
- A Dafny `char` is a Unicode scalar value, while Java's `String` counts UTF-16 code units. A
  character outside the Basic Multilingual Plane is one `char` here and two units in Java.
  The members below differ from the source only on such characters.
- Validation.SizeAtMost: `@Size` counts UTF-16 units, so a string with supplementary
  characters can pass here and fail in the source.
- Payments.Mask: `length() - 4` and `substring` count UTF-16 units, so with supplementary
  characters the source can reveal a different tail, or split a surrogate pair.
- MemberIds.Prefix: `substring(0, 1)` of a name that starts with a supplementary character
  takes a lone high surrogate, where the model takes the whole character.
- Text.ParseInt: ParseInt accepts only the ASCII digits `0`-`9`. Java's `Integer.parseInt` also
  accepts every other Unicode decimal digit, through `Character.digit`. The model rejects such
  a sequence-number tail, where the source parses it.
- `@Email` and `PaymentType.valueOf(paymentType.toLowerCase())`: the `@Email` validator belongs
  to the validation library, and the enum's constants are not part of this model. Update and
  delete take an already-parsed payment type.
- The security context: the current member id is an argument, and `getCurrentUserId` is not
  modelled.
- Controllers, cookies and HTTP status mapping are not part of this model. Neither is the
  `getMemberIdFromEmail` call the authentication controller makes.
- Column lengths (`length = 100`, `length = 16`, ...): whether the database rejects or
  truncates a long value depends on its mode, so saves never fail on length.
- JPA cascades and the `createdAt`/`updatedAt` columns are not modelled.
- Filter chains: both filters always pass the request on unless they throw, so the model
  returns only the state and the verdict.
- `AuthService.VerifyOtp`, `AuthService.VerifyOtpAsWritten`, `AuthService.VerifyEmail`, `AuthService.VerifyEmailAsWritten`: a null OTP in the request is not
  modelled (the code is a `string`). `passwordEncoder.matches` rejects a null raw value with
  an exception, which is again a failure with no change.
- JwtFilter.DoFilterInternal: an exception from the revocation lookup itself (a database
  error) is not modelled. It would escape the filter, while the model passes the request on.

## Findings

| source | as written | input that shows it | evidently intended | confidence | as-written member | corrected member |
|---|---|---|---|---|---|---|
| src/main/java/com/auth/service/AuthenticationService.java:61-64 | an expired registration is deleted and then `OtpValidationException` is thrown inside the same `@Transactional` method; the unchecked exception rolls the delete back | a pending registration whose expiry is before now: the first attempt reports expiry, and the record is still there, so every later attempt reports expiry again until a new registration replaces it | the expired registration is discarded, as the message "Please register again" says | not executed | AuthService.VerifyEmailAsWritten, AuthService.ExpiredRegistrationLingers | AuthService.VerifyEmail |
| src/main/java/com/auth/service/AuthenticationService.java:117 | `member.getOtpExpiryTime().isBefore(...)` dereferences an expiry that is null whenever no login code is outstanding | a member who has never requested a code, or whose code was used: `verifyOtp` throws `NullPointerException` instead of reporting an expired code | a null expiry is treated as expired, as `verifyEmailUpdate` does at UserService.java:93 | not executed | AuthService.VerifyOtpAsWritten, AuthProperties.LoginRoundTrip | AuthService.VerifyOtp |

=== FILE: accounts.dfy ===
/**
 * The persistent state the identity flows work on: the member table, the pending
 * registrations keyed by email, the revoked-token table, and the mail handed to the
 * asynchronous mail sender.
 */
module Accounts {
  import opened Wrappers
  import opened Clock
  import Otp
  import Members
  import TokenBlacklist

  /** A registration waiting for its emailed code (`EmailVerification`); its email is the key it is stored under. */
  datatype PendingVerification = PendingVerification(
    fullName: string,
    contact: string,
    dob: Date,
    otp: Otp.Hash,
    expiry: Time)

  /**
   * A message given to the mail sender. Sending runs on another thread, so its failures never
   * reach the operation that queued it.
   */
  datatype Mail =
    | VerificationMail(to: string, code: string)
    | OtpMail(to: string, code: string)
    | WelcomeMail(to: string, name: string)

  datatype State = State(
    members: Members.MemberTable,
    pending: map<string, PendingVerification>,
    revoked: TokenBlacklist.Blacklist,
    outbox: seq<Mail>)

  /** The member table's primary key and unique email column hold. */
  predicate WellFormed(s: State) {
    Members.WellFormed(s.members)
  }

  /** The session token issued for a member; only its subject claim is modelled. */
  datatype Session = Session(subject: string)

  /** The service exceptions of the identity flows. */
  datatype AuthError =
    | EmailAlreadyRegistered   // `InvalidCredentialsException("Email already registered")`
    | RegistrationNotFound     // `ResourceNotFoundException("Registration request not found")`
    | MemberNotFound           // `ResourceNotFoundException("Member not found")` / "User not found"
    | OtpExpired               // `OtpValidationException`, expired or absent code
    | InvalidOtp               // `OtpValidationException("Invalid OTP")`
    | EmailRequired            // `InvalidCredentialsException("Email is required")`
    | OtpRequired              // `OtpValidationException("OTP is required")`
    | EmailUpdateNeedsVerification
    | NullOtpExpiry            // a `NullPointerException` on an absent expiry
    | MemberIdFailure          // a runtime exception inside member id generation
    | StoreFailure             // the unique email column rejected the save

  /**
   * The state after an operation, with its result. Every failure is a runtime exception that
   * rolls the transaction back, so a failed operation's tables are the ones it started from.
   * The outbox is not transactional: a save the unique email column rejects at commit comes
   * after the mail was handed to the sender, and that mail stays queued.
   */
  datatype Reply<T> = Reply(state: State, result: Result<T, AuthError>)
}

=== FILE: addresses.dfy ===
/**
 * The address service: a member's addresses keyed by their label, listed in table order,
 * added (a merge over an address with the same label), partially updated under a label that
 * never changes, and deleted. The acting member is a parameter.
 */
module Addresses {
  import opened Wrappers
  import Table
  import opened Records

  /** The non-key columns of an `address` row; line 1, city, state and zip are `nullable = false`. */
  datatype AddressFields = AddressFields(
    addressLine1: Option<string>,
    addressLine2: Option<string>,
    city: Option<string>,
    state: Option<string>,
    zipCode: Option<string>,
    landmark: Option<string>)

  /** An `address` row, keyed by `(memberId, addressLabel)`. */
  datatype Address = Address(memberId: string, addressLabel: string, fields: AddressFields)

  function AddressKey(a: Address): (string, string) {
    (a.memberId, a.addressLabel)
  }

  /** The body of an add or an update request. */
  datatype AddressRequest = AddressRequest(addressLabel: Option<string>, fields: AddressFields)

  /** What the service hands back: every column but the member. */
  datatype AddressResponse = AddressResponse(addressLabel: string, fields: AddressFields)

  function ToResponse(a: Address): (r: AddressResponse)
    ensures r.addressLabel == a.addressLabel && r.fields == a.fields
  {
    AddressResponse(a.addressLabel, a.fields)
  }

  /** A required column is null. */
  predicate MissingRequired(f: AddressFields) {
    f.addressLine1.None? || f.city.None? || f.state.None? || f.zipCode.None?
  }

  /** `findByMemberId` in table order, each row as a response; `NotFound` when there are none. */
  function GetCurrentUserAddresses(rows: seq<Address>, memberId: string): (r: Result<seq<AddressResponse>, RecordError>)
    ensures r.Failure? <==> forall a :: a in rows ==> a.memberId != memberId
    ensures r.Failure? ==> r.error == NotFound
    ensures r.Success? ==> forall a :: a in rows && a.memberId == memberId ==> ToResponse(a) in r.value
    ensures r.Success? ==> forall i :: 0 <= i < |r.value| ==>
                             exists a :: a in rows && a.memberId == memberId && ToResponse(a) == r.value[i]
  {
    var mine := Table.Where(rows, (a: Address) => a.memberId == memberId);
    if mine == [] then
      Failure(NotFound)
    else
      assert mine[0] in mine;
      var out := seq(|mine|, i requires 0 <= i < |mine| => ToResponse(mine[i]));
      assert forall a :: a in mine ==> ToResponse(a) in out by {
        forall a | a in mine ensures ToResponse(a) in out {
          var i :| 0 <= i < |mine| && mine[i] == a;
          assert out[i] == ToResponse(a);
        }
      }
      assert forall i :: 0 <= i < |out| ==> mine[i] in mine && out[i] == ToResponse(mine[i]);
      Success(out)
  }

  /**
   * `save` of the request under `(memberId, addressLabel)`: an address with that label is
   * replaced. A null label is no key; a null required column breaks its constraint.
   */
  function AddAddress(rows: seq<Address>, memberId: string, request: AddressRequest): (r: Result<(seq<Address>, AddressResponse), RecordError>)
    ensures r.Failure? <==> request.addressLabel.None? || MissingRequired(request.fields)
    ensures r.Failure? ==> r.error == (if request.addressLabel.None? then NullKey else NullColumn)
    ensures r.Success? ==>
              var added := Address(memberId, request.addressLabel.value, request.fields);
              && r.value.1 == ToResponse(added)
              && Table.Find(r.value.0, AddressKey, AddressKey(added)) == Some(added)
              && forall y :: y in r.value.0 <==> y == added || (y in rows && AddressKey(y) != AddressKey(added))
  {
    match request.addressLabel
    case None => Failure(NullKey)
    case Some(given) =>
      if MissingRequired(request.fields) then Failure(NullColumn)
      else
        var added := Address(memberId, given, request.fields);
        Success((Table.Save(rows, AddressKey, added), ToResponse(added)))
  }

  /** The stored columns with every non-null field of `change` written over them. */
  function MergeFields(stored: AddressFields, change: AddressFields): (r: AddressFields)
    ensures r.addressLine1 == (if change.addressLine1.Some? then change.addressLine1 else stored.addressLine1)
    ensures r.addressLine2 == (if change.addressLine2.Some? then change.addressLine2 else stored.addressLine2)
    ensures r.city == (if change.city.Some? then change.city else stored.city)
    ensures r.state == (if change.state.Some? then change.state else stored.state)
    ensures r.zipCode == (if change.zipCode.Some? then change.zipCode else stored.zipCode)
    ensures r.landmark == (if change.landmark.Some? then change.landmark else stored.landmark)
    ensures !MissingRequired(stored) ==> !MissingRequired(r)
  {
    AddressFields(
      change.addressLine1.Or(stored.addressLine1),
      change.addressLine2.Or(stored.addressLine2),
      change.city.Or(stored.city),
      change.state.Or(stored.state),
      change.zipCode.Or(stored.zipCode),
      change.landmark.Or(stored.landmark))
  }

  /**
   * `findById` under the path's label (or `NotFound`), write the request's non-null columns,
   * `save`. The request's own label is never read.
   */
  function UpdateAddress(rows: seq<Address>, memberId: string, addressLabel: string, request: AddressRequest): (r: Result<(seq<Address>, AddressResponse), RecordError>)
    ensures r.Failure? <==> !Table.HasKey(rows, AddressKey, (memberId, addressLabel))
    ensures r.Failure? ==> r.error == NotFound
    ensures r.Success? ==>
              var prior := Table.Find(rows, AddressKey, (memberId, addressLabel)).value;
              var updated := Address(memberId, addressLabel, MergeFields(prior.fields, request.fields));
              && r.value.1 == ToResponse(updated)
              && Table.Find(r.value.0, AddressKey, (memberId, addressLabel)) == Some(updated)
              && forall y :: y in r.value.0 <==> y == updated || (y in rows && AddressKey(y) != (memberId, addressLabel))
  {
    match Table.Find(rows, AddressKey, (memberId, addressLabel))
    case None => Failure(NotFound)
    case Some(prior) =>
      var updated := prior.(fields := MergeFields(prior.fields, request.fields));
      Success((Table.Save(rows, AddressKey, updated), ToResponse(updated)))
  }

  /** `existsById` (or `NotFound`), then `deleteById`: only that label goes. */
  function DeleteAddress(rows: seq<Address>, memberId: string, addressLabel: string): (r: Result<seq<Address>, RecordError>)
    ensures r.Failure? <==> !Table.HasKey(rows, AddressKey, (memberId, addressLabel))
    ensures r.Failure? ==> r.error == NotFound
    ensures r.Success? ==> !Table.HasKey(r.value, AddressKey, (memberId, addressLabel))
    ensures r.Success? ==> forall y :: y in r.value <==> y in rows && AddressKey(y) != (memberId, addressLabel)
  {
    if !Table.HasKey(rows, AddressKey, (memberId, addressLabel)) then Failure(NotFound)
    else Success(Table.Delete(rows, AddressKey, (memberId, addressLabel)))
  }

  /** The label an update request carries has no effect: the address keeps the label it had. */
  lemma UpdateIgnoresRequestLabel(rows: seq<Address>, memberId: string, addressLabel: string, fields: AddressFields, carried: Option<string>)
    ensures UpdateAddress(rows, memberId, addressLabel, AddressRequest(carried, fields))
         == UpdateAddress(rows, memberId, addressLabel, AddressRequest(None, fields))
    ensures var r := UpdateAddress(rows, memberId, addressLabel, AddressRequest(carried, fields));
            r.Success? ==> r.value.1.addressLabel == addressLabel
  {
  }

  /**
   * Updates keep the table's invariants: the primary key stays unique, and no stored address
   * loses a required column.
   */
  lemma UpdateKeepsRequiredColumns(rows: seq<Address>, memberId: string, addressLabel: string, request: AddressRequest)
    requires Table.UniqueKeys(rows, AddressKey)
    requires forall a :: a in rows ==> !MissingRequired(a.fields)
    ensures var r := UpdateAddress(rows, memberId, addressLabel, request);
            r.Success? ==> Table.UniqueKeys(r.value.0, AddressKey) && forall a :: a in r.value.0 ==> !MissingRequired(a.fields)
  {
    var r := UpdateAddress(rows, memberId, addressLabel, request);
    if r.Success? {
      var prior := Table.Find(rows, AddressKey, (memberId, addressLabel)).value;
      var updated := prior.(fields := MergeFields(prior.fields, request.fields));
      assert r.value.0 == Table.Save(rows, AddressKey, updated);
    }
  }

  /** After an add the address is listed and reachable under its label. */
  lemma AddedAddressIsListed(rows: seq<Address>, memberId: string, request: AddressRequest)
    requires request.addressLabel.Some? && !MissingRequired(request.fields)
    ensures var after := AddAddress(rows, memberId, request).value;
            && GetCurrentUserAddresses(after.0, memberId).Success?
            && after.1 in GetCurrentUserAddresses(after.0, memberId).value
            && DeleteAddress(after.0, memberId, request.addressLabel.value).Success?
  {
    var added := Address(memberId, request.addressLabel.value, request.fields);
    var after := AddAddress(rows, memberId, request).value;
    assert added in after.0;
    assert Table.HasKey(after.0, AddressKey, AddressKey(added)) by {
      var i :| 0 <= i < |after.0| && after.0[i] == added;
    }
  }
}

=== FILE: allergy_records.dfy ===
/**
 * The allergy-record service: a member's numbered allergy entries, listed in number order,
 * added with the next free number, partially updated and deleted under `(memberId, recordNo)`.
 * The acting member is a parameter (the security context is not part of this model).
 */
module AllergyRecords {
  import opened Wrappers
  import Text
  import Table
  import opened Records

  /** The payload of a `allergy_records` row; `allergies` is a `nullable = false` column. */
  datatype AllergyEntry = AllergyEntry(allergies: Option<string>, description: Option<string>)

  type AllergyRecord = Numbered<AllergyEntry>

  /** What the service hands back for a row. */
  datatype AllergyRecordResponse = AllergyRecordResponse(recordNo: int, allergies: Option<string>, description: Option<string>)

  function ToResponse(r: AllergyRecord): (out: AllergyRecordResponse)
    ensures out.recordNo == r.recordNo
    ensures out.allergies == r.body.allergies && out.description == r.body.description
  {
    AllergyRecordResponse(r.recordNo, r.body.allergies, r.body.description)
  }

  /** The member's records by ascending number; `NotFound` when there are none. */
  function GetCurrentUserAllergyRecords(rows: seq<AllergyRecord>, memberId: string): (r: Result<seq<AllergyRecordResponse>, RecordError>)
    ensures r.Failure? <==> forall x :: x in rows ==> x.memberId != memberId
    ensures r.Failure? ==> r.error == NotFound
    ensures r.Success? ==> |r.value| == |OfMember(rows, memberId)| && |r.value| > 0
    ensures r.Success? ==> forall i, j :: 0 <= i < j < |r.value| ==> r.value[i].recordNo <= r.value[j].recordNo
    ensures r.Success? ==> forall x :: x in rows && x.memberId == memberId ==> ToResponse(x) in r.value
    ensures r.Success? ==> forall i :: 0 <= i < |r.value| ==>
                             exists x :: x in rows && x.memberId == memberId && ToResponse(x) == r.value[i]
  {
    match ListOfMember(rows, memberId)
    case Failure(e) => Failure(e)
    case Success(sorted) =>
      ResponsesSorted(sorted);
      ResponsesFromRows(rows, memberId, sorted);
      Success(Respond(sorted, ToResponse))
  }

  /** Responses keep the order of the sorted records they come from. */
  lemma ResponsesSorted(sorted: seq<AllergyRecord>)
    requires SortedByNo(sorted)
    ensures forall i, j :: 0 <= i < j < |Respond(sorted, ToResponse)| ==> Respond(sorted, ToResponse)[i].recordNo <= Respond(sorted, ToResponse)[j].recordNo
  {
    forall i, j | 0 <= i < j < |Respond(sorted, ToResponse)| ensures Respond(sorted, ToResponse)[i].recordNo <= Respond(sorted, ToResponse)[j].recordNo {
      assert Respond(sorted, ToResponse)[i] == ToResponse(sorted[i]) && Respond(sorted, ToResponse)[j] == ToResponse(sorted[j]);
    }
  }

  /** The responses of a member's records are exactly the responses of the member's rows. */
  lemma ResponsesFromRows(rows: seq<AllergyRecord>, memberId: string, sorted: seq<AllergyRecord>)
    requires forall x :: x in sorted <==> x in rows && x.memberId == memberId
    ensures forall x :: x in rows && x.memberId == memberId ==> ToResponse(x) in Respond(sorted, ToResponse)
    ensures forall i :: 0 <= i < |Respond(sorted, ToResponse)| ==> exists x :: x in rows && x.memberId == memberId && ToResponse(x) == Respond(sorted, ToResponse)[i]
  {
    forall x | x in rows && x.memberId == memberId ensures ToResponse(x) in Respond(sorted, ToResponse) {
      assert x in sorted;
    }
    forall i | 0 <= i < |Respond(sorted, ToResponse)| ensures exists x :: x in rows && x.memberId == memberId && ToResponse(x) == Respond(sorted, ToResponse)[i] {
      var x := sorted[i];
      assert x in sorted;
      assert x in rows && x.memberId == memberId && ToResponse(x) == Respond(sorted, ToResponse)[i];
    }
  }

  /** `save` of a new row numbered after the member's highest; null allergies breaks the column. */
  function AddAllergyRecord(rows: seq<AllergyRecord>, memberId: string, request: AllergyEntry): (r: Result<(seq<AllergyRecord>, AllergyRecordResponse), RecordError>)
    ensures r.Failure? <==> request.allergies.None?
    ensures r.Failure? ==> r.error == NullColumn
    ensures r.Success? ==>
              && r.value.1 == AllergyRecordResponse(NextRecordNo(rows, memberId), request.allergies, request.description)
              && forall y :: y in r.value.0 <==>
                               y == Numbered(memberId, NextRecordNo(rows, memberId), request)
                               || (y in rows && NumberedKey(y) != (memberId, NextRecordNo(rows, memberId)))
  {
    if request.allergies.None? then Failure(NullColumn)
    else
      var added := AddNumbered(rows, memberId, request);
      Success((added.0, ToResponse(added.1)))
  }

  /** The stored entry with every non-null field of `change` written over it. */
  function MergeAllergy(change: AllergyEntry): (f: AllergyEntry -> AllergyEntry)
    ensures forall e :: f(e).allergies == change.allergies.Or(e.allergies)
    ensures forall e :: f(e).description == change.description.Or(e.description)
  {
    (e: AllergyEntry) => AllergyEntry(change.allergies.Or(e.allergies), change.description.Or(e.description))
  }

  /** `findById` (or `NotFound`), write the non-null fields of `change`, `save`. */
  function UpdateAllergyRecord(rows: seq<AllergyRecord>, memberId: string, recordNo: int, change: AllergyEntry): (r: Result<(seq<AllergyRecord>, AllergyRecordResponse), RecordError>)
    ensures r.Failure? <==> !Table.HasKey(rows, NumberedKey, (memberId, recordNo))
    ensures r.Failure? ==> r.error == NotFound
    ensures r.Success? ==>
              var prior := Table.Find(rows, NumberedKey, (memberId, recordNo)).value.body;
              && r.value.1.recordNo == recordNo
              && r.value.1.allergies == (if change.allergies.Some? then change.allergies else prior.allergies)
              && r.value.1.description == (if change.description.Some? then change.description else prior.description)
              && Table.Find(r.value.0, NumberedKey, (memberId, recordNo)).Some?
              && ToResponse(Table.Find(r.value.0, NumberedKey, (memberId, recordNo)).value) == r.value.1
              && forall y :: y in r.value.0 <==>
                               y == Table.Find(r.value.0, NumberedKey, (memberId, recordNo)).value
                               || (y in rows && NumberedKey(y) != (memberId, recordNo))
  {
    match UpdateNumbered(rows, memberId, recordNo, MergeAllergy(change))
    case Failure(e) => Failure(e)
    case Success(res) => Success((res.0, ToResponse(res.1)))
  }

  /** `existsById` (or `NotFound`), then `deleteById`. */
  function DeleteAllergyRecord(rows: seq<AllergyRecord>, memberId: string, recordNo: int): (r: Result<seq<AllergyRecord>, RecordError>)
    ensures r.Failure? <==> !Table.HasKey(rows, NumberedKey, (memberId, recordNo))
    ensures r.Failure? ==> r.error == NotFound
    ensures r.Success? ==> !Table.HasKey(r.value, NumberedKey, (memberId, recordNo))
    ensures r.Success? ==> forall y :: y in r.value <==> y in rows && NumberedKey(y) != (memberId, recordNo)
  {
    var r := DeleteNumbered(rows, memberId, recordNo);
    if r.Success? then
      assert forall i :: 0 <= i < |r.value| ==> r.value[i] in r.value;
      r
    else r
  }

  /** An added record is the last one listed: its number is above all the member's others. */
  lemma AddedAllergyRecordListedLast(rows: seq<AllergyRecord>, memberId: string, request: AllergyEntry)
    requires forall x :: x in rows && x.memberId == memberId ==> Text.IntMin <= x.recordNo < Text.IntMax
    requires request.allergies.Some?
    ensures AddAllergyRecord(rows, memberId, request).Success?
    ensures GetCurrentUserAllergyRecords(AddAllergyRecord(rows, memberId, request).value.0, memberId).Success?
    ensures GetCurrentUserAllergyRecords(AddAllergyRecord(rows, memberId, request).value.0, memberId).value[|GetCurrentUserAllergyRecords(AddAllergyRecord(rows, memberId, request).value.0, memberId).value| - 1] == AddAllergyRecord(rows, memberId, request).value.1
  {
    AddedRecordListedLast(rows, memberId, request);
    assert AddAllergyRecord(rows, memberId, request).value.0 == AddNumbered(rows, memberId, request).0;
    assert AddAllergyRecord(rows, memberId, request).value.1 == ToResponse(AddNumbered(rows, memberId, request).1);
    AllergyListingEndsWith(AddAllergyRecord(rows, memberId, request).value.0, memberId, AddNumbered(rows, memberId, request).1);
  }

  /** When the sorted records end with `row`, the listing ends with its response. */
  lemma AllergyListingEndsWith(rows: seq<AllergyRecord>, memberId: string, row: AllergyRecord)
    requires ListOfMember(rows, memberId).Success?
    requires ListOfMember(rows, memberId).value[|ListOfMember(rows, memberId).value| - 1] == row
    ensures GetCurrentUserAllergyRecords(rows, memberId).Success?
    ensures GetCurrentUserAllergyRecords(rows, memberId).value[|GetCurrentUserAllergyRecords(rows, memberId).value| - 1] == ToResponse(row)
  {
    var sorted := ListOfMember(rows, memberId).value;
    assert GetCurrentUserAllergyRecords(rows, memberId) == Success(Respond(sorted, ToResponse));
    assert Respond(sorted, ToResponse)[|sorted| - 1] == ToResponse(sorted[|sorted| - 1]);
  }

  /** A deleted record is gone: a second delete or an update reports `NotFound`. */
  lemma DeletedAllergyRecordNotFound(rows: seq<AllergyRecord>, memberId: string, recordNo: int, change: AllergyEntry)
    requires DeleteAllergyRecord(rows, memberId, recordNo).Success?
    ensures var after := DeleteAllergyRecord(rows, memberId, recordNo).value;
            && DeleteAllergyRecord(after, memberId, recordNo) == Failure(NotFound)
            && UpdateAllergyRecord(after, memberId, recordNo, change) == Failure(NotFound)
  {
  }

  /** An update with every field null leaves the stored record as it was. */
  lemma EmptyUpdateKeepsAllergyRecord(rows: seq<AllergyRecord>, memberId: string, recordNo: int)
    requires Table.HasKey(rows, NumberedKey, (memberId, recordNo))
    ensures var prior := Table.Find(rows, NumberedKey, (memberId, recordNo)).value;
            var after := UpdateAllergyRecord(rows, memberId, recordNo, AllergyEntry(None, None)).value;
            && after.1 == ToResponse(prior)
            && forall y :: y in after.0 <==> y == prior || (y in rows && NumberedKey(y) != (memberId, recordNo))
  {
    var prior := Table.Find(rows, NumberedKey, (memberId, recordNo)).value;
    assert prior == prior.(body := AllergyEntry(prior.body.allergies, prior.body.description));
  }
}

=== FILE: auth_properties.dfy ===
/** Properties that relate several calls of the identity flows. */
module AuthProperties {
  import opened Wrappers
  import opened Clock
  import Otp
  import Members
  import MemberIds
  import TokenBlacklist
  import JwtFilter
  import opened Accounts
  import opened AuthService

  /** In a well-formed table the member holding an email is the one `findByEmail` returns. */
  lemma FindByEmailUnique(rows: Members.MemberTable, x: Members.Member)
    requires Members.WellFormed(rows) && x in rows
    ensures Members.FindByEmail(rows, x.email) == Some(x)
  {
    var y := Members.FindByEmail(rows, x.email);
    assert Members.EmailOf(y.value) == Members.EmailOf(x);
  }

  /** Replacing a member's row without touching its email keeps `findByEmail` on that row. */
  lemma SaveKeepsEmailLookup(rows: Members.MemberTable, m: Members.Member, updated: Members.Member, after: Members.MemberTable)
    requires Members.WellFormed(rows) && m in rows
    requires updated.memberId == m.memberId && updated.email == m.email
    requires Members.Save(rows, updated) == Success(after)
    ensures Members.WellFormed(after)
    ensures Members.FindByEmail(after, m.email) == Some(updated)
  {
    FindByEmailUnique(after, updated);
  }

  /**
   * Registering and then submitting the mailed code within five minutes creates the member
   * under a freshly generated id, removes the registration and opens a session for that id;
   * submitting the code again then finds no registration.
   */
  lemma RegisterThenVerifyEmail(s: State, fullName: string, email: string, contact: string, dob: Date, draw: int, now: Time, later: Time)
    requires 0 <= draw < Otp.OtpBound
    requires Members.FindByEmail(s.members, email).None?
    requires MemberIds.GenerateMemberId(fullName, dob, s.members).Success?
    requires later <= PlusMinutes(now, RegistrationOtpMinutes)
    ensures var code := Otp.GenerateOtp(draw);
            var id := MemberIds.GenerateMemberId(fullName, dob, s.members).value;
            var r1 := Register(s, fullName, email, contact, dob, draw, now);
            var r2 := VerifyEmail(r1.state, email, code, later);
            && r2.result == Success(Session(id))
            && Members.FindById(r2.state.members, id) == Some(Members.Member(id, fullName, email, contact, dob, None, None))
            && VerifyEmail(r2.state, email, code, later).result == Failure(RegistrationNotFound)
  {
    var code := Otp.GenerateOtp(draw);
    var r1 := Register(s, fullName, email, contact, dob, draw, now);
    var p := r1.state.pending[email];
    Otp.MatchesEncode(code, code);
    var id := MemberIds.GenerateMemberId(fullName, dob, s.members).value;
    assert !Members.EmailOwnedByOther(s.members, email, id);
  }

  /** A wrong code is refused and changes nothing, so the right code still works afterwards. */
  lemma WrongCodeKeepsRegistration(s: State, email: string, wrong: string, now: Time)
    requires email in s.pending && !(s.pending[email].expiry < now)
    requires wrong != s.pending[email].otp.secret
    ensures VerifyEmail(s, email, wrong, now) == Reply(s, Failure(InvalidOtp))
  {
  }

  /**
   * A registration code submitted after its five minutes is refused as expired (and the
   * registration discarded), however correct it is.
   */
  lemma LateRegistrationCodeExpires(s: State, fullName: string, email: string, contact: string, dob: Date, draw: int, now: Time, later: Time)
    requires 0 <= draw < Otp.OtpBound
    requires Members.FindByEmail(s.members, email).None?
    requires later > PlusMinutes(now, RegistrationOtpMinutes)
    ensures var r1 := Register(s, fullName, email, contact, dob, draw, now);
            var r2 := VerifyEmail(r1.state, email, Otp.GenerateOtp(draw), later);
            r2.result == Failure(OtpExpired) && email !in r2.state.pending && r2.state.members == s.members
  {
  }

  /** The row `sendOtp` writes: the member with a fresh code and a one-minute expiry. */
  function WithLoginCode(m: Members.Member, draw: int, now: Time): Members.Member
    requires 0 <= draw < Otp.OtpBound
  {
    m.(otp := Some(Otp.Encode(Otp.GenerateOtp(draw))), otpExpiry := Some(PlusMinutes(now, LoginOtpMinutes)))
  }

  /** In a well-formed state `sendOtp` succeeds, and `findByEmail` then returns the updated row. */
  lemma SendOtpSucceeds(s: State, email: string, draw: int, now: Time)
    requires WellFormed(s)
    requires 0 <= draw < Otp.OtpBound
    requires Members.FindByEmail(s.members, email).Some?
    ensures var r1 := SendOtp(s, email, draw, now);
            var m := Members.FindByEmail(s.members, email).value;
            && r1.result.Success? && WellFormed(r1.state)
            && Members.FindByEmail(r1.state.members, email) == Some(WithLoginCode(m, draw, now))
  {
    var m := Members.FindByEmail(s.members, email).value;
    var updated := WithLoginCode(m, draw, now);
    FindByEmailUnique(s.members, m);
    assert !Members.EmailOwnedByOther(s.members, updated.email, updated.memberId) by {
      forall x | x in s.members && x.email == updated.email ensures x.memberId == updated.memberId {
        assert Members.EmailOf(x) == Members.EmailOf(m);
      }
    }
    var r1 := SendOtp(s, email, draw, now);
    SaveKeepsEmailLookup(s.members, m, updated, r1.state.members);
  }

  /** In a well-formed state the matching, unexpired code is accepted and the slot cleared. */
  lemma VerifyOtpAccepts(s: State, email: string, code: string, now: Time)
    requires WellFormed(s)
    requires Members.FindByEmail(s.members, email).Some?
    requires var m := Members.FindByEmail(s.members, email).value;
             m.otpExpiry.Some? && now <= m.otpExpiry.value && Otp.Matches(code, m.otp)
    ensures var m := Members.FindByEmail(s.members, email).value;
            var r := VerifyOtp(s, email, code, now);
            && r.result == Success(Session(m.memberId))
            && Members.FindByEmail(r.state.members, email) == Some(m.(otp := None, otpExpiry := None))
  {
    var m := Members.FindByEmail(s.members, email).value;
    var cleared := m.(otp := None, otpExpiry := None);
    assert !Members.EmailOwnedByOther(s.members, cleared.email, cleared.memberId) by {
      forall x | x in s.members && x.email == cleared.email ensures x.memberId == cleared.memberId {
        assert Members.EmailOf(x) == Members.EmailOf(m);
      }
    }
    var r := VerifyOtp(s, email, code, now);
    SaveKeepsEmailLookup(s.members, m, cleared, r.state.members);
  }

  /**
   * Requesting a login code and submitting it within the minute opens a session for the
   * member and clears the code; submitting the same code again is refused.
   */
  lemma LoginRoundTrip(s: State, email: string, draw: int, now: Time, later: Time)
    requires WellFormed(s)
    requires 0 <= draw < Otp.OtpBound
    requires Members.FindByEmail(s.members, email).Some?
    requires later <= PlusMinutes(now, LoginOtpMinutes)
    ensures var m := Members.FindByEmail(s.members, email).value;
            var code := Otp.GenerateOtp(draw);
            var r1 := SendOtp(s, email, draw, now);
            var r2 := VerifyOtp(r1.state, email, code, later);
            && r1.result.Success?
            && r2.result == Success(Session(m.memberId))
            && VerifyOtp(r2.state, email, code, later) == Reply(r2.state, Failure(OtpExpired))
            && VerifyOtpAsWritten(r2.state, email, code, later).result == Failure(NullOtpExpiry)
  {
    var code := Otp.GenerateOtp(draw);
    SendOtpSucceeds(s, email, draw, now);
    var r1 := SendOtp(s, email, draw, now);
    Otp.MatchesEncode(code, code);
    VerifyOtpAccepts(r1.state, email, code, later);
  }

  /** A login code submitted after its minute is refused as expired. */
  lemma LateLoginCodeExpires(s: State, email: string, draw: int, now: Time, later: Time)
    requires WellFormed(s)
    requires 0 <= draw < Otp.OtpBound
    requires Members.FindByEmail(s.members, email).Some?
    requires later > PlusMinutes(now, LoginOtpMinutes)
    ensures var r1 := SendOtp(s, email, draw, now);
            VerifyOtp(r1.state, email, Otp.GenerateOtp(draw), later) == Reply(r1.state, Failure(OtpExpired))
  {
    SendOtpSucceeds(s, email, draw, now);
  }

  /** A second login code request invalidates the first code (the draws differ, so the codes do). */
  lemma NewLoginCodeSupersedes(s: State, email: string, d1: int, d2: int, now: Time, later: Time)
    requires WellFormed(s)
    requires 0 <= d1 < Otp.OtpBound && 0 <= d2 < Otp.OtpBound && d1 != d2
    requires Members.FindByEmail(s.members, email).Some?
    requires later <= PlusMinutes(now, LoginOtpMinutes)
    ensures var r1 := SendOtp(s, email, d1, now);
            var r2 := SendOtp(r1.state, email, d2, now);
            VerifyOtp(r2.state, email, Otp.GenerateOtp(d1), later) == Reply(r2.state, Failure(InvalidOtp))
  {
    SendOtpSucceeds(s, email, d1, now);
    var r1 := SendOtp(s, email, d1, now);
    SendOtpSucceeds(r1.state, email, d2, now);
    if Otp.GenerateOtp(d1) == Otp.GenerateOtp(d2) {
      Otp.GenerateOtpInjective(d1, d2);
    }
  }

  /** Every identity operation keeps the member table's keys intact. */
  lemma OperationsKeepWellFormed(s: State, fullName: string, email: string, contact: string, dob: Date,
                                 code: string, token: string, draw: int, now: Time)
    requires WellFormed(s)
    requires 0 <= draw < Otp.OtpBound
    ensures WellFormed(Register(s, fullName, email, contact, dob, draw, now).state)
    ensures WellFormed(VerifyEmail(s, email, code, now).state)
    ensures WellFormed(VerifyEmailAsWritten(s, email, code, now).state)
    ensures WellFormed(SendOtp(s, email, draw, now).state)
    ensures WellFormed(VerifyOtp(s, email, code, now).state)
    ensures WellFormed(VerifyOtpAsWritten(s, email, code, now).state)
    ensures WellFormed(Logout(s, token, now))
  {
  }

  /**
   * After logout the token authenticates no one at the request filter, and stays revoked
   * through every hourly cleanup until its day has passed.
   */
  lemma LoggedOutTokenRefused<U>(
    s: State, token: string, now: Time, cleanupAt: Time, cookies: Option<seq<JwtFilter.Cookie>>,
    extractMemberId: string -> JwtFilter.Attempt<Option<string>>, loadUser: string -> JwtFilter.Attempt<U>,
    isTokenValid: (string, U) -> JwtFilter.Attempt<bool>)
    requires JwtFilter.ExtractJwtFromCookie(cookies) == Some(token)
    requires cleanupAt <= now + DayMs
    ensures var revoked := Logout(s, token, now).revoked;
            JwtFilter.DoFilterInternal(cookies, revoked, None, extractMemberId, loadUser, isTokenValid) == None
    ensures var revoked := TokenBlacklist.CleanupExpiredTokens(Logout(s, token, now).revoked, cleanupAt);
            JwtFilter.DoFilterInternal(cookies, revoked, None, extractMemberId, loadUser, isTokenValid) == None
  {
  }

  /**
   * When the generated id already belongs to a member, completing the registration replaces
   * that member: `save` with an assigned id is a merge.
   */
  lemma GeneratedIdOverwrites(s: State, email: string, code: string, now: Time, id: string, victim: Members.Member)
    requires email in s.pending && !(s.pending[email].expiry < now) && s.pending[email].otp == Otp.Encode(code)
    requires MemberIds.GenerateMemberId(s.pending[email].fullName, s.pending[email].dob, s.members) == Success(id)
    requires !Members.EmailOwnedByOther(s.members, email, id)
    requires victim in s.members && victim.memberId == id && victim.email != email
    ensures var r := VerifyEmail(s, email, code, now);
            && r.result == Success(Session(id))
            && victim !in r.state.members
            && Members.FindById(r.state.members, id) == Some(NewMember(email, s.pending[email], id))
  {
    Otp.MatchesEncode(code, code);
    assert VerifyEmail(s, email, code, now) == CompleteRegistration(s, email, s.pending[email]);
  }

  /**
   * Once `A0199` and `A01100` exist, completing a registration for another "Alice" born in
   * 2001 generates `A01100` again, and the save replaces the member who held that id.
   */
  lemma RepeatedIdReplacesMember()
    ensures var pending := PendingVerification("Alice", "5550100", Date(2001, 3, 4), Otp.Encode("123456"), 10);
            var s := State([MemberIds.Sample("A0199"), MemberIds.Sample("A01100")], map["new@example.com" := pending], map[], []);
            var r := VerifyEmail(s, "new@example.com", "123456", 5);
            && r.result == Success(Session("A01100"))
            && MemberIds.Sample("A01100") !in r.state.members
            && Members.FindById(r.state.members, "A01100") == Some(NewMember("new@example.com", pending, "A01100"))
  {
    var email := "new@example.com";
    var pending := PendingVerification("Alice", "5550100", Date(2001, 3, 4), Otp.Encode("123456"), 10);
    var rows := [MemberIds.Sample("A0199"), MemberIds.Sample("A01100")];
    var s := State(rows, map[email := pending], map[], []);
    assert MemberIds.GenerateMemberId("Alice", Date(2001, 3, 4), rows) == Success("A01100") by {
      MemberIds.StringOrderRepeatsIds();
    }
    SampleEmailsDiffer(rows, email);
    GeneratedIdOverwrites(s, email, "123456", 5, "A01100", MemberIds.Sample("A01100"));
  }

  /** The sample members' addresses all start with `A`, so none is `new@example.com`. */
  lemma SampleEmailsDiffer(rows: Members.MemberTable, email: string)
    requires rows == [MemberIds.Sample("A0199"), MemberIds.Sample("A01100")] && email == "new@example.com"
    ensures !Members.EmailOwnedByOther(rows, email, "A01100")
    ensures MemberIds.Sample("A01100").email != email
  {
    forall x | x in rows ensures x.email != email {
      assert x.email[0] == 'A' != email[0];
    }
  }
}

=== FILE: auth_service.dfy ===
/**
 * Registration and login by emailed one-time passcode, and logout. Random draws and the
 * clock are parameters; the issued session token is reduced to its subject.
 */
module AuthService {
  import opened Wrappers
  import opened Clock
  import Otp
  import Members
  import MemberIds
  import TokenBlacklist
  import opened Accounts

  /** Lifetime of a registration code and of a login code, in minutes. */
  const RegistrationOtpMinutes: int := 5
  const LoginOtpMinutes: int := 1

  /**
   * `register`: refused when a member already has the email; otherwise the pending record
   * for the email is written (replacing an earlier one) and the code is mailed to it.
   */
  function Register(s: State, fullName: string, email: string, contact: string, dob: Date, draw: int, now: Time): (r: Reply<()>)
    requires 0 <= draw < Otp.OtpBound
    ensures r.result.Failure? <==> Members.FindByEmail(s.members, email).Some?
    ensures r.result.Failure? ==> r == Reply(s, Failure(EmailAlreadyRegistered))
    ensures r.result.Success? ==>
              var code := Otp.GenerateOtp(draw);
              && r.state.members == s.members && r.state.revoked == s.revoked
              && email in r.state.pending
              && r.state.pending[email] == PendingVerification(fullName, contact, dob, Otp.Encode(code), PlusMinutes(now, RegistrationOtpMinutes))
              && (forall e :: e != email ==> (e in r.state.pending <==> e in s.pending))
              && (forall e :: e != email && e in s.pending ==> r.state.pending[e] == s.pending[e])
              && r.state.outbox == s.outbox + [VerificationMail(email, code)]
  {
    if Members.FindByEmail(s.members, email).Some? then Reply(s, Failure(EmailAlreadyRegistered))
    else
      var code := Otp.GenerateOtp(draw);
      var p := PendingVerification(fullName, contact, dob, Otp.Encode(code), PlusMinutes(now, RegistrationOtpMinutes));
      Reply(s.(pending := s.pending[email := p], outbox := s.outbox + [VerificationMail(email, code)]), Success(()))
  }

  /** The member a successful registration creates: the registration's details, no login code yet. */
  function NewMember(email: string, p: PendingVerification, memberId: string): (m: Members.Member)
    ensures m.memberId == memberId && m.email == email
    ensures m.fullName == p.fullName && m.contact == p.contact && m.dob == p.dob
    ensures m.otp.None? && m.otpExpiry.None?
  {
    Members.Member(memberId, p.fullName, email, p.contact, p.dob, None, None)
  }

  /**
   * The part of `verifyEmail` after the code has been accepted: generate the id, save the
   * member, drop the pending record, queue the welcome mail, issue the session. `save` does
   * not flush, so the unique email column objects only at commit, after the welcome mail has
   * been handed to the mail sender: the rollback keeps the tables but not the mail.
   */
  function CompleteRegistration(s: State, email: string, p: PendingVerification): (r: Reply<Session>)
    ensures MemberIds.GenerateMemberId(p.fullName, p.dob, s.members).Failure? ==> r == Reply(s, Failure(MemberIdFailure))
    ensures MemberIds.GenerateMemberId(p.fullName, p.dob, s.members).Success? &&
            Members.EmailOwnedByOther(s.members, email, MemberIds.GenerateMemberId(p.fullName, p.dob, s.members).value)
            ==> r == Reply(s.(outbox := s.outbox + [WelcomeMail(email, p.fullName)]), Failure(StoreFailure))
    ensures r.result.Failure? <==>
              MemberIds.GenerateMemberId(p.fullName, p.dob, s.members).Failure?
              || Members.EmailOwnedByOther(s.members, email, MemberIds.GenerateMemberId(p.fullName, p.dob, s.members).value)
    ensures r.result.Success? ==>
              var id := MemberIds.GenerateMemberId(p.fullName, p.dob, s.members).value;
              && r.result.value == Session(id)
              && Members.FindById(r.state.members, id) == Some(NewMember(email, p, id))
              && Members.Replaced(s.members, r.state.members, NewMember(email, p, id))
              && r.state.pending == s.pending - {email}
              && r.state.revoked == s.revoked
              && r.state.outbox == s.outbox + [WelcomeMail(email, p.fullName)]
  {
    match MemberIds.GenerateMemberId(p.fullName, p.dob, s.members)
    case Failure(_) => Reply(s, Failure(MemberIdFailure))
    case Success(id) =>
      match Members.Save(s.members, NewMember(email, p, id))
      case Failure(_) => Reply(s.(outbox := s.outbox + [WelcomeMail(email, p.fullName)]), Failure(StoreFailure))
      case Success(members) =>
        Reply(State(members, s.pending - {email}, s.revoked, s.outbox + [WelcomeMail(email, p.fullName)]), Success(Session(id)))
  }

  /**
   * `verifyEmail` as the code behaves: the deletion of an expired record happens inside the
   * transaction that the following exception rolls back, so the record survives.
   */
  function VerifyEmailAsWritten(s: State, email: string, code: string, now: Time): (r: Reply<Session>)
    ensures email !in s.pending ==> r == Reply(s, Failure(RegistrationNotFound))
    ensures email in s.pending && s.pending[email].expiry < now ==> r == Reply(s, Failure(OtpExpired))
    ensures r.result.Failure? && r.result.error != StoreFailure ==> r.state == s
    ensures r.result == Failure(StoreFailure) ==>
              email in s.pending && r.state == s.(outbox := s.outbox + [WelcomeMail(email, s.pending[email].fullName)])
  {
    if email !in s.pending then Reply(s, Failure(RegistrationNotFound))
    else
      var p := s.pending[email];
      if p.expiry < now then Reply(s, Failure(OtpExpired))
      else if !Otp.Matches(code, Some(p.otp)) then Reply(s, Failure(InvalidOtp))
      else CompleteRegistration(s, email, p)
  }

  /**
   * `verifyEmail` as intended: an expired registration is discarded and reported; a wrong
   * code is reported and the record kept; the right code in time creates the member.
   */
  function VerifyEmail(s: State, email: string, code: string, now: Time): (r: Reply<Session>)
    ensures email !in s.pending ==> r == Reply(s, Failure(RegistrationNotFound))
    ensures email in s.pending && s.pending[email].expiry < now ==>
              r == Reply(s.(pending := s.pending - {email}), Failure(OtpExpired))
    ensures email in s.pending && !(s.pending[email].expiry < now) && !Otp.Matches(code, Some(s.pending[email].otp)) ==>
              r == Reply(s, Failure(InvalidOtp))
    ensures r.result.Success? ==>
              email in s.pending && !(s.pending[email].expiry < now) && Otp.Matches(code, Some(s.pending[email].otp))
              && email !in r.state.pending
              && Members.FindById(r.state.members, r.result.value.subject) == Some(NewMember(email, s.pending[email], r.result.value.subject))
    ensures r.result == Failure(StoreFailure) ==>
              email in s.pending && r.state == s.(outbox := s.outbox + [WelcomeMail(email, s.pending[email].fullName)])
  {
    if email !in s.pending then Reply(s, Failure(RegistrationNotFound))
    else
      var p := s.pending[email];
      if p.expiry < now then Reply(s.(pending := s.pending - {email}), Failure(OtpExpired))
      else if !Otp.Matches(code, Some(p.otp)) then Reply(s, Failure(InvalidOtp))
      else CompleteRegistration(s, email, p)
  }

  /** The two versions of `verifyEmail` differ only on an expired registration. */
  lemma VerifyEmailVersionsAgree(s: State, email: string, code: string, now: Time)
    requires !(email in s.pending && s.pending[email].expiry < now)
    ensures VerifyEmailAsWritten(s, email, code, now) == VerifyEmail(s, email, code, now)
  {
  }

  /**
   * As written, an expired registration stays pending, so asking again keeps reporting an
   * expired code; as intended, the second attempt finds no registration.
   */
  lemma ExpiredRegistrationLingers(s: State, email: string, code: string, now: Time)
    requires email in s.pending && s.pending[email].expiry < now
    ensures var r := VerifyEmailAsWritten(s, email, code, now);
            email in r.state.pending && VerifyEmailAsWritten(r.state, email, code, now).result == Failure(OtpExpired)
    ensures var r := VerifyEmail(s, email, code, now);
            email !in r.state.pending && VerifyEmail(r.state, email, code, now).result == Failure(RegistrationNotFound)
  {
  }

  /**
   * `sendOtp`: a fresh login code with a one-minute lifetime replaces the member's OTP slot.
   * The code is mailed before the transaction commits, so a save the unique email column
   * rejects at commit still leaves the mail queued.
   */
  function SendOtp(s: State, email: string, draw: int, now: Time): (r: Reply<()>)
    requires 0 <= draw < Otp.OtpBound
    ensures Members.FindByEmail(s.members, email).None? ==> r == Reply(s, Failure(MemberNotFound))
    ensures r.result.Failure? <==>
              Members.FindByEmail(s.members, email).None?
              || Members.EmailOwnedByOther(s.members, email, Members.FindByEmail(s.members, email).value.memberId)
    ensures r.result.Failure? && r.result.error != StoreFailure ==> r.state == s
    ensures Members.FindByEmail(s.members, email).Some? ==>
              var m := Members.FindByEmail(s.members, email).value;
              var code := Otp.GenerateOtp(draw);
              var updated := m.(otp := Some(Otp.Encode(code)), otpExpiry := Some(PlusMinutes(now, LoginOtpMinutes)));
              && (r.result == Failure(StoreFailure) ==> r.state == s.(outbox := s.outbox + [OtpMail(m.email, code)]))
              && (r.result.Success? ==>
                    && Members.FindById(r.state.members, m.memberId) == Some(updated)
                    && Members.Replaced(s.members, r.state.members, updated)
                    && r.state.pending == s.pending && r.state.revoked == s.revoked
                    && r.state.outbox == s.outbox + [OtpMail(m.email, code)])
  {
    match Members.FindByEmail(s.members, email)
    case None => Reply(s, Failure(MemberNotFound))
    case Some(m) =>
      var code := Otp.GenerateOtp(draw);
      var updated := m.(otp := Some(Otp.Encode(code)), otpExpiry := Some(PlusMinutes(now, LoginOtpMinutes)));
      match Members.Save(s.members, updated)
      case Failure(_) => Reply(s.(outbox := s.outbox + [OtpMail(m.email, code)]), Failure(StoreFailure))
      case Success(members) => Reply(s.(members := members, outbox := s.outbox + [OtpMail(m.email, code)]), Success(()))
  }

  /** The login check after the expiry test: compare, clear the slot, save, issue the session. */
  function AcceptLoginCode(s: State, m: Members.Member, code: string): (r: Reply<Session>)
    ensures !Otp.Matches(code, m.otp) ==> r == Reply(s, Failure(InvalidOtp))
    ensures Otp.Matches(code, m.otp) && Members.EmailOwnedByOther(s.members, m.email, m.memberId) ==>
              r == Reply(s, Failure(StoreFailure))
    ensures r.result.Failure? <==> !Otp.Matches(code, m.otp) || Members.EmailOwnedByOther(s.members, m.email, m.memberId)
    ensures r.result.Success? ==>
              && r.result.value == Session(m.memberId)
              && Members.FindById(r.state.members, m.memberId) == Some(m.(otp := None, otpExpiry := None))
              && Members.Replaced(s.members, r.state.members, m.(otp := None, otpExpiry := None))
              && r.state.pending == s.pending && r.state.revoked == s.revoked && r.state.outbox == s.outbox
  {
    if !Otp.Matches(code, m.otp) then Reply(s, Failure(InvalidOtp))
    else
      match Members.Save(s.members, m.(otp := None, otpExpiry := None))
      case Failure(_) => Reply(s, Failure(StoreFailure))
      case Success(members) => Reply(s.(members := members), Success(Session(m.memberId)))
  }

  /** `verifyOtp` as written: an absent expiry is dereferenced and throws. */
  function VerifyOtpAsWritten(s: State, email: string, code: string, now: Time): (r: Reply<Session>)
    ensures Members.FindByEmail(s.members, email).None? ==> r == Reply(s, Failure(MemberNotFound))
    ensures Members.FindByEmail(s.members, email).Some? ==>
              var m := Members.FindByEmail(s.members, email).value;
              && (m.otpExpiry.None? ==> r == Reply(s, Failure(NullOtpExpiry)))
              && (m.otpExpiry.Some? && m.otpExpiry.value < now ==> r == Reply(s, Failure(OtpExpired)))
              && (m.otpExpiry.Some? && !(m.otpExpiry.value < now) && !Otp.Matches(code, m.otp) ==>
                    r == Reply(s, Failure(InvalidOtp)))
    ensures r.result.Failure? ==> r.state == s
    ensures r.result.Success? ==>
              Members.FindByEmail(s.members, email).Some? &&
              var m := Members.FindByEmail(s.members, email).value;
              && m.otpExpiry.Some? && !(m.otpExpiry.value < now) && Otp.Matches(code, m.otp)
              && r.result.value == Session(m.memberId)
              && Members.Replaced(s.members, r.state.members, m.(otp := None, otpExpiry := None))
  {
    match Members.FindByEmail(s.members, email)
    case None => Reply(s, Failure(MemberNotFound))
    case Some(m) =>
      match m.otpExpiry
      case None => Reply(s, Failure(NullOtpExpiry))
      case Some(expiry) =>
        if expiry < now then Reply(s, Failure(OtpExpired))
        else AcceptLoginCode(s, m, code)
  }

  /** `verifyOtp` as intended: an absent code counts as expired, as the email-change check does. */
  function VerifyOtp(s: State, email: string, code: string, now: Time): (r: Reply<Session>)
    ensures Members.FindByEmail(s.members, email).None? ==> r == Reply(s, Failure(MemberNotFound))
    ensures Members.FindByEmail(s.members, email).Some? ==>
              var m := Members.FindByEmail(s.members, email).value;
              && (m.otpExpiry.None? || m.otpExpiry.value < now ==> r == Reply(s, Failure(OtpExpired)))
              && (m.otpExpiry.Some? && !(m.otpExpiry.value < now) && !Otp.Matches(code, m.otp) ==>
                    r == Reply(s, Failure(InvalidOtp)))
    ensures r.result.Failure? ==> r.state == s
    ensures r.result.Success? ==>
              Members.FindByEmail(s.members, email).Some? &&
              var m := Members.FindByEmail(s.members, email).value;
              && m.otpExpiry.Some? && !(m.otpExpiry.value < now) && Otp.Matches(code, m.otp)
              && r.result.value == Session(m.memberId)
              && Members.FindById(r.state.members, m.memberId) == Some(m.(otp := None, otpExpiry := None))
              && Members.Replaced(s.members, r.state.members, m.(otp := None, otpExpiry := None))
              && r.state.pending == s.pending && r.state.revoked == s.revoked && r.state.outbox == s.outbox
  {
    match Members.FindByEmail(s.members, email)
    case None => Reply(s, Failure(MemberNotFound))
    case Some(m) =>
      if m.otpExpiry.None? || m.otpExpiry.value < now then Reply(s, Failure(OtpExpired))
      else AcceptLoginCode(s, m, code)
  }

  /** The two versions of `verifyOtp` differ only for a member with no code outstanding. */
  lemma VerifyOtpVersionsAgree(s: State, email: string, code: string, now: Time)
    requires Members.FindByEmail(s.members, email).Some? ==> Members.FindByEmail(s.members, email).value.otpExpiry.Some?
    ensures VerifyOtpAsWritten(s, email, code, now) == VerifyOtp(s, email, code, now)
  {
  }

  /** `logout`: the token is revoked until one day from now; nothing is checked. */
  function Logout(s: State, token: string, now: Time): (r: State)
    ensures TokenBlacklist.IsTokenBlacklisted(r.revoked, token) && r.revoked[token] == now + DayMs
    ensures r.members == s.members && r.pending == s.pending && r.outbox == s.outbox
    ensures forall t :: t != token ==> (TokenBlacklist.IsTokenBlacklisted(r.revoked, t) <==> TokenBlacklist.IsTokenBlacklisted(s.revoked, t))
  {
    s.(revoked := TokenBlacklist.BlacklistToken(s.revoked, token, now + DayMs))
  }
}

=== FILE: dependents.dfy ===
/**
 * The dependent service: a member's dependents keyed by their full name, listed in table
 * order, added (a merge over a dependent of the same name), updated in place or renamed, and
 * deleted. The acting member is a parameter.
 */
module Dependents {
  import opened Wrappers
  import opened Clock
  import Table
  import opened Records

  /** The non-key columns of a `dependents` row; relation and dob are `nullable = false`. */
  datatype DependentFields = DependentFields(
    relation: Option<string>,
    dob: Option<Date>,
    mobileNumber: Option<string>,
    emailAddress: Option<string>,
    emergencySosContact: Option<bool>)

  /** A `dependents` row, keyed by `(memberId, fullName)`. */
  datatype Dependent = Dependent(memberId: string, fullName: string, fields: DependentFields)

  function DependentKey(d: Dependent): (string, string) {
    (d.memberId, d.fullName)
  }

  /** The body of an add or an update request. */
  datatype DependentRequest = DependentRequest(fullName: Option<string>, fields: DependentFields)

  /** What the service hands back: every column but the member. */
  datatype DependentResponse = DependentResponse(fullName: string, fields: DependentFields)

  function ToResponse(d: Dependent): (r: DependentResponse)
    ensures r.fullName == d.fullName && r.fields == d.fields
  {
    DependentResponse(d.fullName, d.fields)
  }

  /** A required column is null. */
  predicate MissingRequired(f: DependentFields) {
    f.relation.None? || f.dob.None?
  }

  /** `findByMemberId` in table order, each row as a response; `NotFound` when there are none. */
  function GetCurrentUserDependents(rows: seq<Dependent>, memberId: string): (r: Result<seq<DependentResponse>, RecordError>)
    ensures r.Failure? <==> forall d :: d in rows ==> d.memberId != memberId
    ensures r.Failure? ==> r.error == NotFound
    ensures r.Success? ==> forall d :: d in rows && d.memberId == memberId ==> ToResponse(d) in r.value
    ensures r.Success? ==> forall i :: 0 <= i < |r.value| ==>
                             exists d :: d in rows && d.memberId == memberId && ToResponse(d) == r.value[i]
  {
    var mine := Table.Where(rows, (d: Dependent) => d.memberId == memberId);
    if mine == [] then
      Failure(NotFound)
    else
      assert mine[0] in mine;
      var out := seq(|mine|, i requires 0 <= i < |mine| => ToResponse(mine[i]));
      assert forall d :: d in mine ==> ToResponse(d) in out by {
        forall d | d in mine ensures ToResponse(d) in out {
          var i :| 0 <= i < |mine| && mine[i] == d;
          assert out[i] == ToResponse(d);
        }
      }
      assert forall i :: 0 <= i < |out| ==> mine[i] in mine && out[i] == ToResponse(mine[i]);
      Success(out)
  }

  /**
   * `save` of the request under `(memberId, fullName)`: a dependent of that name is replaced.
   * A null name is no key; a null relation or dob breaks its column's constraint.
   */
  function AddDependent(rows: seq<Dependent>, memberId: string, request: DependentRequest): (r: Result<(seq<Dependent>, DependentResponse), RecordError>)
    ensures r.Failure? <==> request.fullName.None? || MissingRequired(request.fields)
    ensures r.Failure? ==> r.error == (if request.fullName.None? then NullKey else NullColumn)
    ensures r.Success? ==>
              var added := Dependent(memberId, request.fullName.value, request.fields);
              && r.value.1 == ToResponse(added)
              && Table.Find(r.value.0, DependentKey, DependentKey(added)) == Some(added)
              && forall y :: y in r.value.0 <==> y == added || (y in rows && DependentKey(y) != DependentKey(added))
  {
    match request.fullName
    case None => Failure(NullKey)
    case Some(name) =>
      if MissingRequired(request.fields) then Failure(NullColumn)
      else
        var added := Dependent(memberId, name, request.fields);
        Success((Table.Save(rows, DependentKey, added), ToResponse(added)))
  }

  /** The stored columns with every non-null field of `change` written over them. */
  function MergeFields(stored: DependentFields, change: DependentFields): (r: DependentFields)
    ensures r.relation == (if change.relation.Some? then change.relation else stored.relation)
    ensures r.dob == (if change.dob.Some? then change.dob else stored.dob)
    ensures r.mobileNumber == (if change.mobileNumber.Some? then change.mobileNumber else stored.mobileNumber)
    ensures r.emailAddress == (if change.emailAddress.Some? then change.emailAddress else stored.emailAddress)
    ensures r.emergencySosContact == (if change.emergencySosContact.Some? then change.emergencySosContact else stored.emergencySosContact)
    ensures !MissingRequired(stored) ==> !MissingRequired(r)
  {
    DependentFields(
      change.relation.Or(stored.relation),
      change.dob.Or(stored.dob),
      change.mobileNumber.Or(stored.mobileNumber),
      change.emailAddress.Or(stored.emailAddress),
      change.emergencySosContact.Or(stored.emergencySosContact))
  }

  /** The request renames: it carries a name, and not the stored one. */
  predicate Renames(request: DependentRequest, fullName: string) {
    request.fullName.Some? && request.fullName.value != fullName
  }

  /**
   * `findById` (or `NotFound`). A rename deletes the stored row and saves the merged dependent
   * under the new name, over any dependent already there; otherwise the merge is saved in place.
   */
  function UpdateDependent(rows: seq<Dependent>, memberId: string, fullName: string, request: DependentRequest): (r: Result<(seq<Dependent>, DependentResponse), RecordError>)
    ensures r.Failure? <==> !Table.HasKey(rows, DependentKey, (memberId, fullName))
    ensures r.Failure? ==> r.error == NotFound
    ensures r.Success? ==>
              var prior := Table.Find(rows, DependentKey, (memberId, fullName)).value;
              var name := if Renames(request, fullName) then request.fullName.value else fullName;
              var updated := Dependent(memberId, name, MergeFields(prior.fields, request.fields));
              && r.value.1 == ToResponse(updated)
              && Table.Find(r.value.0, DependentKey, (memberId, name)) == Some(updated)
              && (Renames(request, fullName) ==> !Table.HasKey(r.value.0, DependentKey, (memberId, fullName)))
              && forall y :: y in r.value.0 <==>
                               y == updated || (y in rows && DependentKey(y) != (memberId, fullName) && DependentKey(y) != (memberId, name))
  {
    match Table.Find(rows, DependentKey, (memberId, fullName))
    case None => Failure(NotFound)
    case Some(prior) =>
      var merged := MergeFields(prior.fields, request.fields);
      if Renames(request, fullName) then
        var renamed := Dependent(memberId, request.fullName.value, merged);
        var rest := Table.Delete(rows, DependentKey, (memberId, fullName));
        var after := Table.Save(rest, DependentKey, renamed);
        assert !Table.HasKey(after, DependentKey, (memberId, fullName)) by {
          forall i | 0 <= i < |after| ensures DependentKey(after[i]) != (memberId, fullName) {
            assert after[i] in after;
          }
        }
        Success((after, ToResponse(renamed)))
      else
        var updated := prior.(fields := merged);
        Success((Table.Save(rows, DependentKey, updated), ToResponse(updated)))
  }

  /** `existsById` (or `NotFound`), then `deleteById`: only that name goes. */
  function DeleteDependent(rows: seq<Dependent>, memberId: string, fullName: string): (r: Result<seq<Dependent>, RecordError>)
    ensures r.Failure? <==> !Table.HasKey(rows, DependentKey, (memberId, fullName))
    ensures r.Failure? ==> r.error == NotFound
    ensures r.Success? ==> !Table.HasKey(r.value, DependentKey, (memberId, fullName))
    ensures r.Success? ==> forall y :: y in r.value <==> y in rows && DependentKey(y) != (memberId, fullName)
  {
    if !Table.HasKey(rows, DependentKey, (memberId, fullName)) then Failure(NotFound)
    else Success(Table.Delete(rows, DependentKey, (memberId, fullName)))
  }

  /**
   * A rename onto a name already in use replaces that dependent: the target's own columns are
   * lost, and the name holds the renamed dependent alone.
   */
  lemma RenameOverwritesTarget(rows: seq<Dependent>, memberId: string, fullName: string, request: DependentRequest, target: Dependent)
    requires Table.UniqueKeys(rows, DependentKey)
    requires Table.HasKey(rows, DependentKey, (memberId, fullName)) && Renames(request, fullName)
    requires target in rows && DependentKey(target) == (memberId, request.fullName.value)
    ensures var prior := Table.Find(rows, DependentKey, (memberId, fullName)).value;
            var after := UpdateDependent(rows, memberId, fullName, request).value.0;
            && Table.UniqueKeys(after, DependentKey)
            && (target in after <==> target.fields == MergeFields(prior.fields, request.fields))
  {
    var prior := Table.Find(rows, DependentKey, (memberId, fullName)).value;
    var renamed := Dependent(memberId, request.fullName.value, MergeFields(prior.fields, request.fields));
    var rest := Table.Delete(rows, DependentKey, (memberId, fullName));
    assert Table.UniqueKeys(rest, DependentKey);
    assert UpdateDependent(rows, memberId, fullName, request).value.0 == Table.Save(rest, DependentKey, renamed);
  }

  /**
   * Renaming a dependent to a free name and back, with no other change, restores the
   * member's dependents as they were.
   */
  lemma RenameThereAndBack(rows: seq<Dependent>, memberId: string, fullName: string, newName: string)
    requires Table.UniqueKeys(rows, DependentKey)
    requires Table.HasKey(rows, DependentKey, (memberId, fullName))
    requires newName != fullName && !Table.HasKey(rows, DependentKey, (memberId, newName))
    ensures var none := DependentFields(None, None, None, None, None);
            var there := UpdateDependent(rows, memberId, fullName, DependentRequest(Some(newName), none));
            && there.Success?
            && var back := UpdateDependent(there.value.0, memberId, newName, DependentRequest(Some(fullName), none));
            && back.Success?
            && forall y :: y in back.value.0 <==> y in rows
  {
    var none := DependentFields(None, None, None, None, None);
    var prior := Table.Find(rows, DependentKey, (memberId, fullName)).value;
    assert MergeFields(prior.fields, none) == prior.fields;
    var there := UpdateDependent(rows, memberId, fullName, DependentRequest(Some(newName), none));
    var moved := Dependent(memberId, newName, prior.fields);
    assert Table.Find(there.value.0, DependentKey, (memberId, newName)) == Some(moved);
    var back := UpdateDependent(there.value.0, memberId, newName, DependentRequest(Some(fullName), none));
    assert MergeFields(moved.fields, none) == prior.fields;
    assert prior == Dependent(memberId, fullName, prior.fields);
    forall y | y in rows ensures DependentKey(y) != (memberId, newName) {
      var i :| 0 <= i < |rows| && rows[i] == y;
    }
    forall y | y in rows ensures y in back.value.0 {
      if DependentKey(y) == (memberId, fullName) {
        assert y == prior;
      }
    }
  }

  /** Updates keep the primary key unique and every required column filled. */
  lemma UpdateKeepsTableInvariants(rows: seq<Dependent>, memberId: string, fullName: string, request: DependentRequest)
    requires Table.UniqueKeys(rows, DependentKey)
    requires forall d :: d in rows ==> !MissingRequired(d.fields)
    ensures var r := UpdateDependent(rows, memberId, fullName, request);
            r.Success? ==> Table.UniqueKeys(r.value.0, DependentKey) && forall d :: d in r.value.0 ==> !MissingRequired(d.fields)
  {
    var r := UpdateDependent(rows, memberId, fullName, request);
    if r.Success? {
      var prior := Table.Find(rows, DependentKey, (memberId, fullName)).value;
      var merged := MergeFields(prior.fields, request.fields);
      if Renames(request, fullName) {
        var rest := Table.Delete(rows, DependentKey, (memberId, fullName));
        assert Table.UniqueKeys(rest, DependentKey);
        assert r.value.0 == Table.Save(rest, DependentKey, Dependent(memberId, request.fullName.value, merged));
      } else {
        assert r.value.0 == Table.Save(rows, DependentKey, prior.(fields := merged));
      }
    }
  }

  /** After an add the dependent is listed, and it can be updated and deleted under its name. */
  lemma AddedDependentIsListed(rows: seq<Dependent>, memberId: string, request: DependentRequest, change: DependentRequest)
    requires request.fullName.Some? && !MissingRequired(request.fields)
    ensures var after := AddDependent(rows, memberId, request).value;
            && GetCurrentUserDependents(after.0, memberId).Success?
            && after.1 in GetCurrentUserDependents(after.0, memberId).value
            && UpdateDependent(after.0, memberId, request.fullName.value, change).Success?
            && DeleteDependent(after.0, memberId, request.fullName.value).Success?
  {
    var added := Dependent(memberId, request.fullName.value, request.fields);
    var after := AddDependent(rows, memberId, request).value;
    assert added in after.0;
    assert Table.HasKey(after.0, DependentKey, DependentKey(added)) by {
      var i :| 0 <= i < |after.0| && after.0[i] == added;
    }
  }

  /** A deleted dependent is gone: a second delete or an update under its name reports `NotFound`. */
  lemma DeletedDependentNotFound(rows: seq<Dependent>, memberId: string, fullName: string, change: DependentRequest)
    requires DeleteDependent(rows, memberId, fullName).Success?
    ensures var after := DeleteDependent(rows, memberId, fullName).value;
            && DeleteDependent(after, memberId, fullName) == Failure(NotFound)
            && UpdateDependent(after, memberId, fullName, change) == Failure(NotFound)
  {
  }
}

=== FILE: health_records.dfy ===
/**
 * The health-record service: a member's numbered health conditions, listed in number order,
 * added with the next free number, partially updated and deleted under `(memberId, recordNo)`.
 * The acting member is a parameter (the security context is not part of this model).
 */
module HealthRecords {
  import opened Wrappers
  import Text
  import Table
  import opened Records

  /** The payload of a `health_records` row; `healthCondition` is a `nullable = false` column. */
  datatype HealthEntry = HealthEntry(healthCondition: Option<string>, description: Option<string>)

  type HealthRecord = Numbered<HealthEntry>

  /** What the service hands back for a row. */
  datatype HealthRecordResponse = HealthRecordResponse(recordNo: int, healthCondition: Option<string>, description: Option<string>)

  function ToResponse(r: HealthRecord): (out: HealthRecordResponse)
    ensures out.recordNo == r.recordNo
    ensures out.healthCondition == r.body.healthCondition && out.description == r.body.description
  {
    HealthRecordResponse(r.recordNo, r.body.healthCondition, r.body.description)
  }

  /** The member's records by ascending number; `NotFound` when there are none. */
  function GetCurrentUserHealthRecords(rows: seq<HealthRecord>, memberId: string): (r: Result<seq<HealthRecordResponse>, RecordError>)
    ensures r.Failure? <==> forall x :: x in rows ==> x.memberId != memberId
    ensures r.Failure? ==> r.error == NotFound
    ensures r.Success? ==> |r.value| == |OfMember(rows, memberId)| && |r.value| > 0
    ensures r.Success? ==> forall i, j :: 0 <= i < j < |r.value| ==> r.value[i].recordNo <= r.value[j].recordNo
    ensures r.Success? ==> forall x :: x in rows && x.memberId == memberId ==> ToResponse(x) in r.value
    ensures r.Success? ==> forall i :: 0 <= i < |r.value| ==>
                             exists x :: x in rows && x.memberId == memberId && ToResponse(x) == r.value[i]
  {
    match ListOfMember(rows, memberId)
    case Failure(e) => Failure(e)
    case Success(sorted) =>
      ResponsesSorted(sorted);
      ResponsesFromRows(rows, memberId, sorted);
      Success(Respond(sorted, ToResponse))
  }

  /** Responses keep the order of the sorted records they come from. */
  lemma ResponsesSorted(sorted: seq<HealthRecord>)
    requires SortedByNo(sorted)
    ensures forall i, j :: 0 <= i < j < |Respond(sorted, ToResponse)| ==> Respond(sorted, ToResponse)[i].recordNo <= Respond(sorted, ToResponse)[j].recordNo
  {
    forall i, j | 0 <= i < j < |Respond(sorted, ToResponse)| ensures Respond(sorted, ToResponse)[i].recordNo <= Respond(sorted, ToResponse)[j].recordNo {
      assert Respond(sorted, ToResponse)[i] == ToResponse(sorted[i]) && Respond(sorted, ToResponse)[j] == ToResponse(sorted[j]);
    }
  }

  /** The responses of a member's records are exactly the responses of the member's rows. */
  lemma ResponsesFromRows(rows: seq<HealthRecord>, memberId: string, sorted: seq<HealthRecord>)
    requires forall x :: x in sorted <==> x in rows && x.memberId == memberId
    ensures forall x :: x in rows && x.memberId == memberId ==> ToResponse(x) in Respond(sorted, ToResponse)
    ensures forall i :: 0 <= i < |Respond(sorted, ToResponse)| ==> exists x :: x in rows && x.memberId == memberId && ToResponse(x) == Respond(sorted, ToResponse)[i]
  {
    forall x | x in rows && x.memberId == memberId ensures ToResponse(x) in Respond(sorted, ToResponse) {
      assert x in sorted;
    }
    forall i | 0 <= i < |Respond(sorted, ToResponse)| ensures exists x :: x in rows && x.memberId == memberId && ToResponse(x) == Respond(sorted, ToResponse)[i] {
      var x := sorted[i];
      assert x in sorted;
      assert x in rows && x.memberId == memberId && ToResponse(x) == Respond(sorted, ToResponse)[i];
    }
  }

  /** `save` of a new row numbered after the member's highest; a null condition breaks the column. */
  function AddHealthRecord(rows: seq<HealthRecord>, memberId: string, request: HealthEntry): (r: Result<(seq<HealthRecord>, HealthRecordResponse), RecordError>)
    ensures r.Failure? <==> request.healthCondition.None?
    ensures r.Failure? ==> r.error == NullColumn
    ensures r.Success? ==>
              && r.value.1 == HealthRecordResponse(NextRecordNo(rows, memberId), request.healthCondition, request.description)
              && forall y :: y in r.value.0 <==>
                               y == Numbered(memberId, NextRecordNo(rows, memberId), request)
                               || (y in rows && NumberedKey(y) != (memberId, NextRecordNo(rows, memberId)))
  {
    if request.healthCondition.None? then Failure(NullColumn)
    else
      var added := AddNumbered(rows, memberId, request);
      Success((added.0, ToResponse(added.1)))
  }

  /** The stored entry with every non-null field of `change` written over it. */
  function MergeHealth(change: HealthEntry): (f: HealthEntry -> HealthEntry)
    ensures forall e :: f(e).healthCondition == change.healthCondition.Or(e.healthCondition)
    ensures forall e :: f(e).description == change.description.Or(e.description)
  {
    (e: HealthEntry) => HealthEntry(change.healthCondition.Or(e.healthCondition), change.description.Or(e.description))
  }

  /** `findById` (or `NotFound`), write the non-null fields of `change`, `save`. */
  function UpdateHealthRecord(rows: seq<HealthRecord>, memberId: string, recordNo: int, change: HealthEntry): (r: Result<(seq<HealthRecord>, HealthRecordResponse), RecordError>)
    ensures r.Failure? <==> !Table.HasKey(rows, NumberedKey, (memberId, recordNo))
    ensures r.Failure? ==> r.error == NotFound
    ensures r.Success? ==>
              var prior := Table.Find(rows, NumberedKey, (memberId, recordNo)).value.body;
              && r.value.1.recordNo == recordNo
              && r.value.1.healthCondition == (if change.healthCondition.Some? then change.healthCondition else prior.healthCondition)
              && r.value.1.description == (if change.description.Some? then change.description else prior.description)
              && Table.Find(r.value.0, NumberedKey, (memberId, recordNo)).Some?
              && ToResponse(Table.Find(r.value.0, NumberedKey, (memberId, recordNo)).value) == r.value.1
              && forall y :: y in r.value.0 <==>
                               y == Table.Find(r.value.0, NumberedKey, (memberId, recordNo)).value
                               || (y in rows && NumberedKey(y) != (memberId, recordNo))
  {
    match UpdateNumbered(rows, memberId, recordNo, MergeHealth(change))
    case Failure(e) => Failure(e)
    case Success(res) => Success((res.0, ToResponse(res.1)))
  }

  /** `existsById` (or `NotFound`), then `deleteById`. */
  function DeleteHealthRecord(rows: seq<HealthRecord>, memberId: string, recordNo: int): (r: Result<seq<HealthRecord>, RecordError>)
    ensures r.Failure? <==> !Table.HasKey(rows, NumberedKey, (memberId, recordNo))
    ensures r.Failure? ==> r.error == NotFound
    ensures r.Success? ==> !Table.HasKey(r.value, NumberedKey, (memberId, recordNo))
    ensures r.Success? ==> forall y :: y in r.value <==> y in rows && NumberedKey(y) != (memberId, recordNo)
  {
    var r := DeleteNumbered(rows, memberId, recordNo);
    if r.Success? then
      assert forall i :: 0 <= i < |r.value| ==> r.value[i] in r.value;
      r
    else r
  }

  /** An added record is the last one listed: its number is above all the member's others. */
  lemma AddedHealthRecordListedLast(rows: seq<HealthRecord>, memberId: string, request: HealthEntry)
    requires forall x :: x in rows && x.memberId == memberId ==> Text.IntMin <= x.recordNo < Text.IntMax
    requires request.healthCondition.Some?
    ensures AddHealthRecord(rows, memberId, request).Success?
    ensures GetCurrentUserHealthRecords(AddHealthRecord(rows, memberId, request).value.0, memberId).Success?
    ensures GetCurrentUserHealthRecords(AddHealthRecord(rows, memberId, request).value.0, memberId).value[|GetCurrentUserHealthRecords(AddHealthRecord(rows, memberId, request).value.0, memberId).value| - 1] == AddHealthRecord(rows, memberId, request).value.1
  {
    AddedRecordListedLast(rows, memberId, request);
    assert AddHealthRecord(rows, memberId, request).value.0 == AddNumbered(rows, memberId, request).0;
    assert AddHealthRecord(rows, memberId, request).value.1 == ToResponse(AddNumbered(rows, memberId, request).1);
    HealthListingEndsWith(AddHealthRecord(rows, memberId, request).value.0, memberId, AddNumbered(rows, memberId, request).1);
  }

  /** When the sorted records end with `row`, the listing ends with its response. */
  lemma HealthListingEndsWith(rows: seq<HealthRecord>, memberId: string, row: HealthRecord)
    requires ListOfMember(rows, memberId).Success?
    requires ListOfMember(rows, memberId).value[|ListOfMember(rows, memberId).value| - 1] == row
    ensures GetCurrentUserHealthRecords(rows, memberId).Success?
    ensures GetCurrentUserHealthRecords(rows, memberId).value[|GetCurrentUserHealthRecords(rows, memberId).value| - 1] == ToResponse(row)
  {
    var sorted := ListOfMember(rows, memberId).value;
    assert GetCurrentUserHealthRecords(rows, memberId) == Success(Respond(sorted, ToResponse));
    assert Respond(sorted, ToResponse)[|sorted| - 1] == ToResponse(sorted[|sorted| - 1]);
  }

  /** A deleted record is gone: a second delete or an update reports `NotFound`. */
  lemma DeletedHealthRecordNotFound(rows: seq<HealthRecord>, memberId: string, recordNo: int, change: HealthEntry)
    requires DeleteHealthRecord(rows, memberId, recordNo).Success?
    ensures var after := DeleteHealthRecord(rows, memberId, recordNo).value;
            && DeleteHealthRecord(after, memberId, recordNo) == Failure(NotFound)
            && UpdateHealthRecord(after, memberId, recordNo, change) == Failure(NotFound)
  {
  }

  /** An update with every field null leaves the stored record as it was. */
  lemma EmptyUpdateKeepsHealthRecord(rows: seq<HealthRecord>, memberId: string, recordNo: int)
    requires Table.HasKey(rows, NumberedKey, (memberId, recordNo))
    ensures var prior := Table.Find(rows, NumberedKey, (memberId, recordNo)).value;
            var after := UpdateHealthRecord(rows, memberId, recordNo, HealthEntry(None, None)).value;
            && after.1 == ToResponse(prior)
            && forall y :: y in after.0 <==> y == prior || (y in rows && NumberedKey(y) != (memberId, recordNo))
  {
    var prior := Table.Find(rows, NumberedKey, (memberId, recordNo)).value;
    assert prior == prior.(body := HealthEntry(prior.body.healthCondition, prior.body.description));
  }
}

=== FILE: jwt_filter.dfy ===
/**
 * The request filter that authenticates a request from the `jwt_token` cookie. It never
 * rejects a request: it only decides what authentication the security context carries when
 * the request is passed on. Token parsing, user loading and token validation belong to
 * collaborators and are parameters here; each may throw.
 */
module JwtFilter {
  import opened Wrappers
  import TokenBlacklist

  const JwtCookie: string := "jwt_token"

  datatype Cookie = Cookie(name: string, value: string)

  /** The outcome of a collaborator call: a value, or any exception. */
  datatype Attempt<T> = Returned(value: T) | Threw

  /** The authentication placed in the security context: the loaded user as principal. */
  datatype Authentication<U> = Authentication(principal: U)

  /** `extractJwtFromCookie`: the value of the first cookie named `jwt_token`. */
  function ExtractJwtFromCookie(cookies: Option<seq<Cookie>>): (r: Option<string>)
    ensures r.None? <==> cookies.None? || forall i :: 0 <= i < |cookies.value| ==> cookies.value[i].name != JwtCookie
    ensures r.Some? ==> exists i :: 0 <= i < |cookies.value| && cookies.value[i] == Cookie(JwtCookie, r.value)
                                   && forall j :: 0 <= j < i ==> cookies.value[j].name != JwtCookie
  {
    match cookies
    case None => None
    case Some(cs) => FirstNamed(cs)
  }

  function FirstNamed(cs: seq<Cookie>): (r: Option<string>)
    ensures r.None? <==> forall i :: 0 <= i < |cs| ==> cs[i].name != JwtCookie
    ensures r.Some? ==> exists i :: 0 <= i < |cs| && cs[i] == Cookie(JwtCookie, r.value)
                                   && forall j :: 0 <= j < i ==> cs[j].name != JwtCookie
  {
    if cs == [] then None
    else if cs[0].name == JwtCookie then
      assert cs[0] == Cookie(JwtCookie, cs[0].value);
      Some(cs[0].value)
    else
      var r := FirstNamed(cs[1..]);
      assert forall i :: 1 <= i < |cs| ==> cs[i] == cs[1..][i - 1];
      if r.Some? then
        var i :| 0 <= i < |cs[1..]| && cs[1..][i] == Cookie(JwtCookie, r.value)
                 && forall j :: 0 <= j < i ==> cs[1..][j].name != JwtCookie;
        assert cs[i + 1] == Cookie(JwtCookie, r.value);
        r
      else
        r
  }

  /**
   * `doFilterInternal`: the security context's authentication once the request is passed on.
   * `extractMemberId`, `loadUser` and `isTokenValid` stand for the JWT service and the user
   * details service.
   */
  function DoFilterInternal<U>(
    cookies: Option<seq<Cookie>>,
    blacklist: TokenBlacklist.Blacklist,
    context: Option<Authentication<U>>,
    extractMemberId: string -> Attempt<Option<string>>,
    loadUser: string -> Attempt<U>,
    isTokenValid: (string, U) -> Attempt<bool>): (r: Option<Authentication<U>>)
    ensures ExtractJwtFromCookie(cookies).None? ==> r == context
    ensures ExtractJwtFromCookie(cookies).Some? && TokenBlacklist.IsTokenBlacklisted(blacklist, ExtractJwtFromCookie(cookies).value)
            ==> r == context
    ensures context.Some? ==> r == context || r == None
    ensures context.Some? ==>
              (r == None <==>
                 && ExtractJwtFromCookie(cookies).Some?
                 && !TokenBlacklist.IsTokenBlacklisted(blacklist, ExtractJwtFromCookie(cookies).value)
                 && extractMemberId(ExtractJwtFromCookie(cookies).value).Threw?)
  {
    match ExtractJwtFromCookie(cookies)
    case None => context
    case Some(jwt) =>
      if TokenBlacklist.IsTokenBlacklisted(blacklist, jwt) then context
      else
        match extractMemberId(jwt)
        case Threw => None
        case Returned(None) => context
        case Returned(Some(memberId)) =>
          if context.Some? then context
          else
            match loadUser(memberId)
            case Threw => None
            case Returned(user) =>
              match isTokenValid(jwt, user)
              case Threw => None
              case Returned(valid) => if valid then Some(Authentication(user)) else context
  }

  /**
   * The request leaves authenticated as `user` without having been so exactly when the cookie
   * carries a token that is not revoked, names a member, and validates against that member's
   * loaded details.
   */
  lemma {:induction false} AuthenticatesExactly<U>(
    cookies: Option<seq<Cookie>>, blacklist: TokenBlacklist.Blacklist,
    extractMemberId: string -> Attempt<Option<string>>, loadUser: string -> Attempt<U>,
    isTokenValid: (string, U) -> Attempt<bool>, user: U)
    ensures DoFilterInternal(cookies, blacklist, None, extractMemberId, loadUser, isTokenValid) == Some(Authentication(user))
            <==>
            var jwt := ExtractJwtFromCookie(cookies);
            jwt.Some? && !TokenBlacklist.IsTokenBlacklisted(blacklist, jwt.value)
            && extractMemberId(jwt.value).Returned? && extractMemberId(jwt.value).value.Some?
            && loadUser(extractMemberId(jwt.value).value.value) == Returned(user)
            && isTokenValid(jwt.value, user) == Returned(true)
  {
  }

  /** An exception while reading the member id clears even an authentication already present. */
  lemma ParseFailureClearsContext<U>(
    cookies: Option<seq<Cookie>>, blacklist: TokenBlacklist.Blacklist, context: Option<Authentication<U>>,
    extractMemberId: string -> Attempt<Option<string>>, loadUser: string -> Attempt<U>,
    isTokenValid: (string, U) -> Attempt<bool>)
    requires ExtractJwtFromCookie(cookies).Some?
    requires !TokenBlacklist.IsTokenBlacklisted(blacklist, ExtractJwtFromCookie(cookies).value)
    requires extractMemberId(ExtractJwtFromCookie(cookies).value).Threw?
    ensures DoFilterInternal(cookies, blacklist, context, extractMemberId, loadUser, isTokenValid) == None
  {
  }

  /** A revoked token authenticates no one, whatever the collaborators say of it. */
  lemma RevokedTokenIgnored<U>(
    cookies: Option<seq<Cookie>>, blacklist: TokenBlacklist.Blacklist,
    extractMemberId: string -> Attempt<Option<string>>, loadUser: string -> Attempt<U>,
    isTokenValid: (string, U) -> Attempt<bool>)
    requires ExtractJwtFromCookie(cookies).Some?
    requires TokenBlacklist.IsTokenBlacklisted(blacklist, ExtractJwtFromCookie(cookies).value)
    ensures DoFilterInternal(cookies, blacklist, None, extractMemberId, loadUser, isTokenValid) == None
  {
  }

  /** Only the first `jwt_token` cookie is read. */
  lemma FirstCookieWins(a: string, b: string)
    ensures ExtractJwtFromCookie(Some([Cookie("session", "x"), Cookie(JwtCookie, a), Cookie(JwtCookie, b)])) == Some(a)
  {
    var cs := [Cookie("session", "x"), Cookie(JwtCookie, a), Cookie(JwtCookie, b)];
    assert cs[1..] == [Cookie(JwtCookie, a), Cookie(JwtCookie, b)];
    assert "session" != JwtCookie by { assert "session"[0] != JwtCookie[0]; }
    assert FirstNamed(cs[1..]) == Some(a);
    assert FirstNamed(cs) == Some(a);
  }
}

=== FILE: member_ids.dfy ===
/**
 * Member id generation: upper-cased first letter of the full name, the birth year's decimal
 * string from index 2, then a sequence number one above the one in the highest existing id
 * with that prefix, printed with `%02d`.
 */
module MemberIds {
  import opened Wrappers
  import opened Clock
  import opened Text
  import Members

  /** The runtime exceptions generation can raise. */
  datatype IdError =
    | EmptyName           // `substring(0, 1)` of ""
    | YearTooShort        // `substring(2)` of a one-character year string
    | MalformedHighestId  // `substring(3)` out of range, or `parseInt` rejecting the rest

  /** `fullName.substring(0, 1).toUpperCase() + String.valueOf(year).substring(2)`. */
  function Prefix(fullName: string, year: int): (r: Result<string, IdError>)
    ensures fullName == [] ==> r == Failure(EmptyName)
    ensures fullName != [] ==> (r.Failure? <==> |IntToString(year)| < 2)
    ensures r.Success? ==> r.value == [UpperAscii(fullName[0])] + IntToString(year)[2..]
  {
    if fullName == [] then Failure(EmptyName)
    else
      var y := IntToString(year);
      if |y| < 2 then Failure(YearTooShort) else Success([UpperAscii(fullName[0])] + y[2..])
  }

  /** `%02d` of a number below 100 is its two decimal digits. */
  lemma TwoDigits(n: int)
    requires 0 <= n < 100
    ensures FormatInt(n, 2) == [DigitChar(n / 10), DigitChar(n % 10)]
  {
    if n < 10 {
      assert NatToString(n) == [DigitChar(n)];
      assert Repeat('0', 1) == [DigitChar(0)];
    } else {
      assert NatToString(n / 10) == [DigitChar(n / 10)];
    }
  }

  /** `%02d` of a number from 100 to 999 is its three decimal digits. */
  lemma ThreeDigits(n: int)
    requires 100 <= n < 1000
    ensures FormatInt(n, 2) == [DigitChar(n / 100), DigitChar((n / 10) % 10), DigitChar(n % 10)]
  {
    assert NatToString(n / 100) == [DigitChar(n / 100)];
    assert (n / 10) / 10 == n / 100;
    assert NatToString(n / 10) == [DigitChar(n / 100), DigitChar((n / 10) % 10)];
  }

  /** For a four-digit year the prefix is the initial followed by the year's last two digits. */
  lemma FourDigitYearPrefix(fullName: string, year: int)
    requires fullName != [] && 1000 <= year <= 9999
    ensures Prefix(fullName, year) == Success([UpperAscii(fullName[0])] + FormatInt(year % 100, 2))
    ensures |Prefix(fullName, year).value| == 3
  {
    FourDigits(year);
    LastTwoDigits(year);
    TwoDigits(year % 100);
    assert IntToString(year)[2..] == FormatInt(year % 100, 2);
  }

  /** The tens and units digits of `n % 100` are those of `n`. */
  lemma LastTwoDigits(n: int)
    requires n >= 0
    ensures (n % 100) / 10 == (n / 10) % 10
    ensures (n % 100) % 10 == n % 10
  {
    var q, t, u := n / 100, (n % 100) / 10, (n % 100) % 10;
    assert n == 10 * (10 * q + t) + u;
    assert n / 10 == 10 * q + t;
    assert n % 10 == u;
  }

  /** A four-digit year prints as its four decimal digits. */
  lemma FourDigits(year: int)
    requires 1000 <= year <= 9999
    ensures IntToString(year) == [DigitChar(year / 1000), DigitChar((year / 100) % 10), DigitChar((year / 10) % 10), DigitChar(year % 10)]
  {
    var a, b, c, d := year / 1000, (year / 100) % 10, (year / 10) % 10, year % 10;
    assert (year / 10) / 10 == year / 100;
    assert (year / 100) / 10 == year / 1000;
    assert NatToString(year / 1000) == [DigitChar(a)];
    assert NatToString(year / 100) == [DigitChar(a), DigitChar(b)];
    assert NatToString(year / 10) == [DigitChar(a), DigitChar(b), DigitChar(c)];
    assert NatToString(year) == [DigitChar(a), DigitChar(b), DigitChar(c), DigitChar(d)];
  }

  /** The sequence number after `highest`: 1 when there is none, else `parseInt(highest.substring(3)) + 1` in `int` arithmetic. */
  function NextSequence(highest: Option<string>): (r: Result<int, IdError>)
    ensures highest.None? ==> r == Success(1)
    ensures r.Success? ==> IsJavaInt(r.value)
    ensures highest.Some? ==> (r.Failure? <==> |highest.value| < 3 || ParseInt(highest.value[3..]).None?)
    ensures highest.Some? && r.Success? ==> r.value == Wrap32(ParseInt(highest.value[3..]).value + 1)
  {
    match highest
    case None => Success(1)
    case Some(h) =>
      if |h| < 3 then Failure(MalformedHighestId)
      else
        match ParseInt(h[3..])
        case None => Failure(MalformedHighestId)
        case Some(n) => Success(Wrap32(n + 1))
  }

  /** An id that carries sequence number `n` after a three-character prefix is followed by `n + 1`. */
  lemma NextSequenceAdvances(prefix: string, n: int)
    requires |prefix| == 3 && IsJavaInt(n) && n < IntMax
    ensures NextSequence(Some(prefix + FormatInt(n, 2))) == Success(n + 1)
  {
    assert (prefix + FormatInt(n, 2))[3..] == FormatInt(n, 2);
    ParseFormatRoundTrip(n, 2);
  }

  /** `generateMemberId(fullName, dob)` against the current member table. */
  function GenerateMemberId(fullName: string, dob: Date, members: Members.MemberTable): (r: Result<string, IdError>)
    ensures fullName == [] ==> r == Failure(EmptyName)
    ensures r.Success? ==> Prefix(fullName, dob.year).Success? && Prefix(fullName, dob.year).value <= r.value
    ensures r.Success? ==> exists n :: IsJavaInt(n) && r.value == Prefix(fullName, dob.year).value + FormatInt(n, 2)
    ensures Prefix(fullName, dob.year).Failure? ==> r == Failure(Prefix(fullName, dob.year).error)
    ensures Prefix(fullName, dob.year).Success? ==>
              var prefix := Prefix(fullName, dob.year).value;
              var h := Members.FindHighestMemberIdByPrefix(members, prefix);
              && (r.Failure? <==> h.Some? && (|h.value| < 3 || ParseInt(h.value[3..]).None?))
              && (r.Failure? ==> r.error == MalformedHighestId)
              && (h.None? ==> r == Success(prefix + FormatInt(1, 2)))
              && (h.Some? && r.Success? ==> r.value == prefix + FormatInt(Wrap32(ParseInt(h.value[3..]).value + 1), 2))
  {
    match Prefix(fullName, dob.year)
    case Failure(e) => Failure(e)
    case Success(prefix) =>
      match NextSequence(Members.FindHighestMemberIdByPrefix(members, prefix))
      case Failure(e) => Failure(e)
      case Success(n) => Success(prefix + FormatInt(n, 2))
  }

  /** The first member with a prefix gets sequence `01`. */
  lemma FirstIdOfPrefix(fullName: string, dob: Date, members: Members.MemberTable)
    requires Prefix(fullName, dob.year).Success?
    requires forall m :: m in members ==> !(Prefix(fullName, dob.year).value <= m.memberId)
    ensures GenerateMemberId(fullName, dob, members) == Success(Prefix(fullName, dob.year).value + "01")
  {
    TwoDigits(1);
  }

  /** When the highest id with a three-character prefix has sequence `n`, the next id has `n + 1`. */
  lemma IdAfterHighest(fullName: string, dob: Date, members: Members.MemberTable, n: int)
    requires Prefix(fullName, dob.year).Success? && |Prefix(fullName, dob.year).value| == 3
    requires IsJavaInt(n) && n < IntMax
    requires Members.FindHighestMemberIdByPrefix(members, Prefix(fullName, dob.year).value)
             == Some(Prefix(fullName, dob.year).value + FormatInt(n, 2))
    ensures GenerateMemberId(fullName, dob, members) == Success(Prefix(fullName, dob.year).value + FormatInt(n + 1, 2))
  {
    NextSequenceAdvances(Prefix(fullName, dob.year).value, n);
  }

  /** After a three-character prefix an id is five characters up to sequence 99 and six from 100 to 999: there is no cap. */
  lemma IdLength(prefix: string, n: int)
    requires |prefix| == 3 && 0 <= n <= 999
    ensures |prefix + FormatInt(n, 2)| == if n <= 99 then 5 else 6
  {
    NatToStringLength(n, 2);
    NatToStringLength(n, 3);
    assert Pow10(2) == 100 && Pow10(3) == 1000;
    if n < 10 {
      NatToStringLength(n, 1);
    }
  }

  /** A member row with the given id and otherwise fixed fields. */
  function Sample(id: string): Members.Member {
    Members.Member(id, "Alice", id + "@example.com", "0000000000", Date(2001, 3, 4), None, None)
  }

  /** The prefix of "Alice", born 2001. */
  lemma SamplePrefix()
    ensures Prefix("Alice", 2001) == Success("A01")
  {
    FourDigitYearPrefix("Alice", 2001);
    assert 2001 % 100 == 1;
    TwoDigits(1);
    assert "Alice"[0] == 'A' && UpperAscii('A') == 'A';
    assert DigitChar(0) == '0' && DigitChar(1) == '1';
    assert FormatInt(2001 % 100, 2) == "01";
    assert Prefix("Alice", 2001) == Success([UpperAscii("Alice"[0])] + FormatInt(2001 % 100, 2));
    assert ['A'] + "01" == "A01";
  }

  /** "Alice", born 2001, gets `A0101` as the first id of the prefix. */
  lemma SampleFirstId()
    ensures GenerateMemberId("Alice", Date(2001, 3, 4), []) == Success("A0101")
  {
    SamplePrefix();
    FirstIdOfPrefix("Alice", Date(2001, 3, 4), []);
    assert "A01" + "01" == "A0101";
  }

  /** With `A0107` the highest id of the prefix, "Alice", born 2001, gets `A0108`. */
  lemma SampleNextId()
    ensures GenerateMemberId("Alice", Date(2001, 3, 4), [Sample("A0107")]) == Success("A0108")
  {
    SamplePrefix();
    TwoDigits(7);
    TwoDigits(8);
    assert "A0107" == "A01" + FormatInt(7, 2);
    assert "A0108" == "A01" + FormatInt(8, 2);
    assert Members.FindHighestMemberIdByPrefix([Sample("A0107")], "A01") == Some("A0107") by {
      assert [Sample("A0107")][1..] == [];
      assert "A01" <= "A0107";
    }
    IdAfterHighest("Alice", Date(2001, 3, 4), [Sample("A0107")], 7);
  }

  /** `A01100` sorts below `A0199` as a string. */
  lemma HundredSortsBelowNinetyNine()
    ensures Members.LexLe("A01100", "A0199") && !Members.LexLe("A0199", "A01100")
  {
    assert "A01100"[1..] == "01100" && "A0199"[1..] == "0199";
    assert "01100"[1..] == "1100" && "0199"[1..] == "199";
    assert "1100"[1..] == "100" && "199"[1..] == "99";
  }

  /**
   * String order puts `A0199` above `A01100`, so once both exist the generator hands out
   * `A01100` again, an id already in the table.
   */
  lemma StringOrderRepeatsIds()
    ensures Members.FindHighestMemberIdByPrefix([Sample("A0199"), Sample("A01100")], "A01") == Some("A0199")
    ensures GenerateMemberId("Alice", Date(2001, 3, 4), [Sample("A0199"), Sample("A01100")]) == Success("A01100")
  {
    SampleHighest();
    SamplePrefix();
    SampleIdsFormatted();
    IdAfterHighest("Alice", Date(2001, 3, 4), [Sample("A0199"), Sample("A01100")], 99);
  }

  /** Of `A0199` and `A01100`, string order picks `A0199` as the highest. */
  lemma SampleHighest()
    ensures Members.FindHighestMemberIdByPrefix([Sample("A0199"), Sample("A01100")], "A01") == Some("A0199")
  {
    var rows := [Sample("A0199"), Sample("A01100")];
    assert "A01" <= "A0199" && "A01" <= "A01100";
    HundredSortsBelowNinetyNine();
    assert rows[1..] == [Sample("A01100")];
    assert rows[1..][1..] == [];
    assert Members.FindHighestMemberIdByPrefix(rows[1..], "A01") == Some("A01100");
  }

  /** The two sample ids are the prefix followed by 99 and by 100. */
  lemma SampleIdsFormatted()
    ensures "A0199" == "A01" + FormatInt(99, 2)
    ensures "A01100" == "A01" + FormatInt(100, 2)
  {
    TwoDigits(99);
    ThreeDigits(100);
  }
}

=== FILE: members.dfy ===
/**
 * The member table and its repository queries: `findByEmail`, `findById`, `save` under the
 * unique email column, and the "highest member id with this prefix" query, whose
 * `ORDER BY memberId DESC` compares ids as strings.
 */
module Members {
  import opened Wrappers
  import opened Clock
  import Otp
  import Table

  /** A member row; `otp`/`otpExpiry` form the one OTP slot shared by login and email change. */
  datatype Member = Member(
    memberId: string,
    fullName: string,
    email: string,
    contact: string,
    dob: Date,
    otp: Option<Otp.Hash>,
    otpExpiry: Option<Time>)

  type MemberTable = seq<Member>

  function IdOf(m: Member): string {
    m.memberId
  }

  function EmailOf(m: Member): string {
    m.email
  }

  /** The primary key and the unique email column both hold. */
  predicate WellFormed(rows: MemberTable) {
    Table.UniqueKeys(rows, IdOf) && Table.UniqueKeys(rows, EmailOf)
  }

  /** `findByEmail`: the member whose email equals the argument, if any. */
  function FindByEmail(rows: MemberTable, email: string): (r: Option<Member>)
    ensures r.Some? ==> r.value in rows && r.value.email == email
    ensures r.None? <==> forall m :: m in rows ==> m.email != email
  {
    Table.Find(rows, EmailOf, email)
  }

  /** `findById`. */
  function FindById(rows: MemberTable, id: string): (r: Option<Member>)
    ensures r.Some? ==> r.value in rows && r.value.memberId == id
    ensures r.None? <==> forall m :: m in rows ==> m.memberId != id
  {
    Table.Find(rows, IdOf, id)
  }

  /** Another member already owns `email`. */
  predicate EmailOwnedByOther(rows: MemberTable, email: string, id: string) {
    exists x :: x in rows && x.memberId != id && x.email == email
  }

  /** `after` is `before` with the row whose id is `m.memberId` replaced by `m`, or `m` added. */
  ghost predicate Replaced(before: MemberTable, after: MemberTable, m: Member) {
    forall y :: y in after <==> y == m || (y in before && y.memberId != m.memberId)
  }

  datatype StoreError = DuplicateEmail

  /**
   * `save`: merge by member id (replacing any row with that id) or insert; the unique email
   * column rejects a row whose email another member already has.
   */
  function Save(rows: MemberTable, m: Member): (r: Result<MemberTable, StoreError>)
    ensures r.Failure? <==> EmailOwnedByOther(rows, m.email, m.memberId)
    ensures r.Success? ==> Replaced(rows, r.value, m)
    ensures r.Success? ==> FindById(r.value, m.memberId) == Some(m)
    ensures r.Success? && WellFormed(rows) ==> WellFormed(r.value)
  {
    if EmailOwnedByOther(rows, m.email, m.memberId) then Failure(DuplicateEmail)
    else Success(Table.Save(rows, IdOf, m))
  }

  /** String order as `compareTo` and a binary collation see it. */
  predicate LexLe(a: string, b: string) {
    a == [] || (b != [] && (a[0] < b[0] || (a[0] == b[0] && LexLe(a[1..], b[1..]))))
  }

  lemma {:induction false} LexLeReflexive(a: string)
    ensures LexLe(a, a)
  {
    if a != [] {
      LexLeReflexive(a[1..]);
    }
  }

  lemma {:induction false} LexLeTotal(a: string, b: string)
    ensures LexLe(a, b) || LexLe(b, a)
  {
    if a != [] && b != [] && a[0] == b[0] {
      LexLeTotal(a[1..], b[1..]);
    }
  }

  lemma {:induction false} LexLeTransitive(a: string, b: string, c: string)
    requires LexLe(a, b) && LexLe(b, c)
    ensures LexLe(a, c)
  {
    if a != [] && b != [] && c != [] && a[0] == b[0] && b[0] == c[0] {
      LexLeTransitive(a[1..], b[1..], c[1..]);
    }
  }

  /** Every id with `prefix` is at most `bound`. */
  ghost predicate BoundsPrefixed(rows: MemberTable, prefix: string, bound: string) {
    forall m :: m in rows && prefix <= m.memberId ==> LexLe(m.memberId, bound)
  }

  lemma RaiseBound(rows: MemberTable, prefix: string, lo: string, hi: string)
    requires BoundsPrefixed(rows, prefix, lo) && LexLe(lo, hi)
    ensures BoundsPrefixed(rows, prefix, hi)
  {
    forall m | m in rows && prefix <= m.memberId ensures LexLe(m.memberId, hi) {
      LexLeTransitive(m.memberId, lo, hi);
    }
  }

  /**
   * `findHighestMemberIdByPrefix`: the greatest id, in string order, among those starting
   * with `prefix`; absent exactly when no id starts with it.
   */
  function FindHighestMemberIdByPrefix(rows: MemberTable, prefix: string): (r: Option<string>)
    ensures r.None? <==> forall m :: m in rows ==> !(prefix <= m.memberId)
    ensures r.Some? ==> prefix <= r.value && exists m :: m in rows && m.memberId == r.value
    ensures r.Some? ==> BoundsPrefixed(rows, prefix, r.value)
  {
    if rows == [] then None
    else
      var rest := FindHighestMemberIdByPrefix(rows[1..], prefix);
      var id := rows[0].memberId;
      assert forall m :: m in rows <==> m == rows[0] || m in rows[1..];
      if !(prefix <= id) then rest
      else if rest.None? then
        LexLeReflexive(id);
        Some(id)
      else if LexLe(rest.value, id) then
        LexLeReflexive(id);
        RaiseBound(rows[1..], prefix, rest.value, id);
        Some(id)
      else
        LexLeTotal(rest.value, id);
        rest
  }
}

=== FILE: otp.dfy ===
/**
 * One-time passcodes and their stored form. The password encoder is abstracted as an injective
 * encoding: `Matches(x, Some(Encode(y)))` holds exactly when `x == y`.
 */
module Otp {
  import opened Wrappers
  import Text

  /** An encoded passcode as it is stored; only `Matches` looks inside. */
  datatype Hash = Hash(secret: string)

  function Encode(raw: string): Hash {
    Hash(raw)
  }

  /** `passwordEncoder.matches(raw, stored)`; a null stored value never matches. */
  predicate Matches(raw: string, stored: Option<Hash>) {
    stored.Some? && stored.value.secret == raw
  }

  lemma MatchesEncode(x: string, y: string)
    ensures Matches(x, Some(Encode(y))) <==> x == y
  {
  }

  /** Exclusive bound of `new Random().nextInt(1000000)`. */
  const OtpBound: int := 1000000

  /**
   * `String.format("%06d", draw)` for the drawn number: six ASCII digits that read back as
   * `draw`, so different draws give different codes.
   */
  function GenerateOtp(draw: int): (code: string)
    requires 0 <= draw < OtpBound
    ensures |code| == 6 && Text.AllDigits(code)
    ensures Text.DigitsValue(code) == draw
  {
    Text.NatToStringLength(draw, 6);
    assert Text.Pow10(6) == OtpBound;
    Text.FormatInt(draw, 6)
  }

  lemma GenerateOtpInjective(a: int, b: int)
    requires 0 <= a < OtpBound && 0 <= b < OtpBound
    requires GenerateOtp(a) == GenerateOtp(b)
    ensures a == b
  {
  }
}

=== FILE: payments.dfy ===
/**
 * The payment-method service: at most one method per member and payment type, listed with
 * the card and bank-account numbers masked, added (a merge over an existing method of the
 * same type), partially updated and deleted. The acting member is a parameter.
 */
module Payments {
  import opened Wrappers
  import opened Clock
  import Text
  import Table
  import opened Records

  /** A constant of the `PaymentType` enum; its constants are not part of this model. */
  datatype PaymentType = PaymentType(name: string)

  /** A constant of the `CardType` enum. */
  datatype CardType = CardType(name: string)

  /** The non-key columns of a `payment` row, every one nullable. */
  datatype PaymentDetails = PaymentDetails(
    cardNumber: Option<string>,
    upiId: Option<string>,
    nameOnCard: Option<string>,
    expiryDate: Option<Date>,
    cardType: Option<CardType>,
    accountHolderName: Option<string>,
    bankAccountNumber: Option<string>,
    ifscCode: Option<string>)

  /** A `payment` row, keyed by `(memberId, paymentType)`. */
  datatype Payment = Payment(memberId: string, paymentType: PaymentType, details: PaymentDetails)

  function PaymentKey(p: Payment): (string, PaymentType) {
    (p.memberId, p.paymentType)
  }

  /** An add request; a null type leaves the row without its key. */
  datatype PaymentRequest = PaymentRequest(paymentType: Option<PaymentType>, details: PaymentDetails)

  datatype PaymentResponse = PaymentResponse(
    paymentType: PaymentType,
    maskedCardNumber: Option<string>,
    upiId: Option<string>,
    nameOnCard: Option<string>,
    expiryDate: Option<Date>,
    cardType: Option<CardType>,
    accountHolderName: Option<string>,
    maskedBankAccountNumber: Option<string>,
    ifscCode: Option<string>)

  /**
   * `maskCardNumber` and `maskBankAccountNumber` (the two are the same code): null stays null,
   * up to four characters are shown as they are, and otherwise all but the last four become `*`.
   */
  function Mask(s: Option<string>): (r: Option<string>)
    ensures r.None? <==> s.None?
    ensures s.Some? && |s.value| <= 4 ==> r == s
    ensures s.Some? && |s.value| > 4 ==>
              && |r.value| == |s.value|
              && (forall i :: |s.value| - 4 <= i < |s.value| ==> r.value[i] == s.value[i])
              && (forall i :: 0 <= i < |s.value| - 4 ==> r.value[i] == '*')
  {
    match s
    case None => None
    case Some(v) =>
      if |v| <= 4 then s
      else Some(Text.Repeat('*', |v| - 4) + v[|v| - 4..])
  }

  /** Masking a masked number changes nothing. */
  lemma MaskIdempotent(s: Option<string>)
    ensures Mask(Mask(s)) == Mask(s)
  {
    if s.Some? && |s.value| > 4 {
      var m := Mask(s).value;
      assert Mask(Mask(s)).value == m;
    }
  }

  /**
   * Two numbers of the same length above four mask alike exactly when their last four
   * characters agree: the mask reveals the length and the last four, nothing else.
   */
  lemma MaskRevealsLastFour(a: string, b: string)
    requires |a| == |b| > 4
    ensures Mask(Some(a)) == Mask(Some(b)) <==> a[|a| - 4..] == b[|b| - 4..]
  {
    var n := |a|;
    if Mask(Some(a)) == Mask(Some(b)) {
      var ta, tb := a[n - 4..], b[n - 4..];
      forall i | 0 <= i < 4 ensures ta[i] == tb[i] {
        assert Mask(Some(a)).value[n - 4 + i] == Mask(Some(b)).value[n - 4 + i];
      }
    }
    if a[n - 4..] == b[n - 4..] {
      var ma := Mask(Some(a)).value;
      var mb := Mask(Some(b)).value;
      forall i | 0 <= i < n ensures ma[i] == mb[i] {
        if i >= n - 4 {
          assert a[i] == a[n - 4..][i - (n - 4)];
          assert b[i] == b[n - 4..][i - (n - 4)];
        }
      }
      assert ma == mb;
    }
  }

  /** `mapToPaymentResponse`: the two numbers masked, every other column passed through. */
  function ToResponse(p: Payment): (r: PaymentResponse)
    ensures r.paymentType == p.paymentType
    ensures r.maskedCardNumber == Mask(p.details.cardNumber)
    ensures r.maskedBankAccountNumber == Mask(p.details.bankAccountNumber)
    ensures r.upiId == p.details.upiId && r.ifscCode == p.details.ifscCode
    ensures r.nameOnCard == p.details.nameOnCard && r.expiryDate == p.details.expiryDate
    ensures r.cardType == p.details.cardType && r.accountHolderName == p.details.accountHolderName
  {
    var d := p.details;
    PaymentResponse(p.paymentType, Mask(d.cardNumber), d.upiId, d.nameOnCard, d.expiryDate,
                    d.cardType, d.accountHolderName, Mask(d.bankAccountNumber), d.ifscCode)
  }

  /** `findByMemberId` in table order, each row as a response; `NotFound` when there are none. */
  function GetCurrentUserPayments(rows: seq<Payment>, memberId: string): (r: Result<seq<PaymentResponse>, RecordError>)
    ensures r.Failure? <==> forall p :: p in rows ==> p.memberId != memberId
    ensures r.Failure? ==> r.error == NotFound
    ensures r.Success? ==> forall p :: p in rows && p.memberId == memberId ==> ToResponse(p) in r.value
    ensures r.Success? ==> forall i :: 0 <= i < |r.value| ==>
                             exists p :: p in rows && p.memberId == memberId && ToResponse(p) == r.value[i]
  {
    var mine := Table.Where(rows, (p: Payment) => p.memberId == memberId);
    if mine == [] then
      Failure(NotFound)
    else
      assert mine[0] in mine;
      var out := seq(|mine|, i requires 0 <= i < |mine| => ToResponse(mine[i]));
      assert forall p :: p in mine ==> ToResponse(p) in out by {
        forall p | p in mine ensures ToResponse(p) in out {
          var i :| 0 <= i < |mine| && mine[i] == p;
          assert out[i] == ToResponse(p);
        }
      }
      assert forall i :: 0 <= i < |out| ==> mine[i] in mine && out[i] == ToResponse(mine[i]);
      Success(out)
  }

  /**
   * `save` of the request under `(memberId, paymentType)`: a method already stored under that
   * type is replaced; a null type is a key the row cannot be saved under.
   */
  function AddPayment(rows: seq<Payment>, memberId: string, request: PaymentRequest): (r: Result<(seq<Payment>, PaymentResponse), RecordError>)
    ensures r.Failure? <==> request.paymentType.None?
    ensures r.Failure? ==> r.error == NullKey
    ensures r.Success? ==>
              var added := Payment(memberId, request.paymentType.value, request.details);
              && r.value.1 == ToResponse(added)
              && Table.Find(r.value.0, PaymentKey, PaymentKey(added)) == Some(added)
              && forall y :: y in r.value.0 <==> y == added || (y in rows && PaymentKey(y) != PaymentKey(added))
  {
    match request.paymentType
    case None => Failure(NullKey)
    case Some(t) =>
      var added := Payment(memberId, t, request.details);
      Success((Table.Save(rows, PaymentKey, added), ToResponse(added)))
  }

  /** The stored columns with every non-null field of `change` written over them. */
  function MergeDetails(stored: PaymentDetails, change: PaymentDetails): (r: PaymentDetails)
    ensures r.cardNumber == (if change.cardNumber.Some? then change.cardNumber else stored.cardNumber)
    ensures r.upiId == (if change.upiId.Some? then change.upiId else stored.upiId)
    ensures r.nameOnCard == (if change.nameOnCard.Some? then change.nameOnCard else stored.nameOnCard)
    ensures r.expiryDate == (if change.expiryDate.Some? then change.expiryDate else stored.expiryDate)
    ensures r.cardType == (if change.cardType.Some? then change.cardType else stored.cardType)
    ensures r.accountHolderName == (if change.accountHolderName.Some? then change.accountHolderName else stored.accountHolderName)
    ensures r.bankAccountNumber == (if change.bankAccountNumber.Some? then change.bankAccountNumber else stored.bankAccountNumber)
    ensures r.ifscCode == (if change.ifscCode.Some? then change.ifscCode else stored.ifscCode)
  {
    PaymentDetails(
      change.cardNumber.Or(stored.cardNumber),
      change.upiId.Or(stored.upiId),
      change.nameOnCard.Or(stored.nameOnCard),
      change.expiryDate.Or(stored.expiryDate),
      change.cardType.Or(stored.cardType),
      change.accountHolderName.Or(stored.accountHolderName),
      change.bankAccountNumber.Or(stored.bankAccountNumber),
      change.ifscCode.Or(stored.ifscCode))
  }

  /** A change with every field null. */
  const NoChange := PaymentDetails(None, None, None, None, None, None, None, None)

  /** Merging nothing keeps the stored columns; merging twice is merging once. */
  lemma MergeDetailsLaws(stored: PaymentDetails, change: PaymentDetails)
    ensures MergeDetails(stored, NoChange) == stored
    ensures MergeDetails(MergeDetails(stored, change), change) == MergeDetails(stored, change)
  {
  }

  /** `findById` (or `NotFound`), write the non-null fields of `change`, `save`; the key stays. */
  function UpdatePayment(rows: seq<Payment>, memberId: string, paymentType: PaymentType, change: PaymentDetails): (r: Result<(seq<Payment>, PaymentResponse), RecordError>)
    ensures r.Failure? <==> !Table.HasKey(rows, PaymentKey, (memberId, paymentType))
    ensures r.Failure? ==> r.error == NotFound
    ensures r.Success? ==>
              var prior := Table.Find(rows, PaymentKey, (memberId, paymentType)).value;
              var updated := Payment(memberId, paymentType, MergeDetails(prior.details, change));
              && r.value.1 == ToResponse(updated)
              && Table.Find(r.value.0, PaymentKey, (memberId, paymentType)) == Some(updated)
              && forall y :: y in r.value.0 <==> y == updated || (y in rows && PaymentKey(y) != (memberId, paymentType))
  {
    match Table.Find(rows, PaymentKey, (memberId, paymentType))
    case None => Failure(NotFound)
    case Some(prior) =>
      var updated := prior.(details := MergeDetails(prior.details, change));
      Success((Table.Save(rows, PaymentKey, updated), ToResponse(updated)))
  }

  /** `existsById` (or `NotFound`), then `deleteById`: only that key goes. */
  function DeletePayment(rows: seq<Payment>, memberId: string, paymentType: PaymentType): (r: Result<seq<Payment>, RecordError>)
    ensures r.Failure? <==> !Table.HasKey(rows, PaymentKey, (memberId, paymentType))
    ensures r.Failure? ==> r.error == NotFound
    ensures r.Success? ==> !Table.HasKey(r.value, PaymentKey, (memberId, paymentType))
    ensures r.Success? ==> forall y :: y in r.value <==> y in rows && PaymentKey(y) != (memberId, paymentType)
  {
    if !Table.HasKey(rows, PaymentKey, (memberId, paymentType)) then Failure(NotFound)
    else Success(Table.Delete(rows, PaymentKey, (memberId, paymentType)))
  }

  /** After an add the method is listed, and it can be updated and deleted under its type. */
  lemma AddedPaymentIsListed(rows: seq<Payment>, memberId: string, request: PaymentRequest)
    requires request.paymentType.Some?
    ensures var after := AddPayment(rows, memberId, request).value;
            var listed := GetCurrentUserPayments(after.0, memberId);
            && listed.Success?
            && after.1 in listed.value
            && UpdatePayment(after.0, memberId, request.paymentType.value, NoChange).Success?
            && DeletePayment(after.0, memberId, request.paymentType.value).Success?
  {
    var added := Payment(memberId, request.paymentType.value, request.details);
    var after := AddPayment(rows, memberId, request).value;
    assert added in after.0;
    assert Table.HasKey(after.0, PaymentKey, PaymentKey(added)) by {
      var i :| 0 <= i < |after.0| && after.0[i] == added;
    }
  }

  /** An update with every field null leaves the stored method as it was. */
  lemma EmptyUpdateKeepsPayment(rows: seq<Payment>, memberId: string, paymentType: PaymentType)
    requires Table.HasKey(rows, PaymentKey, (memberId, paymentType))
    ensures var prior := Table.Find(rows, PaymentKey, (memberId, paymentType)).value;
            var after := UpdatePayment(rows, memberId, paymentType, NoChange).value.0;
            forall y :: y in after <==> y == prior || (y in rows && PaymentKey(y) != (memberId, paymentType))
  {
    var prior := Table.Find(rows, PaymentKey, (memberId, paymentType)).value;
    MergeDetailsLaws(prior.details, NoChange);
  }

  /** A deleted method is gone: a second delete or an update reports `NotFound`. */
  lemma DeletedPaymentNotFound(rows: seq<Payment>, memberId: string, paymentType: PaymentType, change: PaymentDetails)
    requires DeletePayment(rows, memberId, paymentType).Success?
    ensures var after := DeletePayment(rows, memberId, paymentType).value;
            && DeletePayment(after, memberId, paymentType) == Failure(NotFound)
            && UpdatePayment(after, memberId, paymentType, change) == Failure(NotFound)
  {
  }
}

=== FILE: rate_limit_filter.dfy ===
/**
 * The servlet filter that rate-limits the authentication endpoints per client address:
 * 100 requests per 15 minutes under the key `auth_rate_limit:<client ip>`.
 */
module RateLimitFilter {
  import opened Wrappers
  import opened Clock
  import opened Text
  import RateLimiter

  const AuthPath: string := "/api/auth/"
  const KeyPrefix: string := "auth_rate_limit:"
  const MaxRequests: int := 100
  const Window: nat := 15 * MinuteMs

  /** The parts of the servlet request the filter reads. */
  datatype Request = Request(uri: string, forwardedFor: Option<string>, remoteAddr: string)

  /** What becomes of the request. */
  datatype Verdict =
    | PassedOn            // `filterChain.doFilter`
    | RateLimitExceeded   // `RateLimitExceededException`
    | HeaderFault         // `split(",")[0]` of a header made only of commas

  /**
   * `getClientIpAddress`: the trimmed first comma-separated entry of a non-empty
   * `X-Forwarded-For`, else the remote address; `None` when the header holds only commas.
   */
  function ClientIpAddress(req: Request): (r: Option<string>)
    ensures req.forwardedFor.None? || req.forwardedFor == Some([]) ==> r == Some(req.remoteAddr)
    ensures r.None? <==> req.forwardedFor.Some? && |req.forwardedFor.value| > 0
                         && forall i :: 0 <= i < |req.forwardedFor.value| ==> req.forwardedFor.value[i] == ','
    ensures r.Some? && req.forwardedFor.Some? && req.forwardedFor.value != [] ==>
              ',' !in r.value && r.value == Trim(BeforeFirst(req.forwardedFor.value, ','))
  {
    if req.forwardedFor.None? || req.forwardedFor.value == [] then Some(req.remoteAddr)
    else
      var h := req.forwardedFor.value;
      match SplitHead(h, ',')
      case None => None
      case Some(first) =>
        FirstFieldIsBeforeFirst(h, first);
        Some(Trim(first))
  }

  lemma FirstFieldIsBeforeFirst(h: string, first: string)
    requires first <= h && ',' !in first && (|first| < |h| ==> h[|first|] == ',')
    ensures first == BeforeFirst(h, ',')
  {
  }

  /** `doFilterInternal`: the rate-limiter store afterwards and the verdict. */
  function DoFilterInternal(store: RateLimiter.Store, req: Request, now: nat): (r: (RateLimiter.Store, Verdict))
    ensures !(AuthPath <= req.uri) ==> r == (store, PassedOn)
    ensures AuthPath <= req.uri && ClientIpAddress(req).None? ==> r == (store, HeaderFault)
    ensures AuthPath <= req.uri && ClientIpAddress(req).Some? ==>
              var key := KeyPrefix + ClientIpAddress(req).value;
              var step := RateLimiter.AllowRequest(store, key, MaxRequests, Window, now);
              r == (step.0, if step.1 then PassedOn else RateLimitExceeded)
  {
    if !(AuthPath <= req.uri) then (store, PassedOn)
    else
      match ClientIpAddress(req)
      case None => (store, HeaderFault)
      case Some(ip) =>
        var step := RateLimiter.AllowRequest(store, KeyPrefix + ip, MaxRequests, Window, now);
        (step.0, if step.1 then PassedOn else RateLimitExceeded)
  }

  /** Requests outside the authentication endpoints neither consult nor change the limiter. */
  lemma OtherPathsUnlimited(store: RateLimiter.Store, req: Request, now: nat)
    requires !(AuthPath <= req.uri)
    ensures DoFilterInternal(store, req, now) == (store, PassedOn)
  {
  }

  /**
   * Once 100 requests from one client address have been let through within 15 minutes, a
   * further authentication request from that address inside the same 15 minutes is refused.
   */
  lemma HundredAndFirstRefused(store: RateLimiter.Store, req: Request, times: seq<nat>, lo: nat, now: nat)
    requires AuthPath <= req.uri && ClientIpAddress(req).Some?
    requires RateLimiter.Stamps(store, KeyPrefix + ClientIpAddress(req).value) == {}
    requires RateLimiter.StrictlyIncreasing(times) && |times| == 100
    requires forall i :: 0 <= i < |times| ==> lo <= times[i] < lo + Window
    requires lo <= now < lo + Window
    ensures var key := KeyPrefix + ClientIpAddress(req).value;
            DoFilterInternal(RateLimiter.Replay(store, key, MaxRequests, Window, times).0, req, now).1 == RateLimitExceeded
  {
    var key := KeyPrefix + ClientIpAddress(req).value;
    RateLimiter.FullWindowRefuses(store, key, MaxRequests, Window, times, lo, now);
  }

  /** An empty header falls back to the remote address; a header of commas only is a fault. */
  lemma ForwardedForExamples()
    ensures ClientIpAddress(Request("/api/auth/login", Some(""), "192.168.1.1")) == Some("192.168.1.1")
    ensures ClientIpAddress(Request("/api/auth/login", Some(",,"), "192.168.1.1")) == None
  {
    assert forall i :: 0 <= i < |",,"| ==> ",,"[i] == ',';
  }
}

=== FILE: rate_limiter.dfy ===
/**
 * The sliding-window rate limiter over Redis sorted sets: each key holds the millisecond
 * timestamps of the requests it let through; a request first evicts the timestamps scored
 * from 0 to `now - window`, is refused when what is left already numbers `maxRequests`, and is
 * otherwise recorded under its own timestamp.
 */
module RateLimiter {
  /** Redis: key to sorted-set members. A member is the timestamp string, so one per millisecond. */
  type Store = map<string, set<nat>>

  function Stamps(store: Store, key: string): set<nat> {
    if key in store then store[key] else {}
  }

  /** What `removeRangeByScore(key, 0, now - window)` leaves. */
  function Live(stamps: set<nat>, now: nat, window: nat): (r: set<nat>)
    ensures r <= stamps
    ensures forall t :: t in r <==> t in stamps && t + window > now
  {
    set t | t in stamps && t + window > now
  }

  /** Writing a key's set back; Redis drops a key whose sorted set became empty. */
  function Put(store: Store, key: string, stamps: set<nat>): (r: Store)
    ensures Stamps(r, key) == stamps
    ensures forall k :: k != key ==> Stamps(r, k) == Stamps(store, k)
  {
    if stamps == {} then store - {key} else store[key := stamps]
  }

  /**
   * `allowRequest(key, maxRequests, window)` at clock reading `now`: the new store and the
   * verdict. The eviction is written back whether or not the request is let through.
   */
  function AllowRequest(store: Store, key: string, maxRequests: int, window: nat, now: nat): (r: (Store, bool))
    ensures r.1 <==> |Live(Stamps(store, key), now, window)| < maxRequests
    ensures r.1 ==> Stamps(r.0, key) == Live(Stamps(store, key), now, window) + {now}
    ensures !r.1 ==> Stamps(r.0, key) == Live(Stamps(store, key), now, window)
    ensures forall k :: k != key ==> Stamps(r.0, k) == Stamps(store, k)
  {
    var live := Live(Stamps(store, key), now, window);
    if |live| >= maxRequests then (Put(store, key, live), false)
    else (Put(store, key, live + {now}), true)
  }

  /** `resetRateLimit(key)`: the key is deleted, other keys stay. */
  function ResetRateLimit(store: Store, key: string): (r: Store)
    ensures Stamps(r, key) == {}
    ensures forall k :: k != key ==> Stamps(r, k) == Stamps(store, k)
  {
    store - {key}
  }

  /** A key never holds more than `maxRequests` timestamps once it holds at most that many. */
  lemma AllowRequestKeepsBound(store: Store, key: string, maxRequests: int, window: nat, now: nat)
    requires |Stamps(store, key)| <= maxRequests
    ensures |Stamps(AllowRequest(store, key, maxRequests, window, now).0, key)| <= maxRequests
  {
    var live := Live(Stamps(store, key), now, window);
    assert |live| <= |Stamps(store, key)| by {
      SubsetCardinality(live, Stamps(store, key));
    }
    assert |live + {now}| <= |live| + 1 by {
      if now !in live {
        assert |live + {now}| == |live| + 1;
      } else {
        assert live + {now} == live;
      }
    }
  }

  lemma SubsetCardinality(a: set<nat>, b: set<nat>)
    requires a <= b
    ensures |a| <= |b|
  {
    assert b == a + (b - a);
  }

  /** A second request in the same millisecond as one let through adds no timestamp, whatever its verdict. */
  lemma SameMillisecondAddsNothing(store: Store, key: string, maxRequests: int, window: nat, now: nat)
    requires window > 0
    requires AllowRequest(store, key, maxRequests, window, now).1
    ensures var s1 := AllowRequest(store, key, maxRequests, window, now).0;
            Stamps(AllowRequest(s1, key, maxRequests, window, now).0, key) == Stamps(s1, key)
  {
    var s1 := AllowRequest(store, key, maxRequests, window, now).0;
    var live := Live(Stamps(store, key), now, window);
    assert Live(Stamps(s1, key), now, window) == live + {now};
  }

  /** Requests replayed in order against one key; the store afterwards and each verdict. */
  function Replay(store: Store, key: string, maxRequests: int, window: nat, times: seq<nat>): (r: (Store, seq<bool>))
    ensures |r.1| == |times|
    decreases |times|
  {
    if times == [] then (store, [])
    else
      var prev := Replay(store, key, maxRequests, window, times[..|times| - 1]);
      var step := AllowRequest(prev.0, key, maxRequests, window, times[|times| - 1]);
      (step.0, prev.1 + [step.1])
  }

  predicate StrictlyIncreasing(times: seq<nat>) {
    forall i, j :: 0 <= i < j < |times| ==> times[i] < times[j]
  }

  function SetOf(times: seq<nat>): set<nat> {
    set i | 0 <= i < |times| :: times[i]
  }

  lemma {:induction false} SetOfIncreasing(times: seq<nat>)
    requires StrictlyIncreasing(times)
    ensures |SetOf(times)| == |times|
    decreases |times|
  {
    if times != [] {
      var init := times[..|times| - 1];
      SetOfIncreasing(init);
      assert SetOf(times) == SetOf(init) + {times[|times| - 1]};
      assert times[|times| - 1] !in SetOf(init);
    }
  }

  /** One more request of a strictly increasing run inside one window is let through and recorded. */
  lemma FillStep(s: Store, key: string, maxRequests: int, window: nat, init: seq<nat>, t: nat, lo: nat)
    requires Stamps(s, key) == SetOf(init)
    requires StrictlyIncreasing(init + [t]) && |init| < maxRequests
    requires forall i :: 0 <= i < |init| ==> lo <= init[i]
    requires t < lo + window
    ensures AllowRequest(s, key, maxRequests, window, t).1
    ensures Stamps(AllowRequest(s, key, maxRequests, window, t).0, key) == SetOf(init + [t])
  {
    assert forall i :: 0 <= i < |init| ==> init[i] == (init + [t])[i];
    assert StrictlyIncreasing(init);
    assert Live(SetOf(init), t, window) == SetOf(init) by {
      forall x | x in SetOf(init) ensures x + window > t {
        var i :| 0 <= i < |init| && init[i] == x;
      }
    }
    SetOfIncreasing(init);
    assert SetOf(init + [t]) == SetOf(init) + {t} by {
      forall x | x in SetOf(init + [t]) ensures x in SetOf(init) + {t} {
        var i :| 0 <= i < |init + [t]| && (init + [t])[i] == x;
        if i < |init| {
          assert init[i] == x;
        }
      }
      forall x | x in SetOf(init) ensures x in SetOf(init + [t]) {
        var i :| 0 <= i < |init| && init[i] == x;
        assert (init + [t])[i] == x;
      }
      assert (init + [t])[|init|] == t;
    }
  }

  /**
   * Starting from an empty key, up to `maxRequests` requests at strictly increasing times that
   * all fall within one window are all let through, and the key then holds exactly their times.
   */
  lemma {:induction false} FillWindow(store: Store, key: string, maxRequests: int, window: nat, times: seq<nat>, lo: nat)
    requires Stamps(store, key) == {}
    requires StrictlyIncreasing(times) && |times| <= maxRequests
    requires forall i :: 0 <= i < |times| ==> lo <= times[i] < lo + window
    ensures forall i :: 0 <= i < |times| ==> Replay(store, key, maxRequests, window, times).1[i]
    ensures Stamps(Replay(store, key, maxRequests, window, times).0, key) == SetOf(times)
    decreases |times|
  {
    if times == [] {
      assert SetOf(times) == {};
    } else {
      var init := times[..|times| - 1];
      var t := times[|times| - 1];
      assert times == init + [t];
      assert StrictlyIncreasing(init);
      FillWindow(store, key, maxRequests, window, init, lo);
      var prev := Replay(store, key, maxRequests, window, init);
      FillStep(prev.0, key, maxRequests, window, init, t, lo);
      var step := AllowRequest(prev.0, key, maxRequests, window, t);
      assert Replay(store, key, maxRequests, window, times) == (step.0, prev.1 + [step.1]) by {
        assert times[..|times| - 1] == init;
      }
      forall i | 0 <= i < |times| ensures (prev.1 + [step.1])[i] {
        if i < |init| {
          assert (prev.1 + [step.1])[i] == prev.1[i];
        }
      }
    }
  }

  /**
   * Once `maxRequests` requests have been let through within one window, a further request
   * inside that window is refused.
   */
  lemma FullWindowRefuses(store: Store, key: string, maxRequests: int, window: nat, times: seq<nat>, lo: nat, now: nat)
    requires Stamps(store, key) == {}
    requires StrictlyIncreasing(times) && |times| == maxRequests
    requires forall i :: 0 <= i < |times| ==> lo <= times[i] < lo + window
    requires lo <= now < lo + window
    ensures !AllowRequest(Replay(store, key, maxRequests, window, times).0, key, maxRequests, window, now).1
  {
    FillWindow(store, key, maxRequests, window, times, lo);
    SetOfIncreasing(times);
    assert Live(SetOf(times), now, window) == SetOf(times) by {
      forall x | x in SetOf(times) ensures x + window > now {
        var i :| 0 <= i < |times| && times[i] == x;
      }
    }
  }

  /** Once a whole window has passed since every recorded request, a request is let through again. */
  lemma WindowExpiryReadmits(store: Store, key: string, maxRequests: int, window: nat, now: nat)
    requires maxRequests >= 1
    requires forall t :: t in Stamps(store, key) ==> t + window <= now
    ensures AllowRequest(store, key, maxRequests, window, now).1
    ensures Stamps(AllowRequest(store, key, maxRequests, window, now).0, key) == {now}
  {
    assert Live(Stamps(store, key), now, window) == {};
  }

  /** After `resetRateLimit` the next request is let through, whatever came before. */
  lemma ResetReadmits(store: Store, key: string, maxRequests: int, window: nat, now: nat)
    requires maxRequests >= 1
    ensures AllowRequest(ResetRateLimit(store, key), key, maxRequests, window, now).1
  {
    assert Live({}, now, window) == {};
  }
}

=== FILE: records.dfy ===
/**
 * What the per-member record services share: their error outcomes, and the numbered records
 * (health and allergy entries) keyed by member and a per-member record number that is one
 * above the member's highest.
 */
module Records {
  import opened Wrappers
  import Text
  import Table

  datatype RecordError =
    | NotFound     // `ResourceNotFoundException`: no row under the key, or nothing to list
    | NullKey      // `save` of an entity whose assigned key field is null
    | NullColumn   // `save` of a null into a `nullable = false` column

  /** A numbered record of some member with its payload. */
  datatype Numbered<T> = Numbered(memberId: string, recordNo: int, body: T)

  function NumberedKey<T>(r: Numbered<T>): (string, int) {
    (r.memberId, r.recordNo)
  }

  /** `findByMemberId...`: the member's rows, in table order. */
  function OfMember<T(!new)>(rows: seq<Numbered<T>>, memberId: string): (r: seq<Numbered<T>>)
    ensures forall x :: x in r <==> x in rows && x.memberId == memberId
  {
    Table.Where(rows, (x: Numbered<T>) => x.memberId == memberId)
  }

  /** The largest record number among `rows`; absent for no rows. */
  function MaxRecordNo<T>(rows: seq<Numbered<T>>): (r: Option<int>)
    ensures r.None? <==> rows == []
    ensures r.Some? ==> (exists i :: 0 <= i < |rows| && rows[i].recordNo == r.value)
                        && forall i :: 0 <= i < |rows| ==> rows[i].recordNo <= r.value
  {
    if rows == [] then None
    else
      match MaxRecordNo(rows[1..])
      case None => Some(rows[0].recordNo)
      case Some(m) =>
        assert forall i :: 1 <= i < |rows| ==> rows[i] == rows[1..][i - 1];
        if rows[0].recordNo >= m then Some(rows[0].recordNo)
        else
          var j :| 0 <= j < |rows[1..]| && rows[1..][j].recordNo == m;
          assert rows[j + 1].recordNo == m;
          Some(m)
  }

  /**
   * `findByMemberIdOrderByRecordNoAsc(memberId)...max(...).orElse(0) + 1` in Java `int`
   * arithmetic: one above the member's highest number, or 1 for a member with none.
   */
  function NextRecordNo<T(!new)>(rows: seq<Numbered<T>>, memberId: string): (r: int)
    ensures Text.IsJavaInt(r)
    ensures MaxRecordNo(OfMember(rows, memberId)).None? ==> r == 1
    ensures MaxRecordNo(OfMember(rows, memberId)).Some? ==> r == Text.Wrap32(MaxRecordNo(OfMember(rows, memberId)).value + 1)
  {
    Text.Wrap32(MaxRecordNo(OfMember(rows, memberId)).GetOr(0) + 1)
  }

  /** Below the top of the `int` range, the next number is fresh for the member and above all its numbers. */
  lemma NextRecordNoIsFresh<T(!new)>(rows: seq<Numbered<T>>, memberId: string)
    requires forall x :: x in rows && x.memberId == memberId ==> Text.IntMin <= x.recordNo < Text.IntMax
    ensures forall x :: x in rows && x.memberId == memberId ==> x.recordNo < NextRecordNo(rows, memberId)
    ensures !Table.HasKey(rows, NumberedKey, (memberId, NextRecordNo(rows, memberId)))
  {
    var mine := OfMember(rows, memberId);
    var next := NextRecordNo(rows, memberId);
    match MaxRecordNo(mine)
    case None =>
      assert mine == [];
    case Some(m) =>
      var j :| 0 <= j < |mine| && mine[j].recordNo == m;
      assert mine[j] in mine;
      assert Text.IsJavaInt(m + 1);
      forall x | x in rows && x.memberId == memberId ensures x.recordNo < next {
        assert x in mine;
        var i :| 0 <= i < |mine| && mine[i] == x;
      }
    assert forall i :: 0 <= i < |rows| ==> rows[i] in rows;
  }

  /** Rows of other members do not influence the next number. */
  lemma NextRecordNoIgnoresOthers<T(!new)>(rows: seq<Numbered<T>>, memberId: string, other: Numbered<T>)
    requires other.memberId != memberId
    ensures NextRecordNo(rows + [other], memberId) == NextRecordNo(rows, memberId)
  {
    assert forall x :: x in OfMember(rows + [other], memberId) <==> x in OfMember(rows, memberId);
    OfMemberExtensional(rows + [other], rows, memberId);
  }

  lemma {:induction false} OfMemberExtensional<T(!new)>(a: seq<Numbered<T>>, b: seq<Numbered<T>>, memberId: string)
    requires forall x :: x in a && x.memberId == memberId <==> x in b && x.memberId == memberId
    requires |a| == |b| + 1 && a[..|b|] == b && a[|b|].memberId != memberId
    ensures OfMember(a, memberId) == OfMember(b, memberId)
  {
    WhereAppendRejected(b, a[|b|], (x: Numbered<T>) => x.memberId == memberId);
    assert a == b + [a[|b|]];
  }

  lemma {:induction false} WhereAppendRejected<R(!new)>(rows: seq<R>, x: R, p: R -> bool)
    requires !p(x)
    ensures Table.Where(rows + [x], p) == Table.Where(rows, p)
    decreases |rows|
  {
    if rows == [] {
      assert [x][1..] == [];
    } else {
      assert (rows + [x])[1..] == rows[1..] + [x];
      WhereAppendRejected(rows[1..], x, p);
    }
  }

  /** Record numbers never decrease along `rows`. */
  predicate SortedByNo<T>(rows: seq<Numbered<T>>) {
    forall i, j :: 0 <= i < j < |rows| ==> rows[i].recordNo <= rows[j].recordNo
  }

  /** `x` put into sorted `rows` ahead of the first row with a larger number. */
  function InsertByNo<T>(x: Numbered<T>, rows: seq<Numbered<T>>): (r: seq<Numbered<T>>)
    requires SortedByNo(rows)
    ensures SortedByNo(r)
    ensures multiset(r) == multiset(rows) + multiset{x}
    ensures |r| == |rows| + 1
    ensures forall i :: 0 <= i < |r| ==> r[i] == x || r[i] in rows
  {
    if rows == [] then [x]
    else if x.recordNo <= rows[0].recordNo then
      assert SortedByNo([x] + rows) by {
        assert forall i :: 0 <= i < |rows| ==> x.recordNo <= rows[i].recordNo;
        InsertAfterHead(x, rows);
      }
      assert forall i :: 0 <= i < |[x] + rows| ==> ([x] + rows)[i] == x || ([x] + rows)[i] in rows by {
        forall i | 0 < i < |[x] + rows| ensures ([x] + rows)[i] in rows {
          assert ([x] + rows)[i] == rows[i - 1];
        }
      }
      [x] + rows
    else
      var head, tail := rows[0], rows[1..];
      assert SortedByNo(tail) by {
        forall i, j | 0 <= i < j < |tail| ensures tail[i].recordNo <= tail[j].recordNo {
          assert tail[i] == rows[i + 1] && tail[j] == rows[j + 1];
        }
      }
      var rest := InsertByNo(x, tail);
      InsertStep(x, rows, rest);
      [head] + rest
  }

  /** The recursive case of `InsertByNo`: the head goes in front of the insertion into the tail. */
  lemma InsertStep<T>(x: Numbered<T>, rows: seq<Numbered<T>>, rest: seq<Numbered<T>>)
    requires SortedByNo(rows) && rows != [] && x.recordNo > rows[0].recordNo
    requires SortedByNo(rest) && multiset(rest) == multiset(rows[1..]) + multiset{x}
    requires forall i :: 0 <= i < |rest| ==> rest[i] == x || rest[i] in rows[1..]
    ensures SortedByNo([rows[0]] + rest)
    ensures multiset([rows[0]] + rest) == multiset(rows) + multiset{x}
    ensures forall i :: 0 <= i < |[rows[0]] + rest| ==> ([rows[0]] + rest)[i] == x || ([rows[0]] + rest)[i] in rows
  {
    var head, tail := rows[0], rows[1..];
    assert rows == [head] + tail;
    forall i | 0 <= i < |rest| ensures head.recordNo <= rest[i].recordNo {
      if rest[i] != x {
        var j :| 0 <= j < |tail| && tail[j] == rest[i];
        assert rows[j + 1] == rest[i];
      }
    }
    InsertAfterHead(head, rest);
    var r := [head] + rest;
    forall i | 0 < i < |r| ensures r[i] == x || r[i] in rows {
      assert r[i] == rest[i - 1];
      if rest[i - 1] != x {
        var j :| 0 <= j < |tail| && tail[j] == rest[i - 1];
        assert rows[j + 1] == r[i];
      }
    }
  }

  /** A sorted sequence stays sorted with a smaller-or-equal row put in front. */
  lemma InsertAfterHead<T>(head: Numbered<T>, rest: seq<Numbered<T>>)
    requires SortedByNo(rest)
    requires forall i :: 0 <= i < |rest| ==> head.recordNo <= rest[i].recordNo
    ensures SortedByNo([head] + rest)
  {
    var r := [head] + rest;
    forall i, j | 0 <= i < j < |r| ensures r[i].recordNo <= r[j].recordNo {
      assert r[j] == rest[j - 1];
      if i > 0 {
        assert r[i] == rest[i - 1];
      }
    }
  }

  /** `ORDER BY recordNo ASC`: the same rows, by ascending record number. */
  function SortByNo<T>(rows: seq<Numbered<T>>): (r: seq<Numbered<T>>)
    ensures SortedByNo(r)
    ensures multiset(r) == multiset(rows)
    ensures |r| == |rows|
  {
    if rows == [] then []
    else
      assert rows == [rows[0]] + rows[1..];
      InsertByNo(rows[0], SortByNo(rows[1..]))
  }

  /** The member's records by ascending number; `NotFound` when the member has none. */
  function ListOfMember<T(!new)>(rows: seq<Numbered<T>>, memberId: string): (r: Result<seq<Numbered<T>>, RecordError>)
    ensures r.Failure? <==> forall x :: x in rows ==> x.memberId != memberId
    ensures r.Failure? ==> r.error == NotFound
    ensures r.Success? ==> SortedByNo(r.value) && multiset(r.value) == multiset(OfMember(rows, memberId))
    ensures r.Success? ==> |r.value| == |OfMember(rows, memberId)| && |r.value| > 0
    ensures r.Success? ==> forall x :: x in r.value <==> x in rows && x.memberId == memberId
  {
    var mine := OfMember(rows, memberId);
    if mine == [] then Failure(NotFound)
    else
      assert mine[0] in mine;
      var sorted := SortByNo(mine);
      assert forall x :: x in sorted <==> x in multiset(sorted);
      assert forall x :: x in mine <==> x in multiset(mine);
      Success(sorted)
  }

  /** Each row of a listing turned into the service's response. */
  function Respond<T, U>(listed: seq<Numbered<T>>, f: Numbered<T> -> U): (out: seq<U>)
    ensures |out| == |listed|
    ensures forall i :: 0 <= i < |listed| ==> out[i] == f(listed[i])
    ensures forall x :: x in listed ==> f(x) in out
  {
    var out := seq(|listed|, i requires 0 <= i < |listed| => f(listed[i]));
    assert forall x :: x in listed ==> f(x) in out by {
      forall x | x in listed ensures f(x) in out {
        var i :| 0 <= i < |listed| && listed[i] == x;
        assert out[i] == f(x);
      }
    }
    out
  }

  /** `save` of a freshly numbered record for the member. */
  function AddNumbered<T(==,!new)>(rows: seq<Numbered<T>>, memberId: string, body: T): (r: (seq<Numbered<T>>, Numbered<T>))
    ensures r.1 == Numbered(memberId, NextRecordNo(rows, memberId), body)
    ensures forall y :: y in r.0 <==> y == r.1 || (y in rows && NumberedKey(y) != NumberedKey(r.1))
  {
    var x := Numbered(memberId, NextRecordNo(rows, memberId), body);
    (Table.Save(rows, NumberedKey, x), x)
  }

  /** Find the record under `(memberId, recordNo)`, rewrite its payload with `change`, save it. */
  function UpdateNumbered<T(==,!new)>(rows: seq<Numbered<T>>, memberId: string, recordNo: int, change: T -> T): (r: Result<(seq<Numbered<T>>, Numbered<T>), RecordError>)
    ensures r.Failure? <==> !Table.HasKey(rows, NumberedKey, (memberId, recordNo))
    ensures r.Failure? ==> r.error == NotFound
    ensures r.Success? ==>
              var prior := Table.Find(rows, NumberedKey, (memberId, recordNo)).value;
              && r.value.1 == Numbered(memberId, recordNo, change(prior.body))
              && Table.Find(r.value.0, NumberedKey, (memberId, recordNo)) == Some(r.value.1)
              && forall y :: y in r.value.0 <==> y == r.value.1 || (y in rows && NumberedKey(y) != (memberId, recordNo))
  {
    match Table.Find(rows, NumberedKey, (memberId, recordNo))
    case None => Failure(NotFound)
    case Some(prior) =>
      var x := prior.(body := change(prior.body));
      Success((Table.Save(rows, NumberedKey, x), x))
  }

  /** `existsById` then `deleteById` for `(memberId, recordNo)`. */
  function DeleteNumbered<T(!new)>(rows: seq<Numbered<T>>, memberId: string, recordNo: int): (r: Result<seq<Numbered<T>>, RecordError>)
    ensures r.Failure? <==> !Table.HasKey(rows, NumberedKey, (memberId, recordNo))
    ensures r.Failure? ==> r.error == NotFound
    ensures r.Success? ==> forall y :: y in r.value <==> y in rows && NumberedKey(y) != (memberId, recordNo)
  {
    if !Table.HasKey(rows, NumberedKey, (memberId, recordNo)) then Failure(NotFound)
    else Success(Table.Delete(rows, NumberedKey, (memberId, recordNo)))
  }

  /**
   * A record added below the top of the `int` range is listed last: its number is above every
   * other number of the member.
   */
  lemma AddedRecordListedLast<T(!new)>(rows: seq<Numbered<T>>, memberId: string, body: T)
    requires forall x :: x in rows && x.memberId == memberId ==> Text.IntMin <= x.recordNo < Text.IntMax
    ensures ListOfMember(AddNumbered(rows, memberId, body).0, memberId).Success?
    ensures ListOfMember(AddNumbered(rows, memberId, body).0, memberId).value[|ListOfMember(AddNumbered(rows, memberId, body).0, memberId).value| - 1]
            == AddNumbered(rows, memberId, body).1
  {
    NextRecordNoIsFresh(rows, memberId);
    TopListedLast(rows, memberId, AddNumbered(rows, memberId, body).0, AddNumbered(rows, memberId, body).1);
  }

  /** A member's row numbered above all the member's earlier rows is listed last. */
  lemma TopListedLast<T(!new)>(rows: seq<Numbered<T>>, memberId: string, after: seq<Numbered<T>>, added: Numbered<T>)
    requires added.memberId == memberId
    requires forall x :: x in rows && x.memberId == memberId ==> x.recordNo < added.recordNo
    requires forall y :: y in after <==> y == added || (y in rows && NumberedKey(y) != NumberedKey(added))
    ensures ListOfMember(after, memberId).Success?
    ensures ListOfMember(after, memberId).value[|ListOfMember(after, memberId).value| - 1] == added
  {
    assert added in after;
    var l := ListOfMember(after, memberId).value;
    assert added in l;
    forall y | y in l && y != added ensures y.recordNo < added.recordNo {
      assert y in rows && y.memberId == memberId;
    }
    UniqueLargestIsLast(l, added);
  }

  /** In a list sorted by number, a row above every other row comes last. */
  lemma UniqueLargestIsLast<T>(l: seq<Numbered<T>>, top: Numbered<T>)
    requires SortedByNo(l) && top in l
    requires forall y :: y in l && y != top ==> y.recordNo < top.recordNo
    ensures l[|l| - 1] == top
  {
    var k :| 0 <= k < |l| && l[k] == top;
    assert l[k].recordNo <= l[|l| - 1].recordNo;
    assert l[|l| - 1] in l;
  }
}

=== FILE: table.dfy ===
/**
 * A database table as a sequence of rows addressed by a key function: the repository
 * operations `findById`, `existsById`, `deleteById`, `save` (insert or merge by key) and
 * derived `findBy<Column>` queries.
 */
module Table {
  import opened Wrappers

  /** Some row carries key `k`. */
  predicate HasKey<R, K(==)>(rows: seq<R>, key: R -> K, k: K) {
    exists i :: 0 <= i < |rows| && key(rows[i]) == k
  }

  /** No two different rows share a key (the primary-key constraint). */
  predicate UniqueKeys<R(==,!new), K(==)>(rows: seq<R>, key: R -> K) {
    forall x, y :: x in rows && y in rows && key(x) == key(y) ==> x == y
  }

  /** `findById`: the first row with key `k`. */
  function Find<R, K(==)>(rows: seq<R>, key: R -> K, k: K): (r: Option<R>)
    ensures r.None? <==> !HasKey(rows, key, k)
    ensures r.Some? ==> r.value in rows && key(r.value) == k
  {
    if rows == [] then None
    else if key(rows[0]) == k then Some(rows[0])
    else
      var rest := Find(rows[1..], key, k);
      assert HasKey(rows, key, k) ==> HasKey(rows[1..], key, k) by {
        if HasKey(rows, key, k) {
          var i :| 0 <= i < |rows| && key(rows[i]) == k;
          assert rows[1..][i - 1] == rows[i];
        }
      }
      assert HasKey(rows[1..], key, k) ==> HasKey(rows, key, k) by {
        if HasKey(rows[1..], key, k) {
          var i :| 0 <= i < |rows[1..]| && key(rows[1..][i]) == k;
          assert rows[i + 1] == rows[1..][i];
        }
      }
      rest
  }

  /** A derived query: the rows satisfying `p`, in table order. */
  function Where<R(!new)>(rows: seq<R>, p: R -> bool): (r: seq<R>)
    ensures |r| <= |rows|
    ensures forall x :: x in r <==> x in rows && p(x)
  {
    if rows == [] then []
    else if p(rows[0]) then [rows[0]] + Where(rows[1..], p)
    else Where(rows[1..], p)
  }

  /** `deleteById`: every row with key `k` goes, every other row stays. */
  function Delete<R(!new), K(==)>(rows: seq<R>, key: R -> K, k: K): (r: seq<R>)
    ensures forall x :: x in r <==> x in rows && key(x) != k
    ensures !HasKey(r, key, k)
  {
    var r := Where(rows, x => key(x) != k);
    assert !HasKey(r, key, k) by {
      forall i | 0 <= i < |r| ensures key(r[i]) != k {
        assert r[i] in r;
      }
    }
    r
  }

  /**
   * `save` of an entity whose key is assigned by the caller: a merge that replaces the row
   * with the same key, or an insert when there is none.
   */
  function Save<R(==,!new), K(==)>(rows: seq<R>, key: R -> K, x: R): (r: seq<R>)
    ensures forall y :: y in r <==> y == x || (y in rows && key(y) != key(x))
    ensures Find(r, key, key(x)) == Some(x)
    ensures UniqueKeys(rows, key) ==> UniqueKeys(r, key)
  {
    var r := Delete(rows, key, key(x)) + [x];
    assert x in r;
    r
  }
}

=== FILE: text.dfy ===
/**
 * Java string and integer behaviour the services rely on: `trim`, blankness, `split(",")[0]`,
 * decimal formatting (`String.valueOf`, `%0Nd`), `Integer.parseInt` and 32-bit wrap-around.
 * Characters are restricted to ASCII where Java would consult Unicode tables.
 */
module Text {
  import opened Wrappers

  predicate IsDigit(c: char) {
    '0' <= c <= '9'
  }

  predicate AllDigits(s: string) {
    forall i :: 0 <= i < |s| ==> IsDigit(s[i])
  }

  /** The characters `String.trim` removes: every code point up to and including the space. */
  predicate IsSpace(c: char) {
    c <= ' '
  }

  /** `s.trim().isEmpty()`. */
  predicate IsBlank(s: string) {
    forall i :: 0 <= i < |s| ==> IsSpace(s[i])
  }

  /** `s == null || s.trim().isEmpty()`, the services' own emptiness test. */
  predicate NullOrBlank(s: Option<string>) {
    s.None? || IsBlank(s.value)
  }

  /** Index of the first non-space character at or after `lo`, or `|s|`. */
  function SkipSpaces(s: string, lo: nat): (n: nat)
    requires lo <= |s|
    ensures lo <= n <= |s|
    ensures forall i :: lo <= i < n ==> IsSpace(s[i])
    ensures n == |s| || !IsSpace(s[n])
    decreases |s| - lo
  {
    if lo < |s| && IsSpace(s[lo]) then SkipSpaces(s, lo + 1) else lo
  }

  /** One past the last non-space character of `s[lo..hi]`, or `lo` when there is none. */
  function BackSpaces(s: string, lo: nat, hi: nat): (n: nat)
    requires lo <= hi <= |s|
    ensures lo <= n <= hi
    ensures forall i :: n <= i < hi ==> IsSpace(s[i])
    ensures n == lo || !IsSpace(s[n - 1])
    decreases hi
  {
    if lo < hi && IsSpace(s[hi - 1]) then BackSpaces(s, lo, hi - 1) else hi
  }

  /** `String.trim`: the longest infix that neither starts nor ends with a space character. */
  function Trim(s: string): (r: string)
    ensures r == [] <==> IsBlank(s)
    ensures r != [] ==> !IsSpace(r[0]) && !IsSpace(r[|r| - 1])
    ensures exists lo :: 0 <= lo <= lo + |r| <= |s| && r == s[lo..lo + |r|]
                         && IsBlank(s[..lo]) && IsBlank(s[lo + |r|..])
    ensures forall c :: c in r ==> c in s
  {
    var lo := SkipSpaces(s, 0);
    var hi := BackSpaces(s, lo, |s|);
    assert IsBlank(s[..lo]) && IsBlank(s[hi..]);
    assert s[lo..hi] == s[lo..lo + |s[lo..hi]|];
    s[lo..hi]
  }

  /** The text before the first `sep`, or all of `s` when there is none. */
  function BeforeFirst(s: string, sep: char): (r: string)
    ensures r <= s && sep !in r
    ensures |r| < |s| ==> s[|r|] == sep
  {
    if s == [] || s[0] == sep then [] else [s[0]] + BeforeFirst(s[1..], sep)
  }

  /**
   * `s.split(String.valueOf(sep))[0]` for a separator that is not a regular-expression
   * metacharacter. Java drops trailing empty pieces, so a non-empty `s` made only of separators
   * yields an empty array and indexing it throws: that case is `None`.
   */
  function SplitHead(s: string, sep: char): (r: Option<string>)
    ensures r.None? <==> |s| > 0 && forall i :: 0 <= i < |s| ==> s[i] == sep
    ensures r.Some? ==> r.value <= s && sep !in r.value
    ensures r.Some? && |r.value| < |s| ==> s[|r.value|] == sep
  {
    if |s| > 0 && forall i :: 0 <= i < |s| ==> s[i] == sep then None else Some(BeforeFirst(s, sep))
  }

  /** ASCII `Character.toUpperCase`; other characters are left alone. */
  function UpperAscii(c: char): (r: char)
    ensures 'a' <= c <= 'z' ==> 'A' <= r <= 'Z'
    ensures !('a' <= c <= 'z') ==> r == c
  {
    if 'a' <= c <= 'z' then (c as int - 32) as char else c
  }

  function Repeat(c: char, n: nat): (r: string)
    ensures |r| == n
    ensures forall i :: 0 <= i < n ==> r[i] == c
  {
    seq(n, _ => c)
  }

  function DigitChar(d: int): (c: char)
    requires 0 <= d < 10
    ensures IsDigit(c)
  {
    ('0' as int + d) as char
  }

  function DigitValue(c: char): (d: int)
    requires IsDigit(c)
    ensures 0 <= d < 10 && DigitChar(d) == c
  {
    c as int - '0' as int
  }

  function Pow10(k: nat): (p: nat)
    ensures p >= 1
  {
    if k == 0 then 1 else 10 * Pow10(k - 1)
  }

  /** Decimal digits of `n`, without leading zeros. */
  function NatToString(n: nat): (r: string)
    ensures |r| >= 1 && AllDigits(r)
    ensures r[0] == '0' ==> n == 0
  {
    if n < 10 then [DigitChar(n)] else NatToString(n / 10) + [DigitChar(n % 10)]
  }

  /** The number a string of decimal digits denotes. */
  function DigitsValue(s: string): nat
    requires AllDigits(s)
  {
    if s == [] then 0 else 10 * DigitsValue(s[..|s| - 1]) + DigitValue(s[|s| - 1])
  }

  /** Reading back the decimal digits of `n` gives `n`. */
  lemma {:induction false} DigitsValueOfNatToString(n: nat)
    ensures DigitsValue(NatToString(n)) == n
  {
    if n >= 10 {
      var s := NatToString(n);
      assert s[..|s| - 1] == NatToString(n / 10);
      DigitsValueOfNatToString(n / 10);
    }
  }

  /** `n` has at most `k` decimal digits exactly when it is below `10^k`. */
  lemma {:induction false} NatToStringLength(n: nat, k: nat)
    requires k >= 1
    ensures |NatToString(n)| <= k <==> n < Pow10(k)
  {
    if n >= 10 {
      if k == 1 {
        assert |NatToString(n)| >= 2 by { assert |NatToString(n)| == |NatToString(n / 10)| + 1; }
      } else {
        NatToStringLength(n / 10, k - 1);
      }
    }
  }

  /** The value of a concatenation of digit strings. */
  lemma AllDigitsAppend(a: string, b: string)
    requires AllDigits(a) && AllDigits(b)
    ensures AllDigits(a + b)
  {
    forall i | 0 <= i < |a + b| ensures IsDigit((a + b)[i]) {
      if i < |a| { assert (a + b)[i] == a[i]; } else { assert (a + b)[i] == b[i - |a|]; }
    }
  }

  /** The value of a concatenation of digit strings. */
  lemma {:induction false} DigitsValueAppend(a: string, b: string)
    requires AllDigits(a) && AllDigits(b)
    ensures AllDigits(a + b)
    ensures DigitsValue(a + b) == DigitsValue(a) * Pow10(|b|) + DigitsValue(b)
  {
    AllDigitsAppend(a, b);
    if b == [] {
      assert a + b == a;
    } else {
      var b' := b[..|b| - 1];
      var d := DigitValue(b[|b| - 1]);
      assert (a + b)[..|a + b| - 1] == a + b';
      assert (a + b)[|a + b| - 1] == b[|b| - 1];
      assert DigitsValue(a + b) == 10 * DigitsValue(a + b') + d;
      assert DigitsValue(b) == 10 * DigitsValue(b') + d;
      DigitsValueAppend(a, b');
      ShiftDigit(DigitsValue(a), Pow10(|b'|), DigitsValue(b'), d);
    }
  }

  /** One more digit on the right: `10 * (x * p + y) + d == x * (10 * p) + (10 * y + d)`. */
  lemma ShiftDigit(x: int, p: int, y: int, d: int)
    ensures 10 * (x * p + y) + d == x * (10 * p) + (10 * y + d)
  {
    assert 10 * (x * p) == x * (10 * p);
  }

  lemma {:induction false} DigitsValueOfZeros(n: nat)
    ensures AllDigits(Repeat('0', n)) && DigitsValue(Repeat('0', n)) == 0
  {
    if n > 0 {
      assert Repeat('0', n)[..n - 1] == Repeat('0', n - 1);
      DigitsValueOfZeros(n - 1);
    }
  }

  /** `s` extended on the left with `c` up to `width` characters. */
  function PadLeft(s: string, c: char, width: int): (r: string)
    ensures |s| >= width ==> r == s
    ensures |s| < width ==> |r| == width && r == Repeat(c, width - |s|) + s
  {
    if |s| < width then Repeat(c, width - |s|) + s else s
  }

  /** Zero padding does not change the value of a digit string. */
  lemma ZeroPadValue(s: string, width: int)
    requires AllDigits(s)
    ensures AllDigits(PadLeft(s, '0', width)) && DigitsValue(PadLeft(s, '0', width)) == DigitsValue(s)
  {
    if |s| < width {
      DigitsValueOfZeros(width - |s|);
      DigitsValueAppend(Repeat('0', width - |s|), s);
    }
  }

  /** Java `String.format("%0<width>d", n)`: zero padding after the sign, the width counting the sign. */
  function FormatInt(n: int, width: nat): (r: string)
    ensures n >= 0 ==> AllDigits(r) && DigitsValue(r) == n
    ensures n >= 0 ==> |r| == if |NatToString(n)| < width then width else |NatToString(n)|
    ensures n < 0 ==> |r| >= 2 && r[0] == '-' && AllDigits(r[1..]) && DigitsValue(r[1..]) == -n
  {
    var m: nat := if n < 0 then -n else n;
    var w := if n < 0 then width - 1 else width;
    var body := PadLeft(NatToString(m), '0', w);
    DigitsValueOfNatToString(m);
    ZeroPadValue(NatToString(m), w);
    if n < 0 then
      assert ("-" + body)[1..] == body;
      "-" + body
    else
      body
  }

  /** Java `String.valueOf(int)`. */
  function IntToString(n: int): (r: string)
    ensures n >= 0 ==> r != [] && AllDigits(r) && DigitsValue(r) == n
    ensures n < 0 ==> |r| >= 2 && r[0] == '-' && AllDigits(r[1..]) && DigitsValue(r[1..]) == -n
  {
    if n < 0 then
      var digits := NatToString(-n);
      DigitsValueOfNatToString(-n);
      assert ("-" + digits)[1..] == digits;
      "-" + digits
    else
      DigitsValueOfNatToString(n);
      NatToString(n)
  }

  const IntMin: int := -2147483648
  const IntMax: int := 2147483647

  /** A value of Java's `int`. */
  predicate IsJavaInt(n: int) {
    IntMin <= n <= IntMax
  }

  /** Two's-complement wrap-around of an exact integer into Java's `int`. */
  function Wrap32(x: int): (r: int)
    ensures IsJavaInt(r)
    ensures IsJavaInt(x) ==> r == x
    ensures x == IntMax + 1 ==> r == IntMin
  {
    (x - IntMin) % 4294967296 + IntMin
  }

  /**
   * `Integer.parseInt` over ASCII digits: an optional sign, at least one digit, and a value in
   * range. `None` stands for the `NumberFormatException`.
   */
  function ParseInt(s: string): (r: Option<int>)
    ensures r.Some? ==> IsJavaInt(r.value)
    ensures r.Some? ==> |s| >= 1 && (IsDigit(s[0]) || s[0] == '-' || s[0] == '+')
    ensures r.Some? ==> forall i :: 1 <= i < |s| ==> IsDigit(s[i])
    ensures r.Some? ==> (r.value < 0 ==> s[0] == '-')
    ensures |s| > 0 && AllDigits(s) && DigitsValue(s) <= IntMax ==> r == Some(DigitsValue(s))
    ensures |s| > 0 && AllDigits(s) && DigitsValue(s) > IntMax ==> r.None?
  {
    if |s| == 0 then None
    else
      var digits := if s[0] == '-' || s[0] == '+' then s[1..] else s;
      if |digits| == 0 || !AllDigits(digits) then None
      else
        var v: int := if s[0] == '-' then -(DigitsValue(digits) as int) else DigitsValue(digits);
        if IsJavaInt(v) then Some(v) else None
  }

  /** Formatting any `int` with `%0Nd` and parsing it back with `Integer.parseInt` gives it back. */
  lemma ParseFormatRoundTrip(n: int, width: nat)
    requires IsJavaInt(n)
    ensures ParseInt(FormatInt(n, width)) == Some(n)
  {
    var s := FormatInt(n, width);
    if n >= 0 {
      assert IsDigit(s[0]);
    }
  }
}

=== FILE: token_blacklist.dfy ===
/**
 * The revoked-token table keyed by the token string, with its expiry instant, and the service
 * that adds to it, queries it and purges expired rows every hour.
 */
module TokenBlacklist {
  import opened Clock

  /** Token to expiry instant. */
  type Blacklist = map<string, Time>

  /** `blacklistToken(token, expiryDate)`: a `save`, so a token listed again gets the new expiry. */
  function BlacklistToken(b: Blacklist, token: string, expiry: Time): (r: Blacklist)
    ensures token in r && r[token] == expiry
    ensures forall t :: t != token ==> (t in r <==> t in b) && (t in b ==> r[t] == b[t])
  {
    b[token := expiry]
  }

  /** `isTokenBlacklisted`: whether a row exists, expired or not. */
  predicate IsTokenBlacklisted(b: Blacklist, token: string) {
    token in b
  }

  /** `deleteExpiredTokens` at `now`: the rows whose expiry is strictly before `now` go. */
  function DeleteExpiredTokens(b: Blacklist, now: Time): (r: Blacklist)
    ensures forall t :: t in r <==> t in b && b[t] >= now
    ensures forall t :: t in r ==> r[t] == b[t]
  {
    map t | t in b && !(b[t] < now) :: b[t]
  }

  /** `cleanupExpiredTokens`, the hourly job. */
  function CleanupExpiredTokens(b: Blacklist, now: Time): (r: Blacklist)
    ensures forall t :: t in r ==> r[t] >= now
    ensures forall t :: t in b && b[t] >= now ==> t in r && r[t] == b[t]
    ensures forall t :: t in r ==> t in b
  {
    DeleteExpiredTokens(b, now)
  }

  /**
   * The lookup asks only whether a row exists: a token counts as revoked from the moment it
   * is listed, whatever its expiry, until a cleanup after that expiry removes it; listing one
   * token changes no other token's answer.
   */
  lemma ListedRegardlessOfExpiry(b: Blacklist, token: string, expiry: Time, now: Time)
    ensures IsTokenBlacklisted(BlacklistToken(b, token, expiry), token)
    ensures forall t :: t != token ==> (IsTokenBlacklisted(BlacklistToken(b, token, expiry), t) <==> IsTokenBlacklisted(b, t))
    ensures IsTokenBlacklisted(CleanupExpiredTokens(BlacklistToken(b, token, expiry), now), token) <==> now <= expiry
  {
  }

  /** A token whose expiry has not passed stays listed through any cleanup up to its expiry. */
  lemma ListedUntilExpiry(b: Blacklist, token: string, expiry: Time, now: Time)
    requires now <= expiry
    ensures IsTokenBlacklisted(CleanupExpiredTokens(BlacklistToken(b, token, expiry), now), token)
  {
  }

  /** Cleanup after the expiry instant has passed removes the token. */
  lemma DroppedAfterExpiry(b: Blacklist, token: string, now: Time)
    requires token in b && b[token] < now
    ensures !IsTokenBlacklisted(CleanupExpiredTokens(b, now), token)
  {
  }

  /** Running the cleanup twice at the same instant is the same as running it once. */
  lemma CleanupIdempotent(b: Blacklist, now: Time)
    ensures CleanupExpiredTokens(CleanupExpiredTokens(b, now), now) == CleanupExpiredTokens(b, now)
  {
  }

  /** A later cleanup removes at least what an earlier one did. */
  lemma CleanupMonotone(b: Blacklist, early: Time, late: Time)
    requires early <= late
    ensures CleanupExpiredTokens(CleanupExpiredTokens(b, early), late) == CleanupExpiredTokens(b, late)
  {
  }
}

=== FILE: user_properties.dfy ===
/** Properties that relate several calls of the profile and email-change flows. */
module UserProperties {
  import opened Wrappers
  import opened Clock
  import Text
  import Otp
  import Members
  import opened Accounts
  import opened UserService
  import AuthService
  import AuthProperties

  /** In a well-formed table, "taken by another member" is exactly what the unique email column forbids. */
  lemma TakenByOtherIsOwnership(rows: Members.MemberTable, email: string, memberId: string)
    requires Members.WellFormed(rows)
    requires Members.FindById(rows, memberId).Some?
    ensures TakenByOther(rows, email, memberId) <==> Members.EmailOwnedByOther(rows, email, memberId)
  {
    if Members.EmailOwnedByOther(rows, email, memberId) {
      var x :| x in rows && x.memberId != memberId && x.email == email;
      AuthProperties.FindByEmailUnique(rows, x);
    }
  }


  /**
   * A member holding an unexpired stored code, asking for an address no other member has,
   * is moved to that address by submitting the code.
   */
  lemma ConfirmSucceeds(t: State, memberId: string, email: string, code: string, now: Time)
    requires Members.WellFormed(t.members)
    requires !Text.IsBlank(email) && !Text.IsBlank(code)
    requires Members.FindById(t.members, memberId).Some?
    requires Members.FindById(t.members, memberId).value.otp == Some(Otp.Encode(code))
    requires Members.FindById(t.members, memberId).value.otpExpiry.Some?
    requires !(Members.FindById(t.members, memberId).value.otpExpiry.value < now)
    requires forall x :: x in t.members && x.memberId != memberId ==> x.email != email
    ensures VerifyEmailUpdate(t, memberId, Some(email), Some(code), now).result.Success?
    ensures Members.FindById(VerifyEmailUpdate(t, memberId, Some(email), Some(code), now).state.members, memberId).value.email == email
  {
    TakenByOtherIsOwnership(t.members, email, memberId);
  }

  /**
   * Changing an email: requesting the code for a free address and submitting it within five
   * minutes moves the member to that address and clears the OTP slot.
   */
  lemma EmailChangeRoundTrip(s: State, memberId: string, newEmail: string, draw: int, now: Time, later: Time)
    requires WellFormed(s)
    requires 0 <= draw < Otp.OtpBound
    requires !Text.IsBlank(newEmail)
    requires Members.FindById(s.members, memberId).Some?
    requires forall x :: x in s.members && x.memberId != memberId ==> x.email != newEmail
    requires later <= PlusMinutes(now, EmailChangeOtpMinutes)
    ensures var code := Otp.GenerateOtp(draw);
            var r1 := SendEmailVerification(s, memberId, Some(newEmail), draw, now);
            var r2 := VerifyEmailUpdate(r1.state, memberId, Some(newEmail), Some(code), later);
            && r1.result.Success?
            && r2.result.Success?
            && Members.FindById(r2.state.members, memberId).value.email == newEmail
            && Members.FindById(r2.state.members, memberId).value.otp.None?
  {
    var m := Members.FindById(s.members, memberId).value;
    var code := Otp.GenerateOtp(draw);
    assert !Text.IsBlank(code) by {
      assert Text.IsDigit(code[0]);
    }
    TakenByOtherIsOwnership(s.members, newEmail, memberId);
    var updated := m.(otp := Some(Otp.Encode(code)), otpExpiry := Some(PlusMinutes(now, EmailChangeOtpMinutes)));
    assert !Members.EmailOwnedByOther(s.members, updated.email, memberId) by {
      forall x | x in s.members && x.email == m.email ensures x.memberId == memberId {
        assert Members.EmailOf(x) == Members.EmailOf(m);
      }
    }
    var r1 := SendEmailVerification(s, memberId, Some(newEmail), draw, now);
    assert forall x :: x in r1.state.members && x.memberId != memberId ==> x in s.members;
    ConfirmSucceeds(r1.state, memberId, newEmail, code, later);
  }

  /**
   * The code is not tied to the address it was mailed to: a code requested for one address
   * confirms a change to any other free address.
   */
  lemma CodeNotBoundToAddress(s: State, memberId: string, requested: string, other: string, draw: int, now: Time)
    requires WellFormed(s)
    requires 0 <= draw < Otp.OtpBound
    requires !Text.IsBlank(requested) && !Text.IsBlank(other) && requested != other
    requires Members.FindById(s.members, memberId).Some?
    requires forall x :: x in s.members && x.memberId != memberId ==> x.email != requested && x.email != other
    ensures var r1 := SendEmailVerification(s, memberId, Some(requested), draw, now);
            var r2 := VerifyEmailUpdate(r1.state, memberId, Some(other), Some(Otp.GenerateOtp(draw)), now);
            r2.result.Success? && Members.FindById(r2.state.members, memberId).value.email == other
  {
    var m := Members.FindById(s.members, memberId).value;
    var code := Otp.GenerateOtp(draw);
    assert !Text.IsBlank(code) by {
      assert Text.IsDigit(code[0]);
    }
    TakenByOtherIsOwnership(s.members, requested, memberId);
    assert !Members.EmailOwnedByOther(s.members, m.email, memberId) by {
      forall x | x in s.members && x.email == m.email ensures x.memberId == memberId {
        assert Members.EmailOf(x) == Members.EmailOf(m);
      }
    }
    var r1 := SendEmailVerification(s, memberId, Some(requested), draw, now);
    assert forall x :: x in r1.state.members && x.memberId != memberId ==> x in s.members;
    ConfirmSucceeds(r1.state, memberId, other, code, now);
  }

  /**
   * Login and email change share one OTP slot: a login code, mailed to the current address,
   * also confirms an email change.
   */
  lemma LoginCodeConfirmsEmailChange(s: State, memberId: string, newEmail: string, draw: int, now: Time)
    requires WellFormed(s)
    requires 0 <= draw < Otp.OtpBound
    requires !Text.IsBlank(newEmail)
    requires Members.FindById(s.members, memberId).Some?
    requires forall x :: x in s.members && x.memberId != memberId ==> x.email != newEmail
    ensures var m := Members.FindById(s.members, memberId).value;
            var r1 := AuthService.SendOtp(s, m.email, draw, now);
            var r2 := VerifyEmailUpdate(r1.state, memberId, Some(newEmail), Some(Otp.GenerateOtp(draw)), now);
            r2.result.Success? && Members.FindById(r2.state.members, memberId).value.email == newEmail
  {
    var m := Members.FindById(s.members, memberId).value;
    var code := Otp.GenerateOtp(draw);
    assert !Text.IsBlank(code) by {
      assert Text.IsDigit(code[0]);
    }
    AuthProperties.FindByEmailUnique(s.members, m);
    assert !Members.EmailOwnedByOther(s.members, m.email, memberId) by {
      forall x | x in s.members && x.email == m.email ensures x.memberId == memberId {
        assert Members.EmailOf(x) == Members.EmailOf(m);
      }
    }
    var r1 := AuthService.SendOtp(s, m.email, draw, now);
    assert forall x :: x in r1.state.members && x.memberId != memberId ==> x in s.members;
    ConfirmSucceeds(r1.state, memberId, newEmail, code, now);
  }

  /** A profile update never changes the email, whatever the request holds. */
  lemma UpdateProfileKeepsEmail(s: State, memberId: string, req: ProfileChange)
    requires UpdateProfile(s, memberId, req).result.Success?
    ensures UpdateProfile(s, memberId, req).result.value.email == Members.FindById(s.members, memberId).value.email
  {
  }

  /**
   * With unique emails, a profile update of an existing member that leaves the email alone
   * always goes through: the member's row takes the present fields.
   */
  lemma UpdateProfileSucceeds(s: State, memberId: string, req: ProfileChange)
    requires WellFormed(s)
    requires Members.FindById(s.members, memberId).Some?
    requires req.email.None? || req.email.value == Members.FindById(s.members, memberId).value.email
    ensures UpdateProfile(s, memberId, req).result == Success(ApplyProfileChange(Members.FindById(s.members, memberId).value, req))
    ensures Members.FindById(UpdateProfile(s, memberId, req).state.members, memberId) == Some(UpdateProfile(s, memberId, req).result.value)
  {
    var m := Members.FindById(s.members, memberId).value;
    assert !Members.EmailOwnedByOther(s.members, m.email, memberId);
  }

  /** A profile update keeps the member table's keys intact. */
  lemma UpdateProfileKeepsWellFormed(s: State, memberId: string, req: ProfileChange)
    requires WellFormed(s)
    ensures WellFormed(UpdateProfile(s, memberId, req).state)
  {
  }

  /** Issuing an email-change code keeps the member table's keys intact. */
  lemma SendEmailVerificationKeepsWellFormed(s: State, memberId: string, email: Option<string>, draw: int, now: Time)
    requires WellFormed(s)
    requires 0 <= draw < Otp.OtpBound
    ensures WellFormed(SendEmailVerification(s, memberId, email, draw, now).state)
  {
  }

  /** Confirming an email change keeps the member table's keys intact. */
  lemma VerifyEmailUpdateKeepsWellFormed(s: State, memberId: string, email: Option<string>, otp: Option<string>, now: Time)
    requires WellFormed(s)
    ensures WellFormed(VerifyEmailUpdate(s, memberId, email, otp, now).state)
  {
  }
}

=== FILE: user_service.dfy ===
/**
 * The signed-in member's profile: partial updates, and the email change confirmed by a code
 * mailed to the new address. The member id is the name of the authentication in the
 * security context; the code shares the member's one OTP slot with login.
 */
module UserService {
  import opened Wrappers
  import opened Clock
  import Text
  import Otp
  import Members
  import opened Accounts

  /** Lifetime of an email-change code, in minutes. */
  const EmailChangeOtpMinutes: int := 5

  /** `UpdateProfileRequest`: absent fields are left as they are. */
  datatype ProfileChange = ProfileChange(
    fullName: Option<string>,
    email: Option<string>,
    contact: Option<string>,
    dob: Option<Date>)

  /** The row after applying the present fields of `req`; email and OTP slot are untouched. */
  function ApplyProfileChange(m: Members.Member, req: ProfileChange): (r: Members.Member)
    ensures r.memberId == m.memberId && r.email == m.email && r.otp == m.otp && r.otpExpiry == m.otpExpiry
    ensures r.fullName == (if req.fullName.Some? then req.fullName.value else m.fullName)
    ensures r.contact == (if req.contact.Some? then req.contact.value else m.contact)
    ensures r.dob == (if req.dob.Some? then req.dob.value else m.dob)
  {
    m.(fullName := req.fullName.GetOr(m.fullName), contact := req.contact.GetOr(m.contact), dob := req.dob.GetOr(m.dob))
  }

  /**
   * `updateProfile`: a request naming an email other than the current one is refused (that
   * change goes through verification); otherwise the present fields are written.
   */
  function UpdateProfile(s: State, memberId: string, req: ProfileChange): (r: Reply<Members.Member>)
    ensures Members.FindById(s.members, memberId).None? ==> r == Reply(s, Failure(MemberNotFound))
    ensures Members.FindById(s.members, memberId).Some? && req.email.Some?
            && req.email.value != Members.FindById(s.members, memberId).value.email
            ==> r == Reply(s, Failure(EmailUpdateNeedsVerification))
    ensures Members.FindById(s.members, memberId).Some? &&
            !(req.email.Some? && req.email.value != Members.FindById(s.members, memberId).value.email) ==>
              (r.result.Success? <==> !Members.EmailOwnedByOther(s.members, Members.FindById(s.members, memberId).value.email, memberId))
    ensures r.result.Failure? ==> r.state == s
    ensures r.result.Success? ==>
              Members.FindById(s.members, memberId).Some? &&
              var m := Members.FindById(s.members, memberId).value;
              && r.result.value == ApplyProfileChange(m, req)
              && Members.FindById(r.state.members, memberId) == Some(ApplyProfileChange(m, req))
              && Members.Replaced(s.members, r.state.members, ApplyProfileChange(m, req))
              && r.state.pending == s.pending && r.state.revoked == s.revoked && r.state.outbox == s.outbox
  {
    match Members.FindById(s.members, memberId)
    case None => Reply(s, Failure(MemberNotFound))
    case Some(m) =>
      if req.email.Some? && req.email.value != m.email then Reply(s, Failure(EmailUpdateNeedsVerification))
      else
        var updated := ApplyProfileChange(m, req);
        match Members.Save(s.members, updated)
        case Failure(_) => Reply(s, Failure(StoreFailure))
        case Success(members) => Reply(s.(members := members), Success(updated))
  }

  /**
   * `findByEmail(email).filter(m -> !m.getMemberId().equals(memberId)).isPresent()`: the member
   * the lookup returns for `email` is not `memberId`. The lookup sees one row, so this always
   * implies that another member owns the address, and with unique emails the member's own
   * current address is never taken.
   */
  function TakenByOther(rows: Members.MemberTable, email: string, memberId: string): (taken: bool)
    ensures taken ==> Members.EmailOwnedByOther(rows, email, memberId)
    ensures Members.WellFormed(rows) && Members.FindById(rows, memberId).Some? && Members.FindById(rows, memberId).value.email == email
            ==> !taken
  {
    Members.FindByEmail(rows, email).Some? && Members.FindByEmail(rows, email).value.memberId != memberId
  }

  /**
   * `sendEmailVerification(newEmail)`: the address must be present and not blank, the member
   * must exist, and no other member may hold the address; then a five-minute code goes into
   * the member's OTP slot and is mailed to the new address. The mail is queued before the
   * commit, so a save the unique email column rejects still leaves it queued.
   */
  function SendEmailVerification(s: State, memberId: string, newEmail: Option<string>, draw: int, now: Time): (r: Reply<()>)
    requires 0 <= draw < Otp.OtpBound
    ensures Text.NullOrBlank(newEmail) ==> r == Reply(s, Failure(EmailRequired))
    ensures !Text.NullOrBlank(newEmail) && Members.FindById(s.members, memberId).None? ==> r == Reply(s, Failure(MemberNotFound))
    ensures (!Text.NullOrBlank(newEmail) && Members.FindById(s.members, memberId).Some? &&
             TakenByOther(s.members, newEmail.value, memberId)) ==> r == Reply(s, Failure(EmailAlreadyRegistered))
    ensures r.result.Failure? && r.result.error != StoreFailure ==> r.state == s
    ensures !Text.NullOrBlank(newEmail) && Members.FindById(s.members, memberId).Some?
            && !TakenByOther(s.members, newEmail.value, memberId) ==>
              var m := Members.FindById(s.members, memberId).value;
              var code := Otp.GenerateOtp(draw);
              var updated := m.(otp := Some(Otp.Encode(code)), otpExpiry := Some(PlusMinutes(now, EmailChangeOtpMinutes)));
              && (r.result.Failure? <==> Members.EmailOwnedByOther(s.members, m.email, memberId))
              && (r.result.Failure? ==>
                    r == Reply(s.(outbox := s.outbox + [VerificationMail(newEmail.value, code)]), Failure(StoreFailure)))
              && (r.result.Success? ==>
                    && Members.FindById(r.state.members, memberId) == Some(updated)
                    && Members.Replaced(s.members, r.state.members, updated)
                    && r.state.pending == s.pending && r.state.revoked == s.revoked
                    && r.state.outbox == s.outbox + [VerificationMail(newEmail.value, code)])
  {
    if Text.NullOrBlank(newEmail) then Reply(s, Failure(EmailRequired))
    else
      match Members.FindById(s.members, memberId)
      case None => Reply(s, Failure(MemberNotFound))
      case Some(m) =>
        if TakenByOther(s.members, newEmail.value, memberId) then Reply(s, Failure(EmailAlreadyRegistered))
        else
          var code := Otp.GenerateOtp(draw);
          var updated := m.(otp := Some(Otp.Encode(code)), otpExpiry := Some(PlusMinutes(now, EmailChangeOtpMinutes)));
          match Members.Save(s.members, updated)
          case Failure(_) => Reply(s.(outbox := s.outbox + [VerificationMail(newEmail.value, code)]), Failure(StoreFailure))
          case Success(members) =>
            Reply(s.(members := members, outbox := s.outbox + [VerificationMail(newEmail.value, code)]), Success(()))
  }

  /**
   * `verifyEmailUpdate(email, otp)`, its checks in the source's order: email given, code
   * given, member found, code present and unexpired, code matching, email free; then the
   * email is changed and the OTP slot cleared.
   */
  function VerifyEmailUpdate(s: State, memberId: string, email: Option<string>, otp: Option<string>, now: Time): (r: Reply<Members.Member>)
    ensures Text.NullOrBlank(email) ==> r == Reply(s, Failure(EmailRequired))
    ensures !Text.NullOrBlank(email) && Text.NullOrBlank(otp) ==> r == Reply(s, Failure(OtpRequired))
    ensures !Text.NullOrBlank(email) && !Text.NullOrBlank(otp) && Members.FindById(s.members, memberId).None? ==>
              r == Reply(s, Failure(MemberNotFound))
    ensures !Text.NullOrBlank(email) && !Text.NullOrBlank(otp) && Members.FindById(s.members, memberId).Some? ==>
              var m := Members.FindById(s.members, memberId).value;
              && (m.otpExpiry.None? || m.otpExpiry.value < now ==> r == Reply(s, Failure(OtpExpired)))
              && (m.otpExpiry.Some? && !(m.otpExpiry.value < now) && !Otp.Matches(otp.value, m.otp) ==>
                    r == Reply(s, Failure(InvalidOtp)))
              && (m.otpExpiry.Some? && !(m.otpExpiry.value < now) && Otp.Matches(otp.value, m.otp) ==>
                    && (TakenByOther(s.members, email.value, memberId) ==> r == Reply(s, Failure(EmailAlreadyRegistered)))
                    && (!TakenByOther(s.members, email.value, memberId) ==>
                          (r.result.Success? <==> !Members.EmailOwnedByOther(s.members, email.value, memberId))))
    ensures r.result.Failure? ==> r.state == s
    ensures r.result.Success? ==>
              !Text.NullOrBlank(email) && !Text.NullOrBlank(otp) && Members.FindById(s.members, memberId).Some? &&
              var m := Members.FindById(s.members, memberId).value;
              && m.otpExpiry.Some? && !(m.otpExpiry.value < now)
              && Otp.Matches(otp.value, m.otp)
              && !TakenByOther(s.members, email.value, memberId)
              && r.result.value == m.(email := email.value, otp := None, otpExpiry := None)
              && Members.FindById(r.state.members, memberId) == Some(r.result.value)
              && Members.Replaced(s.members, r.state.members, r.result.value)
              && r.state.pending == s.pending && r.state.revoked == s.revoked && r.state.outbox == s.outbox
  {
    if Text.NullOrBlank(email) then Reply(s, Failure(EmailRequired))
    else if Text.NullOrBlank(otp) then Reply(s, Failure(OtpRequired))
    else
      match Members.FindById(s.members, memberId)
      case None => Reply(s, Failure(MemberNotFound))
      case Some(m) =>
        if m.otpExpiry.None? || m.otpExpiry.value < now then Reply(s, Failure(OtpExpired))
        else if !Otp.Matches(otp.value, m.otp) then Reply(s, Failure(InvalidOtp))
        else if TakenByOther(s.members, email.value, memberId) then Reply(s, Failure(EmailAlreadyRegistered))
        else
          var updated := m.(email := email.value, otp := None, otpExpiry := None);
          match Members.Save(s.members, updated)
          case Failure(_) => Reply(s, Failure(StoreFailure))
          case Success(members) => Reply(s.(members := members), Success(updated))
  }
}

=== FILE: validation.dfy ===
/**
 * The Bean Validation constraints on the request bodies: `@NotNull`, `@NotBlank`,
 * `@Size(max)` and `@Pattern` (a whole-string match). Each request's check yields the set of
 * field names it rejects; the request is valid exactly when that set is empty. `@Email` is not
 * part of this model.
 */
module Validation {
  import opened Wrappers
  import Text
  import Payments
  import Addresses
  import Dependents
  import UserService
  import Members
  import Accounts
  import AllergyRecords

  /** `@NotBlank`: present, and not empty once `trim` has removed leading and trailing spaces. */
  predicate NotBlank(s: Option<string>) {
    !Text.NullOrBlank(s)
  }

  /** `@Size(max = n)`: null passes; otherwise at most `n` characters. */
  predicate SizeAtMost(s: Option<string>, n: nat) {
    s.None? || |s.value| <= n
  }

  /** `@Pattern`: null passes; otherwise the whole string matches. */
  predicate PatternOk(s: Option<string>, matches: string -> bool) {
    s.None? || matches(s.value)
  }

  /** `\d{lo,hi}`: between `lo` and `hi` ASCII digits. */
  predicate DigitRun(s: string, lo: nat, hi: nat) {
    lo <= |s| <= hi && Text.AllDigits(s)
  }

  /** `\d{16}` */
  predicate IsCardNumber(s: string) {
    DigitRun(s, 16, 16)
  }

  /** `\d{10}` */
  predicate IsTenDigits(s: string) {
    DigitRun(s, 10, 10)
  }

  /** `\d{9,18}` */
  predicate IsBankAccountNumber(s: string) {
    DigitRun(s, 9, 18)
  }

  predicate IsUpper(c: char) {
    'A' <= c <= 'Z'
  }

  /** `[a-zA-Z0-9.]` */
  predicate UpiChar(c: char) {
    'a' <= c <= 'z' || IsUpper(c) || Text.IsDigit(c) || c == '.'
  }

  /** `[a-zA-Z0-9.]+@[a-zA-Z0-9.]+` */
  predicate IsUpiId(s: string) {
    exists k :: 0 < k < |s| - 1 && s[k] == '@'
                && (forall i :: 0 <= i < k ==> UpiChar(s[i]))
                && (forall i :: k < i < |s| ==> UpiChar(s[i]))
  }

  /** `[A-Z]{4}0[A-Z0-9]{6}` */
  predicate IsIfscCode(s: string) {
    && |s| == 11
    && (forall i :: 0 <= i < 4 ==> IsUpper(s[i]))
    && s[4] == '0'
    && (forall i :: 5 <= i < 11 ==> IsUpper(s[i]) || Text.IsDigit(s[i]))
  }

  /** `field` when `ok` fails, nothing otherwise. */
  function Check(ok: bool, field: string): (r: set<string>)
    ensures field in r <==> !ok
    ensures forall f :: f in r ==> f == field
  {
    if ok then {} else {field}
  }

  /** The rejected fields of a `PaymentRequest`. */
  function PaymentRequestViolations(r: Payments.PaymentRequest): (v: set<string>)
    ensures "paymentType" in v <==> r.paymentType.None?
    ensures "cardNumber" in v <==> !PatternOk(r.details.cardNumber, IsCardNumber)
    ensures "upiId" in v <==> !PatternOk(r.details.upiId, IsUpiId)
    ensures "nameOnCard" in v <==> !SizeAtMost(r.details.nameOnCard, 100)
    ensures "accountHolderName" in v <==> !SizeAtMost(r.details.accountHolderName, 100)
    ensures "bankAccountNumber" in v <==> !PatternOk(r.details.bankAccountNumber, IsBankAccountNumber)
    ensures "ifscCode" in v <==> !PatternOk(r.details.ifscCode, IsIfscCode)
    ensures v <= {"paymentType", "cardNumber", "upiId", "nameOnCard", "accountHolderName", "bankAccountNumber", "ifscCode"}
  {
    Check(r.paymentType.Some?, "paymentType") + CardAndUpiViolations(r.details) + BankViolations(r.details)
  }

  /** The rejected card and UPI fields of a payment's details. */
  function CardAndUpiViolations(d: Payments.PaymentDetails): (v: set<string>)
    ensures "cardNumber" in v <==> !PatternOk(d.cardNumber, IsCardNumber)
    ensures "upiId" in v <==> !PatternOk(d.upiId, IsUpiId)
    ensures "nameOnCard" in v <==> !SizeAtMost(d.nameOnCard, 100)
    ensures v <= {"cardNumber", "upiId", "nameOnCard"}
  {
    Check(PatternOk(d.cardNumber, IsCardNumber), "cardNumber")
    + Check(PatternOk(d.upiId, IsUpiId), "upiId")
    + Check(SizeAtMost(d.nameOnCard, 100), "nameOnCard")
  }

  /** The rejected bank-account fields of a payment's details. */
  function BankViolations(d: Payments.PaymentDetails): (v: set<string>)
    ensures "accountHolderName" in v <==> !SizeAtMost(d.accountHolderName, 100)
    ensures "bankAccountNumber" in v <==> !PatternOk(d.bankAccountNumber, IsBankAccountNumber)
    ensures "ifscCode" in v <==> !PatternOk(d.ifscCode, IsIfscCode)
    ensures v <= {"accountHolderName", "bankAccountNumber", "ifscCode"}
  {
    Check(SizeAtMost(d.accountHolderName, 100), "accountHolderName")
    + Check(PatternOk(d.bankAccountNumber, IsBankAccountNumber), "bankAccountNumber")
    + Check(PatternOk(d.ifscCode, IsIfscCode), "ifscCode")
  }

  /** The rejected fields of an `AddressRequest`. */
  function AddressRequestViolations(r: Addresses.AddressRequest): (v: set<string>)
    ensures "addressLabel" in v <==> !NotBlank(r.addressLabel) || !SizeAtMost(r.addressLabel, 50)
    ensures "addressLine1" in v <==> !NotBlank(r.fields.addressLine1)
    ensures "city" in v <==> !NotBlank(r.fields.city)
    ensures "state" in v <==> !NotBlank(r.fields.state)
    ensures "zipCode" in v <==> !NotBlank(r.fields.zipCode) || !SizeAtMost(r.fields.zipCode, 10)
    ensures v <= {"addressLabel", "addressLine1", "city", "state", "zipCode"}
  {
    var f := r.fields;
    Check(NotBlank(r.addressLabel) && SizeAtMost(r.addressLabel, 50), "addressLabel")
    + Check(NotBlank(f.addressLine1), "addressLine1")
    + Check(NotBlank(f.city), "city")
    + Check(NotBlank(f.state), "state")
    + Check(NotBlank(f.zipCode) && SizeAtMost(f.zipCode, 10), "zipCode")
  }

  /** The rejected fields of an `UpdateAddressRequest` (the same fields, all optional). */
  function UpdateAddressRequestViolations(r: Addresses.AddressRequest): (v: set<string>)
    ensures "addressLabel" in v <==> !SizeAtMost(r.addressLabel, 50)
    ensures "zipCode" in v <==> !SizeAtMost(r.fields.zipCode, 10)
    ensures v <= {"addressLabel", "zipCode"}
  {
    Check(SizeAtMost(r.addressLabel, 50), "addressLabel")
    + Check(SizeAtMost(r.fields.zipCode, 10), "zipCode")
  }

  /** The rejected fields of a `DependentRequest`. */
  function DependentRequestViolations(r: Dependents.DependentRequest): (v: set<string>)
    ensures "fullName" in v <==> !NotBlank(r.fullName)
    ensures "relation" in v <==> !NotBlank(r.fields.relation)
    ensures "dob" in v <==> r.fields.dob.None?
    ensures "mobileNumber" in v <==> !PatternOk(r.fields.mobileNumber, IsTenDigits)
    ensures v <= {"fullName", "relation", "dob", "mobileNumber"}
  {
    Check(NotBlank(r.fullName), "fullName")
    + Check(NotBlank(r.fields.relation), "relation")
    + Check(r.fields.dob.Some?, "dob")
    + Check(PatternOk(r.fields.mobileNumber, IsTenDigits), "mobileNumber")
  }

  /** The rejected fields of an `UpdateDependentRequest`. */
  function UpdateDependentRequestViolations(r: Dependents.DependentRequest): (v: set<string>)
    ensures "fullName" in v <==> !SizeAtMost(r.fullName, 100)
    ensures "mobileNumber" in v <==> !PatternOk(r.fields.mobileNumber, IsTenDigits)
    ensures v <= {"fullName", "mobileNumber"}
  {
    Check(SizeAtMost(r.fullName, 100), "fullName")
    + Check(PatternOk(r.fields.mobileNumber, IsTenDigits), "mobileNumber")
  }

  /** The rejected fields of an `UpdateProfileRequest`. */
  function UpdateProfileRequestViolations(r: UserService.ProfileChange): (v: set<string>)
    ensures "contact" in v <==> !PatternOk(r.contact, IsTenDigits)
    ensures v <= {"contact"}
  {
    Check(PatternOk(r.contact, IsTenDigits), "contact")
  }

  /** The rejected fields of an `AllergyRecordRequest`. */
  function AllergyRecordRequestViolations(r: AllergyRecords.AllergyEntry): (v: set<string>)
    ensures "allergies" in v <==> !NotBlank(r.allergies)
    ensures v <= {"allergies"}
  {
    Check(NotBlank(r.allergies), "allergies")
  }

  /** Null, empty and all-space allergies are each rejected; the description never is. */
  lemma AllergiesMustHaveContent(description: Option<string>, spaces: nat)
    ensures AllergyRecordRequestViolations(AllergyRecords.AllergyEntry(None, description)) == {"allergies"}
    ensures AllergyRecordRequestViolations(AllergyRecords.AllergyEntry(Some(""), description)) == {"allergies"}
    ensures AllergyRecordRequestViolations(AllergyRecords.AllergyEntry(Some(Text.Repeat(' ', spaces)), description)) == {"allergies"}
    ensures AllergyRecordRequestViolations(AllergyRecords.AllergyEntry(Some("a"), description)) == {}
  {
    assert !Text.IsSpace("a"[0]);
  }

  /** An update request with every field null is valid. */
  lemma EmptyUpdatesAreValid()
    ensures UpdateAddressRequestViolations(Addresses.AddressRequest(None, Addresses.AddressFields(None, None, None, None, None, None))) == {}
    ensures UpdateDependentRequestViolations(Dependents.DependentRequest(None, Dependents.DependentFields(None, None, None, None, None))) == {}
    ensures UpdateProfileRequestViolations(UserService.ProfileChange(None, None, None, None)) == {}
  {
  }

  /** A payment request with only its type set is valid: every other constraint lets null pass. */
  lemma BarePaymentRequestValid(t: Payments.PaymentType)
    ensures PaymentRequestViolations(Payments.PaymentRequest(Some(t), Payments.NoChange)) == {}
  {
  }

  /** A valid request is never refused by the service for a null key or a null required column. */
  lemma ValidRequestsAreStored(memberId: string, payment: Payments.PaymentRequest, address: Addresses.AddressRequest,
                               dependent: Dependents.DependentRequest, allergy: AllergyRecords.AllergyEntry,
                               payments: seq<Payments.Payment>, addresses: seq<Addresses.Address>,
                               dependents: seq<Dependents.Dependent>, allergies: seq<AllergyRecords.AllergyRecord>)
    ensures PaymentRequestViolations(payment) == {} ==> Payments.AddPayment(payments, memberId, payment).Success?
    ensures AddressRequestViolations(address) == {} ==> Addresses.AddAddress(addresses, memberId, address).Success?
    ensures DependentRequestViolations(dependent) == {} ==> Dependents.AddDependent(dependents, memberId, dependent).Success?
    ensures AllergyRecordRequestViolations(allergy) == {} ==> AllergyRecords.AddAllergyRecord(allergies, memberId, allergy).Success?
  {
    if AddressRequestViolations(address) == {} {
      assert "addressLabel" !in AddressRequestViolations(address);
    }
    if DependentRequestViolations(dependent) == {} {
      assert "fullName" !in DependentRequestViolations(dependent);
    }
  }

  /** The sizes the add validator checked on every stored address: label and zip code. */
  predicate StoredAddressOk(a: Addresses.Address) {
    |a.addressLabel| <= 50 && SizeAtMost(a.fields.zipCode, 10)
  }

  /**
   * A valid update request keeps the checked sizes of every stored address: the label never
   * changes, and a zip code is written only when the request's one passed `@Size(max = 10)`.
   */
  lemma ValidAddressUpdateKeepsSizes(rows: seq<Addresses.Address>, memberId: string, addressLabel: string, request: Addresses.AddressRequest)
    requires forall a :: a in rows ==> StoredAddressOk(a)
    requires UpdateAddressRequestViolations(request) == {}
    ensures var r := Addresses.UpdateAddress(rows, memberId, addressLabel, request);
            r.Success? ==> forall a :: a in r.value.0 ==> StoredAddressOk(a)
  {
    assert "zipCode" !in UpdateAddressRequestViolations(request);
  }

  /** The constraints the add validator checked on every stored dependent: name size and mobile pattern. */
  predicate StoredDependentOk(d: Dependents.Dependent) {
    |d.fullName| <= 100 && PatternOk(d.fields.mobileNumber, IsTenDigits)
  }

  /**
   * A valid update request keeps the checked constraints of every stored dependent, renamed
   * or not: a new name passed `@Size(max = 100)` and a new mobile number passed `\d{10}`.
   */
  lemma ValidDependentUpdateKeepsConstraints(rows: seq<Dependents.Dependent>, memberId: string, fullName: string, request: Dependents.DependentRequest)
    requires forall d :: d in rows ==> StoredDependentOk(d)
    requires |fullName| <= 100
    requires UpdateDependentRequestViolations(request) == {}
    ensures var r := Dependents.UpdateDependent(rows, memberId, fullName, request);
            r.Success? ==> forall d :: d in r.value.0 ==> StoredDependentOk(d)
  {
    assert "fullName" !in UpdateDependentRequestViolations(request);
    assert "mobileNumber" !in UpdateDependentRequestViolations(request);
  }

  /**
   * A valid profile update keeps a ten-digit contact: the stored one stays, or the request's,
   * which passed `\d{10}`, replaces it.
   */
  lemma ValidProfileUpdateKeepsContact(s: Accounts.State, memberId: string, request: UserService.ProfileChange)
    requires Members.FindById(s.members, memberId).Some? ==> IsTenDigits(Members.FindById(s.members, memberId).value.contact)
    requires UpdateProfileRequestViolations(request) == {}
    ensures var r := UserService.UpdateProfile(s, memberId, request);
            r.result.Success? ==> IsTenDigits(r.result.value.contact) && IsTenDigits(Members.FindById(r.state.members, memberId).value.contact)
  {
    assert "contact" !in UpdateProfileRequestViolations(request);
  }

  /** A valid card number is shown as twelve `*` and its last four digits. */
  lemma ValidCardNumberMasked(r: Payments.PaymentRequest)
    requires PaymentRequestViolations(r) == {} && r.details.cardNumber.Some?
    ensures var card := r.details.cardNumber.value;
            Payments.Mask(Some(card)) == Some(Text.Repeat('*', 12) + card[12..])
  {
    assert "cardNumber" !in PaymentRequestViolations(r);
    var card := r.details.cardNumber.value;
    assert |card| == 16;
  }

  /** A valid bank account number keeps its length and last four digits; the rest is hidden. */
  lemma ValidBankAccountMasked(r: Payments.PaymentRequest)
    requires PaymentRequestViolations(r) == {} && r.details.bankAccountNumber.Some?
    ensures var n := r.details.bankAccountNumber.value;
            var m := Payments.Mask(Some(n)).value;
            && 9 <= |m| == |n| <= 18
            && m[|m| - 4..] == n[|n| - 4..]
            && forall i :: 0 <= i < |m| - 4 ==> m[i] == '*'
  {
    assert "bankAccountNumber" !in PaymentRequestViolations(r);
  }

  /** How many `@` characters `s` holds. */
  function CountAt(s: string): (n: nat)
    ensures n <= |s|
  {
    if s == [] then 0 else (if s[0] == '@' then 1 else 0) + CountAt(s[1..])
  }

  lemma {:induction false} CountAtZero(s: string)
    ensures CountAt(s) == 0 <==> forall i :: 0 <= i < |s| ==> s[i] != '@'
  {
    if s != [] {
      CountAtZero(s[1..]);
      assert forall i :: 1 <= i < |s| ==> s[i] == s[1..][i - 1];
    }
  }

  lemma {:induction false} CountAtAppend(a: string, b: string)
    ensures CountAt(a + b) == CountAt(a) + CountAt(b)
  {
    if a == [] {
      assert a + b == b;
    } else {
      assert (a + b)[1..] == a[1..] + b;
      CountAtAppend(a[1..], b);
    }
  }

  /** Index of the first `@`, or `|s|` when there is none. */
  function FirstAt(s: string): (k: nat)
    ensures k <= |s|
    ensures forall i :: 0 <= i < k ==> s[i] != '@'
    ensures k < |s| ==> s[k] == '@'
  {
    if s == [] then 0
    else if s[0] == '@' then 0
    else
      var k := FirstAt(s[1..]);
      assert forall i :: 1 <= i < k + 1 ==> s[i] == s[1..][i - 1];
      k + 1
  }

  /** The shape the UPI pattern describes, stated without the pattern. */
  predicate SingleAtShape(s: string) {
    && CountAt(s) == 1 && s[0] != '@' && s[|s| - 1] != '@'
    && forall i :: 0 <= i < |s| ==> s[i] == '@' || UpiChar(s[i])
  }

  /**
   * The UPI pattern accepts exactly the strings with a single `@`, neither first nor last, and
   * every other character a letter, digit or dot.
   */
  lemma UpiIdShape(s: string)
    ensures IsUpiId(s) <==> SingleAtShape(s)
  {
    if IsUpiId(s) {
      UpiIdHasShape(s);
    }
    if SingleAtShape(s) {
      ShapeIsUpiId(s);
    }
  }

  lemma UpiIdHasShape(s: string)
    requires IsUpiId(s)
    ensures SingleAtShape(s)
  {
    var k :| 0 < k < |s| - 1 && s[k] == '@'
             && (forall i :: 0 <= i < k ==> UpiChar(s[i]))
             && (forall i :: k < i < |s| ==> UpiChar(s[i]));
    forall i | 0 <= i < |s| && i != k ensures UpiChar(s[i]) {
      assert i < k || k < i;
    }
    CountAtOne(s, k);
  }

  /** A string whose only `@` is at `k` holds one `@`. */
  lemma CountAtOne(s: string, k: nat)
    requires k < |s| && s[k] == '@'
    requires forall i :: 0 <= i < |s| && i != k ==> s[i] != '@'
    ensures CountAt(s) == 1
  {
    var before, after := s[..k], s[k + 1..];
    assert s == before + ([s[k]] + after);
    CountAtAppend(before, [s[k]] + after);
    CountAtAppend([s[k]], after);
    assert CountAt([s[k]]) == 1;
    assert CountAt(before) == 0 by {
      assert forall i :: 0 <= i < |before| ==> before[i] == s[i];
      CountAtZero(before);
    }
    assert CountAt(after) == 0 by {
      assert forall i :: 0 <= i < |after| ==> after[i] == s[k + 1 + i];
      CountAtZero(after);
    }
  }

  lemma ShapeIsUpiId(s: string)
    requires SingleAtShape(s)
    ensures IsUpiId(s)
  {
    var k := FirstAt(s);
    CountAtZero(s);
    var before, after := s[..k], s[k + 1..];
    assert s == before + ([s[k]] + after);
    CountAtAppend(before, [s[k]] + after);
    CountAtAppend([s[k]], after);
    assert forall i :: 0 <= i < |before| ==> before[i] == s[i];
    CountAtZero(before);
    assert CountAt([s[k]]) == 1;
    CountAtZero(after);
    assert forall i :: k < i < |s| ==> s[i] == after[i - (k + 1)];
    assert 0 < k < |s| - 1;
  }
}

=== FILE: wrappers.dfy ===
/** Nullable values and success/failure results shared by every module of the model. */
module Wrappers {

  /** A Java reference that may be null: `None` plays the part of `null`. */
  datatype Option<T> = None | Some(value: T) {

    /** The value, or `default` when absent. */
    function GetOr(default: T): T {
      if Some? then value else default
    }

    /** This value when present, otherwise `other`: the "only non-null fields change" rule. */
    function Or(other: Option<T>): Option<T> {
      if Some? then this else other
    }
  }

  /** The outcome of an operation that either returns a value or throws a service exception. */
  datatype Result<T, E> = Success(value: T) | Failure(error: E)
}

/** The integer clock and calendar dates. */
module Clock {

  /** An instant, in milliseconds on one integer clock. */
  type Time = int

  const MinuteMs: int := 60000
  const DayMs: int := 24 * 60 * MinuteMs

  /** `LocalDateTime.plusMinutes` on the integer clock. */
  function PlusMinutes(t: Time, minutes: int): Time {
    t + minutes * MinuteMs
  }

  /** A `LocalDate`; only the year is ever inspected. */
  datatype Date = Date(year: int, month: int, day: int)
}
